=== FILE: README.md ===
# naadi-raksha core, modelled in Dafny

This project models the sequential logic of the naadi-raksha back end (an Express server
with an in-memory call registry, message and user stores, health telemetry and an AI prompt
builder) and of its React front end (the chat state updaters, the server client and the
message bubble's bold formatter), and proves properties about that model.

One Dafny module stands for each source file:

| module | source |
|---|---|
| `CallService` | `Backend/src/services/call.service.js` |
| `AiService` | `Backend/src/services/ai.service.js` |
| `MessageControllers` | `Backend/src/controllers/message.controllers.js` |
| `MessageService` | `Backend/src/services/message.service.js` |
| `MessageModel` | `Backend/src/models/message.model.js` |
| `HealthControllers` | `Backend/src/controllers/health.controllers.js` |
| `UserControllers` | `Backend/src/controllers/user.controllers.js` |
| `UserModel` | `Backend/src/models/user.model.js` |
| `Config` | `Backend/src/config/config.js` |
| `AppCors` | `Backend/src/app.js` |
| `Logger` | `Backend/src/utils/logger.js` |
| `ChatApp` | `frontend/src/App.tsx` |
| `ChatTypes` | `frontend/src/types.ts` |
| `ApiClient` | `frontend/src/services/api.ts` |
| `MessageBubble` | `frontend/src/components/MessageBubble.tsx` |

A few modules are shared:

- `Wrappers` provides `Option` and `Result`.
- `JsValue` is a JSON-like JavaScript value with truthiness, `?.` and `??`.
- `Http` is the `{ status, body }` reply of a handler.
- `Text` covers `trim`, the trailing-slash strip, `split`/`join` on one character, ASCII `toLowerCase` and decimal rendering.
- `Ordering` covers `filter`, and MongoDB's `find`/`sort`/`limit` and `reverse`.

The model follows the form of the source:

- `CallService.CallRegistry` is a class whose methods update its `calls` and `activeByUser` maps in place.
- The stores (`MessageStore`, `UserStore`, `HealthStore`) are classes over a sequence of documents.
- Loops in the source are `while` loops with invariants: `forEach`, `for await` and the `lines.push` loop.
- `messages.reverse()` is an in-place reversal of an `array`.
- Pipelines and checks are functions.

Things that come from outside are parameters:

- generated ids (`crypto.randomUUID`, `uuidv4`, Mongo ids);
- the clock (`Date.now`), one parameter for each read, since two reads may differ;
- number and date parsing (`Number`, `parseInt`, `new Date`), as partial functions;
- `mongoose.isValidObjectId`;
- the server's answers;
- the reply stream's chunks;
- the process environment.

`setTimeout`/`clearTimeout` are modelled as a table of pending handles (`timers`) that the
registry arms, clears and fires.

`ai.service.js` reads `config.GEMINI_API_KEY` and `logger.js` reads `config.LOG_LEVEL`, but
`config.js` defines neither of them (it defines `GOOGLE_API_KEY`). The key and the level are
therefore parameters of the model. With the configuration as written, both are always
absent: `getClient` always fails and the log level is always info. The contracts cover that
case.

## Model

| member | source | states |
|---|---|---|
| CallService.UserKeyInjective | Backend/src/services/call.service.js:6 | Within one team, two users with the same `team:username` key are the same user. |
| CallService.UserKey | Backend/src/services/call.service.js:6 | `buildUserKey`: the team name, a colon and the user name. Within one team the key determines the user (`UserKeyInjective`). |
| CallService.IsTerminal | Backend/src/services/call.service.js:19-21 | A status is terminal exactly when it is one of `REJECTED`, `CANCELLED`, `ENDED` and `FAILED`. |
| CallService.Merge | Backend/src/services/call.service.js:118 | `Object.assign(call, updates)`: each field given in the patch replaces the call's, and every other field is kept (`MergeKeepsKeys`). |
| CallService.CleanupKeys | Backend/src/services/call.service.js:157-170 | The keys `cleanup` deletes for a call: the caller's and every receiver's, or the single receiver's when `receivers` is not an array. |
| CallService.TargetList | Backend/src/services/call.service.js:51 | The `receivers` array when given, else the single truthy `receiver` as a one-element list, else nothing. |
| CallService.NewCall | Backend/src/services/call.service.js:83-102 | The record `createCall` stores: status `CALLING`, the receiver set only for exactly one available target, no answer, no end, no timer, and the three stamps from one clock read. |
| CallService.ValidState | Backend/src/services/call.service.js:8-12 | What holds between the registry's maps: each call is stored under its own id, each index entry names a stored call that holds the key, and each pending timer belongs to a stored call that holds the handle. |
| CallService.CallRegistry.Valid | Backend/src/services/call.service.js:8-12 | The registry's fields satisfy `ValidState`. Every method that may break it is proved to keep it. |
| CallService.MergeKeepsKeys | Backend/src/services/call.service.js:115-120 | Merging a patch that leaves the caller, receivers, team, id and timer alone keeps the set of keys `cleanup` would delete. |
| CallService.Present | Backend/src/services/call.service.js:52 | The targets that survive `filter(Boolean)` are exactly the non-empty names in the list. |
| CallService.PresentAppend | Backend/src/services/call.service.js:52 | `filter(Boolean)` works element by element and keeps the request's order: the names of a concatenation are the names of the first part followed by those of the second. |
| CallService.FirstIndex | Backend/src/services/call.service.js:53 | The position of the first occurrence of a name, where that name sits. |
| CallService.FirstIndexIsFirst | Backend/src/services/call.service.js:53 | No earlier position holds the name, so it is the first occurrence that `indexOf` finds. |
| CallService.Distinct | Backend/src/services/call.service.js:53 | The de-duplication has no duplicates and keeps exactly the names of the list that were not already seen. |
| CallService.DistinctOrder | Backend/src/services/call.service.js:53 | The de-duplication keeps first-occurrence order: each name comes before every name whose first occurrence is later. |
| CallService.Without | Backend/src/services/call.service.js:54 | Removing the caller keeps exactly the other names. |
| CallService.WithoutDistinct | Backend/src/services/call.service.js:53-54 | Removing the caller after de-duplicating is de-duplicating with the caller already seen. |
| CallService.UniqueTargets | Backend/src/services/call.service.js:51-54 | The targets have no duplicates and are exactly the non-empty names of the list other than the caller. |
| CallService.Targets | Backend/src/services/call.service.js:51-54 | The request's targets have no duplicates and are exactly the non-empty names of `receivers` (or of the single `receiver`) other than the caller. |
| CallService.ResolvedId | Backend/src/services/call.service.js:72 | A non-empty `callId` is kept; otherwise the generated id is used. |
| CallService.UniqueTargetsFirstOccurrence | Backend/src/services/call.service.js:51-54 | Every target is present in the list, and the targets keep the order of their first occurrences. |
| CallService.FreeTargets | Backend/src/services/call.service.js:64-69 | The available targets are exactly the targets whose key is not in the index; they have no duplicates and are no more than the targets. |
| CallService.Skipped | Backend/src/services/call.service.js:110 | `skipped` is exactly the targets that are not available. |
| CallService.SkippedAreBusy | Backend/src/services/call.service.js:64-69 | A user is skipped exactly when they are a target whose key was already in the index. |
| CallService.RingingStates | Backend/src/services/call.service.js:77-81 | The loop builds the map that sends every available target, and nothing else, to `RINGING`. |
| CallService.AddCallKeepsValid | Backend/src/services/call.service.js:104-108 | Storing a fresh call and pointing its keys at it keeps the registry invariant. |
| CallService.RemoveCallKeepsValid | Backend/src/services/call.service.js:157-170 | Removing a call, its keys and its timer keeps the invariant, and no key or pending timer names that call afterwards. |
| CallService.ArmTimerKeepsValid | Backend/src/services/call.service.js:148-155 | Clearing a call's old timer and arming a fresh handle keeps the invariant, and the fresh handle is the only one pending for that call. |
| CallService.CallRegistry.constructor | Backend/src/services/call.service.js:9-12 | The registry starts with both maps and the timer table empty, and the invariant holds. |
| CallService.CallRegistry.GetCall | Backend/src/services/call.service.js:23-25 | Returns the call stored under the id, or nothing when there is none. |
| CallService.CallRegistry.IsUserBusy | Backend/src/services/call.service.js:34-37 | A user is busy exactly when their key is in the index, whatever it maps to. |
| CallService.CallRegistry.FindActiveCallByUser | Backend/src/services/call.service.js:27-32 | Returns a call exactly when the user's key maps to a non-empty id of a stored call, and then it returns that call. |
| CallService.CallRegistry.FindActiveCallBetween | Backend/src/services/call.service.js:172-184 | Returns the first user's call exactly when the second user is its receiver, its caller or one of its receivers and its status is not terminal. |
| CallService.CallRegistry.CreateCall | Backend/src/services/call.service.js:39-113 | Checks, in order: caller busy, then no targets, then every target busy, then duplicate id. A failure changes nothing. On success it stores a `CALLING` call that rings every available target; the receiver is set only for exactly one target; answer, end and timer are null. The caller's and those targets' keys map to the new id, no other key changes, and the invariant is kept. |
| CallService.CallRegistry.Commit | Backend/src/services/call.service.js:104-108 | Stores the call under its id, and exactly its caller's and receivers' keys are added or overwritten to map to it. |
| CallService.CallRegistry.MarkBusy | Backend/src/services/call.service.js:105-108 | The `forEach` loop points exactly the given users' keys at the id and leaves every other key as it was. |
| CallService.CallRegistry.UpdateCall | Backend/src/services/call.service.js:115-120 | An unknown id gives null and changes nothing. A known id gets the merged record with `updatedAt` stamped. The index and the timers are untouched. |
| CallService.CallRegistry.SetStatus | Backend/src/services/call.service.js:122-132 | Sets the status and `updatedAt` from one clock read, and stamps `endedAt` from a second read only for a terminal status. Then it merges `updates`, which may override those fields. Unknown ids give null. The index and the timers are never touched. |
| CallService.CallRegistry.ReleaseReceiver | Backend/src/services/call.service.js:140-146 | Does nothing unless the call exists and the user is one of its receivers. Otherwise it records that receiver's state (default `CANCELLED`), deletes only that user's key and leaves the call's status alone. |
| CallService.CallRegistry.StartTimeout | Backend/src/services/call.service.js:148-155 | An unknown id is a no-op. Otherwise the previous handle is cleared and a fresh one is armed and stored, so exactly one timer is pending for the call. |
| CallService.CallRegistry.ClearTimeout | Backend/src/services/call.service.js:134-138 | Cancels the call's pending handle, if any, and forgets it. |
| CallService.CallRegistry.TimerFires | Backend/src/services/call.service.js:152-154 | A pending handle fires once, reports its call id and is no longer pending. Any other handle reports nothing. |
| CallService.CallRegistry.ReleaseAll | Backend/src/services/call.service.js:163-169 | The loop deletes exactly the given receivers' keys from the index. |
| CallService.CallRegistry.Cleanup | Backend/src/services/call.service.js:157-170 | An unknown id is a no-op, so a second cleanup changes nothing. Otherwise the handle is cleared, the call is removed, and the caller's and every receiver's keys are deleted whatever they map to. Afterwards no key and no pending timer names the call. |
| AiService.KeepTurns | Backend/src/services/ai.service.js:23-24 | Keeps exactly the items that are truthy objects with string content and role `user` or `model`. The order is stated by `KeepTurnsAppend`. |
| AiService.Kept | Backend/src/services/ai.service.js:23-24 | The two filter tests: the item is an object whose `content` is a string and whose `role` is `user` or `model`. |
| AiService.KeepTurnsAppend | Backend/src/services/ai.service.js:23-24 | The filters work item by item and keep the original order: filtering a concatenation filters each part, in order. |
| AiService.Last | Backend/src/services/ai.service.js:25 | `slice(-20)`: the last 20 elements, or all of them when there are fewer. |
| AiService.Relabel | Backend/src/services/ai.service.js:26-29 | `model` becomes `Assistant` and `user` becomes `User`, in both directions. The content is the trimmed content. |
| AiService.RelabelAll | Backend/src/services/ai.service.js:26-29 | The `map` step gives one entry per kept item, and each entry is the relabelled item at the same position. |
| AiService.DropBlank | Backend/src/services/ai.service.js:30 | Keeps exactly the entries with non-empty content. The order is stated by `DropBlankAppend`. |
| AiService.DropBlankAppend | Backend/src/services/ai.service.js:30 | The blank filter keeps the entries in their original order: filtering a concatenation filters each part, in order. |
| AiService.NormalizeHistory | Backend/src/services/ai.service.js:20-31 | A non-array gives nothing. Otherwise there are at most 20 entries, each `User` or `Assistant` with trimmed, non-empty content. Which entries they are is stated by `NormalizeHistoryKeepsRecentTurns`, `NormalizeHistoryIgnoresOlderTurns` and `NormalizeHistoryCapsBeforeDroppingBlanks`. |
| AiService.DropBlankNone | Backend/src/services/ai.service.js:30 | When no entry is blank, the last filter keeps them all. |
| AiService.DropBlankAll | Backend/src/services/ai.service.js:30 | When every entry is blank, the last filter keeps none. |
| AiService.NormalizeHistoryKeepsRecentTurns | Backend/src/services/ai.service.js:20-31 | When none of the last 20 kept turns is blank after trimming, exactly those turns come out, in order: 20 of them when more than 20 were kept. `model` becomes `Assistant`, `user` becomes `User`, and the content is trimmed. |
| AiService.NormalizeHistoryIgnoresOlderTurns | Backend/src/services/ai.service.js:22-25 | Turns before a stretch that holds 20 kept turns never reach the prompt: the history normalises as that stretch alone. |
| AiService.NormalizeHistoryCapsBeforeDroppingBlanks | Backend/src/services/ai.service.js:25-30 | The cap comes before the blank filter: when the last 20 kept turns are blank, the result is empty however many earlier turns are not. |
| AiService.SafeName | Backend/src/services/ai.service.js:7 | The trimmed name when it is a non-blank string, otherwise `User`. Either way it is non-empty and trimmed. |
| AiService.SystemInstructionNamesPatient | Backend/src/services/ai.service.js:6-18 | The instruction is the opening sentence naming the safe name, a space, then the fixed rules joined by spaces. |
| AiService.SystemInstruction | Backend/src/services/ai.service.js:6-18 | `buildSystemInstruction`: the opening sentence naming the patient and the seven fixed rules, joined by spaces (`SystemInstructionNamesPatient`). |
| AiService.HistoryLines | Backend/src/services/ai.service.js:57-59 | One line per history entry. |
| AiService.EntryLine | Backend/src/services/ai.service.js:58 | A history line is the role, then `: `, then the content. |
| AiService.PromptLines | Backend/src/services/ai.service.js:48-65 | The prompt's lines open with the system instruction and close with `User: ` and the trimmed message, then `Assistant:`. |
| AiService.LayoutShape | Backend/src/services/ai.service.js:52-64 | The lines are the instruction; with a history, a blank line, `Conversation history:` and one `Role: content` per entry; then a blank line, `User: <message>` and `Assistant:`. |
| AiService.Layout | Backend/src/services/ai.service.js:52-64 | The `lines` array of `buildPrompt`: the instruction; with a non-empty history, a blank line, `Conversation history:` and one line per entry; then a blank line, the user line and `Assistant:` (`LayoutShape`). |
| AiService.PromptLayout | Backend/src/services/ai.service.js:48-66 | The prompt's lines have that layout, with the normalised history and the trimmed message. |
| AiService.LayoutSplitsIntoLines | Backend/src/services/ai.service.js:66 | When no piece holds a line break, splitting the joined layout at line breaks gives back its lines. |
| AiService.PromptSplitsIntoLines | Backend/src/services/ai.service.js:66 | When the instruction, the message and the history contents hold no line break, splitting the prompt gives back its lines. |
| AiService.NonEmptyTexts | Backend/src/services/ai.service.js:82-87 | The yielded texts are exactly the non-empty chunk texts, and there are no more of them than chunks. |
| AiService.NonEmptyTextsAppend | Backend/src/services/ai.service.js:82-87 | The filter works chunk by chunk: the texts of `a + b` are those of `a` followed by those of `b`. |
| AiService.PushLines | Backend/src/services/ai.service.js:52-64 | The pushes, including the loop over the history, build exactly the layout. |
| AiService.YieldTexts | Backend/src/services/ai.service.js:82-87 | The `for await` loop yields exactly the non-empty chunk texts, in order. |
| AiService.AIService.constructor | Backend/src/services/ai.service.js:34-36 | The service starts without a client. |
| AiService.AIService.GetClient | Backend/src/services/ai.service.js:38-46 | Fails with `GEMINI_API_KEY is not set` when the key is unset or empty. Otherwise it creates the client once and then returns that same client. |
| AiService.AIService.BuildPrompt | Backend/src/services/ai.service.js:48-67 | The prompt is the layout's lines joined by line breaks. |
| AiService.AIService.StreamChat | Backend/src/services/ai.service.js:69-88 | A falsy or non-string message fails first and leaves the client alone. A missing key then fails. Otherwise it sends the prompt and yields the non-empty chunk texts. |
| MessageControllers.TrimmedString | Backend/src/controllers/message.controllers.js:8 | A string is trimmed and any other value becomes `''`; the result is always trimmed. |
| MessageControllers.TrimmedStringIdempotent | Backend/src/controllers/message.controllers.js:8 | Normalising a normalised id changes nothing. |
| MessageControllers.ClampLimit | Backend/src/controllers/message.controllers.js:27-29 | The limit is in [1, 500]. An unparsable limit gives 200, one inside the range is kept, and one outside is clamped to the nearer end. |
| MessageControllers.CheckConversationId | Backend/src/controllers/message.controllers.js:8-25 | Accepts exactly a non-empty trimmed id of at most 200 characters and returns it. Otherwise it gives `conversationId is required` or `conversationId is too long`. |
| MessageControllers.ReverseInPlace | Backend/src/controllers/message.controllers.js:37 | After the in-place reversal, the array holds the reverse of its old contents. |
| MessageControllers.ReversedCopy | Backend/src/controllers/message.controllers.js:37 | The page reversed into oldest-first order. |
| MessageControllers.GetConversationMessages | Backend/src/controllers/message.controllers.js:6-50 | A bad id gives 400 with its message. Otherwise the reply is the newest-first page for the trimmed id and clamped limit, reversed, with `count` equal to the page length. |
| MessageControllers.SafeRole | Backend/src/controllers/message.controllers.js:96-97 | The role is kept when it is one of `user`, `model`, `system`, and otherwise becomes `user`; the result is always one of the three. |
| MessageControllers.CheckCreate | Backend/src/controllers/message.controllers.js:54-104 | A non-object body gives `Invalid payload`. What passes carries the trimmed id (at most 200 characters) and the trimmed content (at most 8000), a truthy user id that is an ObjectId of an existing user, and the safe role. |
| MessageControllers.CheckFields | Backend/src/controllers/message.controllers.js:67-104 | What passes the field checks is the given fields with the safe role. |
| MessageControllers.CheckCreateOrder | Backend/src/controllers/message.controllers.js:67-104 | Each rejection (required fields, id too long, invalid userId, user not found, content over 8000) happens exactly when every earlier check passed and its own fails. |
| MessageControllers.RoleNeverRejects | Backend/src/controllers/message.controllers.js:96-97 | Two bodies that differ only in `role` get the same verdict. |
| MessageControllers.CheckFieldsIgnoresRole | Backend/src/controllers/message.controllers.js:96-97 | No field check looks at the role. |
| MessageControllers.CheckCreateOfObject | Backend/src/controllers/message.controllers.js:54-65 | On an object body, the verdict depends only on the trimmed id, the user id, the trimmed content and the role. |
| MessageControllers.CheckedMessageValidates | Backend/src/controllers/message.controllers.js:106-111 | What the controller lets through passes the schema, and is stored exactly as given, not edited. |
| MessageControllers.CheckedFieldsValidate | Backend/src/controllers/message.controllers.js:106-111 | Fields that pass the controller's checks pass the schema's. |
| MessageControllers.CreateMessage | Backend/src/controllers/message.controllers.js:52-125 | A rejection answers with its status and message and stores nothing. Otherwise it stores and returns, with 201, the message with the trimmed id and content and the safe role. |
| MessageService.Bound | Backend/src/services/message.service.js:8-20 | A bound is set only from a truthy value that parses, and is that parsed date. |
| MessageService.BuildQuery | Backend/src/services/message.service.js:6-23 | The query always holds the conversation id. `$lt` comes only from a parsable `before` and `$gt` only from a parsable `after`. `createdAt` is attached exactly when one of them is set. |
| MessageService.FindMessages | Backend/src/services/message.service.js:25 | See `Ordering.FindIsNewestPage`. |
| MessageService.Matches | Backend/src/services/message.service.js:6-23 | A message the query selects: same conversation id, created before `$lt` and after `$gt` when those bounds are set. |
| MessageService.MessageStore.constructor | Backend/src/models/message.model.js:3-40 | The collection starts empty. |
| MessageService.MessageStore.Save | Backend/src/models/message.model.js:3-36 | The result is the schema's verdict. A valid document is appended, and an invalid one leaves the collection as it was. |
| MessageService.GetConversationMessages | Backend/src/services/message.service.js:4-26 | The result is the newest-first page of the selected messages, with limit 200 by default. |
| MessageService.QueryBounds | Backend/src/services/message.service.js:8-23 | The `createdAt` part is present exactly when a bound parsed. |
| MessageService.RoleOrDefault | Backend/src/services/message.service.js:32 | A non-empty role is kept and an empty one becomes `user`. |
| MessageService.CreateMessage | Backend/src/services/message.service.js:28-38 | Saves the four fields with the defaulted role. On success it appends exactly that message; on failure it stores nothing. |
| MessageModel.ValidateMessage | Backend/src/models/message.model.js:3-36 | A document is valid exactly when it has a non-empty `conversationId`, a `userId` that is an ObjectId, a role among `user`/`model`/`system` or none, and trimmed content that is non-empty and at most 8000 characters. The stored message has the trimmed content, the role defaulted to `user`, `edited` false, and both timestamps set to the save time. |
| MessageModel.RevalidateStored | Backend/src/models/message.model.js:16-31 | A stored message validates again unchanged: the trim setter and the defaults are idempotent. |
| HealthControllers.ToNumber | Backend/src/controllers/health.controllers.js:5-9 | Null, undefined and `''` give nothing; any other value gives its parse, or nothing when it does not parse. |
| HealthControllers.ToDate | Backend/src/controllers/health.controllers.js:11-15 | A falsy value or an invalid date gives nothing; otherwise the parsed date. |
| HealthControllers.DefinedIdempotent | Backend/src/controllers/health.controllers.js:17-24 | The clean-up keeps exactly the keys whose value is not undefined, and cleaning twice is cleaning once. |
| HealthControllers.CleanupObject | Backend/src/controllers/health.controllers.js:17-24 | The loop deletes exactly the keys holding undefined, keeping null and other falsy values with their values. |
| HealthControllers.BuildMetrics | Backend/src/controllers/health.controllers.js:26-48 | The statements build the metrics object described by the two lemmas below. |
| HealthControllers.Metrics | Backend/src/controllers/health.controllers.js:26-48 | The object `buildMetrics` returns: each metric through its aliases, blood pressure only with a reading, undefined entries removed. `BuildMetrics` computes it with the source's statements. |
| HealthControllers.BloodPressureRule | Backend/src/controllers/health.controllers.js:27-36 | A reading is kept exactly when it parsed. The unit (default `mmHg`) is kept exactly when some reading is kept. The object is empty exactly when neither reading parsed. |
| HealthControllers.BloodPressureInMetrics | Backend/src/controllers/health.controllers.js:36-44 | The metrics carry `bloodPressure` exactly when a reading was kept, and then it is that object. |
| HealthControllers.PrimaryMetricWins | Backend/src/controllers/health.controllers.js:39-43 | An aliased metric is read from its primary field whenever that field is not null or undefined, even when it does not parse (so `''` does not fall back). The alias is read only otherwise. |
| HealthControllers.DeviceId | Backend/src/controllers/health.controllers.js:54 | A string device id is trimmed; any other value passes through. |
| HealthControllers.BuildHealthPayload | Backend/src/controllers/health.controllers.js:50-69 | The statements build the document described by `HealthPayloadFields`. |
| HealthControllers.HealthPayload | Backend/src/controllers/health.controllers.js:50-69 | The document `buildHealthPayload` returns, with undefined entries removed (`HealthPayloadFields` states each field). |
| HealthControllers.CapturedAt | Backend/src/controllers/health.controllers.js:152 | The sort key: the document's `capturedAt` date, or none, which sorts after every date. |
| HealthControllers.HealthPayloadFields | Backend/src/controllers/health.controllers.js:50-69 | The document holds the trimmed device id, the capture time from the first of `capturedAt`/`timestamp`/`time` that is not nullish (when it parses), the metrics only when non-empty, and `body.payload ?? body` as `payload`. |
| HealthControllers.HealthStore.constructor | Backend/src/controllers/health.controllers.js:90-95 | The collection starts empty. |
| HealthControllers.HealthStore.Create | Backend/src/controllers/health.controllers.js:90-95 | Appends the document with its id and returns it. |
| HealthControllers.ReceiveHealthData | Backend/src/controllers/health.controllers.js:71-101 | Rejects, in order: a non-object body, a falsy device id after trimming, then a truthy patient id that is not an ObjectId. Otherwise it stores the document and answers 201. A rejection stores nothing. |
| HealthControllers.BlankDeviceIdRejected | Backend/src/controllers/health.controllers.js:77-82 | A blank string device id reaches the check as `''`, because `buildHealthPayload` trims it first, so it is rejected. |
| HealthControllers.HealthLimit | Backend/src/controllers/health.controllers.js:133 | The limit is never above 500. Missing, zero or unparsable gives 50; a value up to 500 is kept, negatives included; a larger one gives 500. |
| HealthControllers.Truncate | Backend/src/controllers/health.controllers.js:151-156 | The page size handed to the store is the limit truncated toward zero: the integer between zero and the limit that is less than one away from it. |
| HealthControllers.TruncateIntegral | Backend/src/controllers/health.controllers.js:151-156 | An integral limit reaches the store unchanged. |
| HealthControllers.UnitOnlyWithReading | Backend/src/controllers/health.controllers.js:34-36 | Every entry other than `unit` is kept unchanged, and `unit` stays exactly when there is at least one other entry. |
| HealthControllers.QueryRange | Backend/src/controllers/health.controllers.js:135-149 | `$gte` comes only from a truthy, valid `from` and `$lte` only from a truthy, valid `to`. The range is absent exactly when neither is valid. |
| HealthControllers.BuildRange | Backend/src/controllers/health.controllers.js:135-149 | The statements that build and delete `query.capturedAt` give that range. |
| HealthControllers.GetLatestDeviceHealthData | Backend/src/controllers/health.controllers.js:103-124 | A missing device id gives 400. A device with no document gives 404. Otherwise the reply is its newest document. |
| HealthControllers.FindHealthSelects | Backend/src/controllers/health.controllers.js:151-156 | Every listed document matches the field and the range; the list is newest first and no longer than a non-zero limit. |
| HealthControllers.Selects | Backend/src/controllers/health.controllers.js:134-149 | A document the query selects: the field equals the requested id, and `capturedAt` is within each bound that is set. |
| HealthControllers.FindHealth | Backend/src/controllers/health.controllers.js:151-154 | `find(query).sort({ capturedAt: -1 }).limit(limit)` over the stored documents (`FindHealthSelects`). |
| HealthControllers.ListHealthData | Backend/src/controllers/health.controllers.js:151-159 | The page is the found documents with `count` equal to their number. |
| HealthControllers.GetDeviceHealthData | Backend/src/controllers/health.controllers.js:126-162 | A missing device id gives 400. Otherwise the reply is the device's page under the limit and range rules. |
| HealthControllers.GetPatientHealthData | Backend/src/controllers/health.controllers.js:164-204 | A missing patient id gives 400, then one that is not an ObjectId gives 400. Otherwise the reply is the patient's page. |
| UserControllers.NameOf | Backend/src/controllers/user.controllers.js:5 | The name is the body's `name`, and undefined when the body is falsy. |
| UserControllers.AvatarOf | Backend/src/controllers/user.controllers.js:5 | The avatar is never undefined: it is the body's avatar when given, otherwise `''`. |
| UserControllers.FindByNameAfterInsert | Backend/src/controllers/user.controllers.js:16-22 | After inserting a user under a key that was free, a lookup by that key finds the new user. |
| UserControllers.CreateOrGetUser | Backend/src/controllers/user.controllers.js:3-36 | A missing or blank name gives 400 before any lookup. A truthy name that is not a string gives 500. Every failure leaves the store unchanged. An existing user with the name's key is returned unchanged. Otherwise a user is created with the trimmed name and the avatar. After a success the key finds the returned user, so names that differ only in case or outer white space get the same user. |
| UserControllers.GetUserById | Backend/src/controllers/user.controllers.js:38-62 | 404 exactly when no user has a valid id; otherwise the user with that id. A malformed id is the 500 path. |
| UserModel.NormalizeName | Backend/src/models/user.model.js:30 | The key has the trimmed name's length, is trimmed, and is empty exactly when the name is all white space. |
| UserModel.NormalizeNameIgnoresCaseAndSpace | Backend/src/models/user.model.js:30 | The key ignores white space around the name and the case of its letters, and normalising a key changes nothing. |
| UserModel.CastAvatar | Backend/src/models/user.model.js:18-21 | An absent avatar becomes `''`; a string or null is stored as given. |
| UserModel.PreValidate | Backend/src/models/user.model.js:28-33 | The hook sets the key exactly when the name is non-empty, and the key is the name trimmed and lower-cased. |
| UserModel.ValidateUser | Backend/src/models/user.model.js:3-33 | A user is valid exactly when the trimmed name has 2 to 60 characters and the avatar casts. The stored user has the trimmed name, the same key the controller looks up, and the avatar. A blank name is `Required`. |
| UserModel.FindByName | Backend/src/models/user.model.js:12-17 | Finds a user with that key, or nothing exactly when no user has it. |
| UserModel.FindById | Backend/src/controllers/user.controllers.js:41 | Finds a user with that id, or nothing exactly when no user has it. |
| UserModel.FindByNameUnique | Backend/src/models/user.model.js:15 | Under the unique index, every stored user is what a lookup by its key returns. |
| UserModel.AppendKeepsUnique | Backend/src/models/user.model.js:15 | Inserting a user whose key is free keeps the keys unique. |
| UserModel.UserStore.constructor | Backend/src/models/user.model.js:35 | The collection starts empty and satisfies the unique index. |
| UserModel.UserStore.Save | Backend/src/models/user.model.js:3-35 | An invalid user is refused. A key already taken is a duplicate-key error. Otherwise the user is appended. The unique index is kept. |
| Config.TrimAll | Backend/src/config/config.js:14 | Each part is trimmed, in order. |
| Config.StripAll | Backend/src/config/config.js:16 | Each part loses its trailing slashes, in order. |
| Config.EnvVar | Backend/src/config/config.js:18-26 | `process.env[name]` is the variable's string when it is set and undefined exactly when it is not. |
| Config.ParseOrigins | Backend/src/config/config.js:11-16 | No origin ends with a slash, and there are no more origins than comma-separated parts. Which origins come out, and in what order, is stated part by part by `ParseOriginsPiece` and `ParseOriginsSingle`. |
| Config.CleanParts | Backend/src/config/config.js:13-16 | The `map`, `filter`, `map` chain: no origin ends with a slash, and there are no more origins than parts. |
| Config.PartOrigin | Backend/src/config/config.js:13-16 | What one part contributes: nothing when it trims to empty, otherwise the trimmed part without its trailing slashes. |
| Config.TrimAllAppend | Backend/src/config/config.js:14 | Trimming works part by part, in order. |
| Config.StripAllAppend | Backend/src/config/config.js:16 | Stripping works part by part, in order. |
| Config.CleanPartsAppend | Backend/src/config/config.js:13-16 | The chain over a concatenation is the chain over each side, in order. |
| Config.CleanPartsSingle | Backend/src/config/config.js:13-16 | The chain over one part is that part's contribution. |
| Config.ParseOriginsSingle | Backend/src/config/config.js:11-16 | A value without a comma gives its trimmed, slash-stripped self, or nothing when it is blank. |
| Config.ParseOriginsPiece | Backend/src/config/config.js:11-16 | For any value, the first comma-separated part contributes its origin, if any, ahead of the origins of the rest, in order. Together with `ParseOriginsSingle` this fixes the result for every input. |
| Config.ParseOriginsRoundTrip | Backend/src/config/config.js:11-16 | Origins that are non-empty, trimmed, comma-free and slash-free survive being joined with commas and parsed again. |
| Config.SlashOnlyPart | Backend/src/config/config.js:15-16 | A part made only of slashes yields `''` wherever it stands, because the empty filter runs before the strip. |
| Config.FrontendUrls | Backend/src/config/config.js:18-21 | No configured origin ends with a slash. |
| Config.Configure | Backend/src/config/config.js:20-29 | No allowed origin in the configuration ends with a slash. |
| Config.FrontendUrlsPrecedence | Backend/src/config/config.js:18-21 | A non-empty `FRONTEND_URLS` wins over `FRONTEND_URL`. When both are unset or empty the list is `http://localhost:5173`. |
| Config.ConfigureDefaults | Backend/src/config/config.js:23-25 | An unset or empty `PORT`, `MONGODB_URI` or `JWT_SECRET` takes its default. A set `PORT` is kept as given. |
| AppCors.NormalizeOrigin | Backend/src/app.js:14 | An empty origin is returned as is. Otherwise the result has no trailing slash and is the origin with only slashes cut from its end. |
| AppCors.NormalizeOriginIdempotent | Backend/src/app.js:14 | Normalising twice is normalising once, and slashes added to a non-empty origin are ignored. |
| AppCors.AllowedOrigins | Backend/src/app.js:15 | The allowed list is the configured list, each entry normalised. |
| AppCors.AllowedOriginsOfConfig | Backend/src/app.js:15 | Normalising the configured origins changes nothing. |
| AppCors.CorsDecision | Backend/src/app.js:20-29 | A request is let through exactly when it has no origin or its normalised origin is allowed; any other gets `CORS not allowed`. |
| AppCors.CorsIgnoresTrailingSlashes | Backend/src/app.js:20-29 | Trailing slashes on the request's origin never change the decision, and an allowed origin with added slashes is let through. |
| Logger.Rank | Backend/src/utils/logger.js:3-8 | Exactly the four level names have a rank, and none is above debug's. |
| Logger.RanksOrdered | Backend/src/utils/logger.js:3-8 | error 0 < warn < info < debug 3. |
| Logger.Lookup | Backend/src/utils/logger.js:10 | `levels[name]` holds the rank for the four level names and an inherited `Object.prototype` member (not a number) for the inherited property names such as `toString`, and is undefined for every other name. |
| Logger.CurrentLevel | Backend/src/utils/logger.js:10 | The threshold is the configured level's rank; an inherited member when the level names an `Object.prototype` property; info's rank when the level is unset or any other name. |
| Logger.Write | Backend/src/utils/logger.js:12-17 | A call is emitted exactly when the comparison `rank > threshold` is false: for two ranks, exactly when the level's rank (info's for an unknown level) is at most the threshold, and always when the threshold is not a number. It passes its arguments, and debug goes to `console.log` while other levels go to the method of their own name. |
| Logger.LevelOrInfo | Backend/src/utils/logger.js:10-13 | `levels[x] ?? levels.info`: a level's own rank, an inherited member exactly for the inherited names, otherwise info's rank. |
| Logger.Emits | Backend/src/utils/logger.js:13 | The early return is skipped exactly when the comparison is false: for two ranks, when the level's rank (info's for an unknown name) is at most the threshold; always when either side is not a number. |
| Logger.GateProperties | Backend/src/utils/logger.js:10-17 | Errors are always written. With no configured level, info and warn are written and debug is not. A level is written whenever a noisier one is. |
| Logger.LoggerCall | Backend/src/utils/logger.js:19-24 | `logger.debug` writes exactly when the configured level is debug or an inherited `Object.prototype` property name, and `logger.error` always writes to `console.error`. |
| Logger.InheritedLevelWritesAll | Backend/src/utils/logger.js:10-24 | A configured level such as `toString` makes every logger method write, debug included (to `console.log`). |
| Ordering.Select | frontend/src/App.tsx:92 | `filter` keeps exactly the elements that pass, as a sub-multiset and no longer than the input. The order is stated by `SelectAppend`. |
| Ordering.SelectAppend | frontend/src/App.tsx:92 | `filter` works element by element and keeps the original order: filtering a concatenation filters each side, in order. |
| Ordering.SelectSingle | frontend/src/App.tsx:92 | A one-element list is kept exactly when its element passes. |
| Ordering.Insert | Backend/src/services/message.service.js:25 | Inserting into a newest-first list keeps it newest first and adds exactly that element. |
| Ordering.SortNewestFirst | Backend/src/services/message.service.js:25 | `sort({ field: -1 })` gives a newest-first permutation. |
| Ordering.Page | Backend/src/services/message.service.js:25 | `limit(n)` is the prefix of length `|n|`, or everything when `n` is 0 or the list is shorter. |
| Ordering.PrefixOfNewestFirst | Backend/src/services/message.service.js:25 | A prefix of a newest-first list is newest first and holds nothing the list lacks. |
| Ordering.FindIsNewestPage | Backend/src/services/message.service.js:25 | The page holds only selected documents of the store, newest first, no more than the limit. When the limit leaves room it holds every selected document. |
| Ordering.Find | Backend/src/services/message.service.js:25 | `find(query).sort({ field: -1 }).limit(n)` as the selection, the newest-first sort and the page (`FindIsNewestPage`, `FindKeepsNewest`). |
| Ordering.FindKeepsNewest | Backend/src/services/message.service.js:25 | A selected document left off the page is no newer than any document on it. |
| Ordering.Reversed | Backend/src/controllers/message.controllers.js:37 | `reverse()` puts element `k` at position `n-1-k`. |
| Ordering.ReversedMultiset | Backend/src/controllers/message.controllers.js:37 | Reversing keeps the same elements. |
| Ordering.ReversedIsOldestFirst | Backend/src/controllers/message.controllers.js:37-41 | Reversing a newest-first page gives it oldest first, with the same messages. |
| Text.TrimStart | Backend/src/controllers/user.controllers.js:7 | Drops a leading run of white space only: the result is a suffix not starting with white space. |
| Text.TrimEnd | Backend/src/controllers/user.controllers.js:7 | Drops a trailing run of white space only: the result is a prefix not ending with white space. |
| Text.Trim | Backend/src/controllers/user.controllers.js:7 | The result is trimmed, no longer than the input, and empty exactly when the input is all white space. |
| Text.TrimOfTrimmed | Backend/src/models/user.model.js:30 | Trimming a trimmed string changes nothing. |
| Text.TrimIdempotent | Backend/src/models/user.model.js:30 | Trimming twice is trimming once. |
| Text.TrimStartSkipsSpace | Backend/src/controllers/user.controllers.js:14 | Leading white space does not change `trimStart`. |
| Text.TrimEndSkipsSpace | Backend/src/controllers/user.controllers.js:14 | Trailing white space does not change `trimEnd`. |
| Text.TrimStartKeepsTail | Backend/src/controllers/user.controllers.js:14 | `trimStart` of a string that is not all space leaves what follows it untouched. |
| Text.TrimIgnoresOuterSpace | Backend/src/controllers/user.controllers.js:14 | White space added around a string does not change its trim. |
| Text.StripTrailingSlashes | Backend/src/app.js:14 | `replace(/\/+$/, '')` cuts only slashes from the end and leaves none there. |
| Text.StripIdempotent | Backend/src/app.js:14 | Stripping twice is stripping once. |
| Text.StripIgnoresAddedSlashes | Backend/src/app.js:14 | Added trailing slashes do not change the stripped result. |
| Text.Split | Backend/src/config/config.js:13 | Splitting gives at least one piece, no piece holds the separator, and joining the pieces gives the string back. |
| Text.SplitJoin | Backend/src/config/config.js:13 | Splitting a joined list of separator-free pieces gives the list back. |
| Text.SplitSingle | Backend/src/config/config.js:13 | A string without the separator splits into itself. |
| Text.SplitPiece | Backend/src/config/config.js:13 | A separator-free piece and a separator in front of a rest split into that piece followed by the rest's pieces. |
| Text.ConcatAppend | frontend/src/App.tsx:166 | Appending a chunk appends its text to the accumulated text. |
| Text.ToLower | Backend/src/controllers/user.controllers.js:14 | Lower-casing maps each character and keeps the length. |
| Text.ToLowerIdempotent | Backend/src/controllers/user.controllers.js:14 | Lower-casing twice is lower-casing once. |
| Text.DecimalString | frontend/src/services/api.ts:21 | The status is rendered as decimal digits whose value is the status, with no leading zero unless the status is 0. |
| Text.TrimStartToLower | Backend/src/controllers/user.controllers.js:14 | `trimStart` commutes with lower-casing. |
| Text.TrimEndToLower | Backend/src/controllers/user.controllers.js:14 | `trimEnd` commutes with lower-casing. |
| Text.TrimToLower | Backend/src/controllers/user.controllers.js:14 | `trim` commutes with lower-casing, so the key does not depend on the order of the two. |
| ChatApp.CreateNewChat | frontend/src/App.tsx:73-87 | Appends an empty `New Chat` conversation and makes it active, leaving the others and `isTyping` as they were. `createdAt` and `updatedAt` come from two separate clock reads. |
| ChatApp.DeleteChat | frontend/src/App.tsx:89-104 | The remaining conversations are the `filter` of the list, so exactly those with another id, in their original order. When the active one was deleted, the new active id is the last remaining conversation's id, or none. Otherwise the active id is unchanged. |
| ChatApp.DeleteChatKeepsOrder | frontend/src/App.tsx:91 | Deleting from a list split in two deletes from each part and keeps the parts in order. |
| ChatApp.DeleteChatKeepsActive | frontend/src/App.tsx:89-104 | When the active id named a conversation, after deleting it still does (or is none). |
| ChatApp.Logout | frontend/src/App.tsx:68-71 | Clears the user and deselects, keeping every conversation. |
| ChatApp.Login | frontend/src/App.tsx:47-66 | A blank name sets `Display Name is required.` and calls no server. Otherwise the trimmed name is sent. A failure sets the connection error. A success signs the user in and creates a first chat only when there is none. |
| ChatApp.AddMessage | frontend/src/App.tsx:120-128 | Appends the message only to the conversation with the id, stamping it when a time is given. Every other conversation and the order are unchanged. |
| ChatApp.SetMessageContent | frontend/src/App.tsx:171-173 | Only the messages with the placeholder's id change, and only their content. |
| ChatApp.SetContent | frontend/src/App.tsx:167-178 | Only the current conversation's placeholder changes; every other conversation is as it was. |
| ChatApp.SetContentOverwrites | frontend/src/App.tsx:165-179 | Each update replaces the previous content, so only the last accumulated text counts. |
| ChatApp.StopStreaming | frontend/src/App.tsx:182-194 | Only the placeholder of the current conversation stops streaming; everything else is unchanged. |
| ChatApp.SyncMessages | frontend/src/App.tsx:271-279 | The active conversation takes the remote messages exactly when there are at least as many of them, and is stamped. It never loses messages, and the other conversations are untouched. |
| ChatApp.App.constructor | frontend/src/App.tsx:12-31 | The application starts from the given sign-in, chat state and service. |
| ChatApp.App.SendMessage | frontend/src/App.tsx:106-211 | Without a service, an active id or a user, nothing happens. Otherwise the user's message is appended to the active conversation and stored. If storing fails, only the typing flag is reset. Otherwise a placeholder is streamed into. On success it stops streaming and the accumulated text is stored with role model. On a stream error only the typing flag is reset. The user message's timestamp, the conversation's `updatedAt` and the placeholder's timestamp are three separate clock reads. |
| ChatApp.App.StreamReply | frontend/src/App.tsx:163-179 | After the loop, the accumulated text is the concatenation of all chunks, and the placeholder holds it. |
| ApiClient.NormalizeBase | frontend/src/services/api.ts:5 | Strips every trailing slash and only those. |
| ApiClient.NormalizeBaseIdempotent | frontend/src/services/api.ts:5 | Normalising twice is normalising once. |
| ApiClient.ApiBase | frontend/src/services/api.ts:6-8 | `''` in development. Otherwise the configured address, or the page's origin when none is configured, normalised; never with a trailing slash. |
| ApiClient.RequestError | frontend/src/services/api.ts:19-22 | Throws exactly on a non-ok answer, with its text, or `Request failed: <status>` when the text is empty. |
| ApiClient.MapHealthData | frontend/src/services/api.ts:27-40 | The id is `_id`, else `id`, else `''`. The device id defaults to `''`. The other ten fields are copied from the item, each stated. |
| ApiClient.CreateUser | frontend/src/services/api.ts:43-52 | The user's id is the server's `_id`, and the name is kept. |
| ApiClient.MapMessages | frontend/src/services/api.ts:54-66 | One message per item, in order, with its id, role and content and the creation time. |
| ApiClient.First | frontend/src/services/api.ts:84 | `?.[0]` is the first element of a non-empty array, and undefined for an empty array or a nullish value. |
| ApiClient.LatestHealth | frontend/src/services/api.ts:80-86 | The mapped first item exactly when there is a truthy one, otherwise null; an empty list gives null. |
| MessageBubble.CloseAt | frontend/src/components/MessageBubble.tsx:15 | The lazy `.*?\*\*` closes at the first `**` with no line terminator before it; there is no close exactly when a line terminator comes before every later `**`. |
| MessageBubble.MatchAt | frontend/src/components/MessageBubble.tsx:15 | A match starting at a position opens and closes with `**`, is at least four characters long and ends at the lazy close; there is none exactly when the position holds no `**` or no close is reachable. |
| MessageBubble.SplitFrom | frontend/src/components/MessageBubble.tsx:15 | The split has an odd number of parts: pieces around the captured spans. |
| MessageBubble.SplitFromConcat | frontend/src/components/MessageBubble.tsx:15 | Concatenating the parts from a position gives back the rest of the content. |
| MessageBubble.PartsConcat | frontend/src/components/MessageBubble.tsx:15 | Because the group captures, the parts concatenated in order are the content. |
| MessageBubble.Parts | frontend/src/components/MessageBubble.tsx:15 | `content.split(/(\*\*.*?\*\*)/g)`: an odd number of parts that concatenate to the content; `PartsNoMatch` and `PartsPiece` determine them. |
| MessageBubble.SplitFromSkips | frontend/src/components/MessageBubble.tsx:15 | Positions where no match starts are passed over without ending the piece. |
| MessageBubble.SplitFromShift | frontend/src/components/MessageBubble.tsx:15 | The split only looks forward: splitting from a position is splitting the suffix from there. |
| MessageBubble.PartsNoMatch | frontend/src/components/MessageBubble.tsx:15 | Content in which no match starts is a single part. |
| MessageBubble.PartsPiece | frontend/src/components/MessageBubble.tsx:15 | Every match is split out: the text before the first match, the match, then the parts of the rest. |
| MessageBubble.BoldSpanSplitOut | frontend/src/components/MessageBubble.tsx:13-22 | `**a** b` splits into `""`, `**a**` and ` b`, rendered plain, bold `a`, plain. |
| MessageBubble.SplitFromSpans | frontend/src/components/MessageBubble.tsx:15 | The parts at odd positions are matched spans: they open and close with `**` and hold no line terminator. |
| MessageBubble.Render | frontend/src/components/MessageBubble.tsx:16-20 | A part is bold exactly when it starts and ends with `**`, and its bold text wrapped in `**` is the part (empty for `**` and `***`). Other parts are shown verbatim. |
| MessageBubble.IsUser | frontend/src/components/MessageBubble.tsx:10 | A message is the user's exactly when its role is the user role. |
| MessageBubble.ShowsCursor | frontend/src/components/MessageBubble.tsx:46-48 | The streaming cursor shows exactly when `isStreaming` is set and true. |
| MessageBubble.FormatContent | frontend/src/components/MessageBubble.tsx:13-22 | One rendered span per part, in order. |
| MessageBubble.SpansAreBold | frontend/src/components/MessageBubble.tsx:15-18 | Every matched span is rendered bold, and its text wrapped in `**` is the span. |
| MessageBubble.LineBreakKeepsOnePart | frontend/src/components/MessageBubble.tsx:15-18 | `**a` newline `b**` is one part, since the match cannot cross a line break, yet it is still rendered bold. |
| JsValue.Truthy | Backend/src/controllers/health.controllers.js:79 | JavaScript truthiness: `undefined`, `null`, `false`, `0` and `''` are falsy, and everything else is truthy. |
| JsValue.IsObject | Backend/src/controllers/health.controllers.js:73 | `typeof v === 'object'` for a truthy value: arrays, plain objects and dates. |
| JsValue.Get | Backend/src/controllers/health.controllers.js:54-65 | `v?.key`: the property of a plain object that holds it, otherwise `undefined`. |
| JsValue.Coalesce | Backend/src/controllers/health.controllers.js:39-43 | `a ?? b`: `b` exactly when `a` is `null` or `undefined`. |

## Left out

- I/O, Express wiring, helmet, morgan, the rate limiter, routes, `db.js` and `server.js` are not modelled. Each handler is modelled from its parsed request to its reply.
- The store calls (`find`, `findOne`, `findById`, `exists`, `create`, `save`) are sequences and lookups over an abstract collection. `isValidObjectId` and the check that casts an id are predicate parameters. A malformed id given to `findById` is its 500 path.
- Concurrency is not modelled. Each handler, updater and registry method is one atomic step, so the duplicate-key race between `findOne` and `save` in `createOrGetUser` is only seen as `Save`'s duplicate-key error, answered with 500.
- The real timers, `crypto.randomUUID`, `uuidv4` and `Date.now` are not modelled. Timers are the `timers` table plus a handle counter, and the 30-second delay itself is not modelled. Ids and the clock are parameters, with one clock parameter per `Date.now()` call.
- Number and date parsing (`Number`, `parseInt`, `new Date`) are partial-function parameters. Floating-point metric values and NaN are not modelled beyond "does not parse".
- HealthControllers.Truncate: a fractional limit is truncated toward zero before it reaches the store. How the driver treats a fractional limit is not modelled.
- UserModel.FindById: ids are compared as the strings given. Mongoose casts the id to an ObjectId first, so an id written with upper-case hex digits finds the user in the service, whereas `FindById` and `UserControllers.GetUserById` answer 404 for it.
- CallService.CallRegistry.CreateCall, `UpdateCall` and `SetStatus` return a copy of the stored call. The service returns the very object held in `calls`, so a caller that later mutates it changes the registry too; that aliasing is not modelled.
- CallService.CallRegistry.ReleaseReceiver: the status is an optional string, absent meaning `undefined`. An explicit `null` status, which the service stores because the `'CANCELLED'` default applies only to `undefined`, cannot be passed.
- Mongoose reports every failing path. `ValidateMessage` and `ValidateUser` report the first failing one, in field order.
- The `__v` field removed by `select('-__v')` and `delete user.__v` is not modelled, and neither is the `createdAt`/`updatedAt` of the lean objects beyond the save time.
- Documents that tie on the sort key may come back in any order from the store. `SortNewestFirst` is one permutation with that order, and the lemmas hold for any tie order.
- `toLowerCase` is ASCII only. Lengths count UTF-16 code units as characters. There is no Unicode normalisation.
- UserModel.CastAvatar: the avatar cast is modelled for strings, null and an absent value. Any other value is a cast failure, whereas Mongoose would convert numbers and booleans to strings.
- ApiClient.MapMessages: `new Date(createdAt).getTime()` is a parameter, so an invalid date (NaN) is not modelled.
- `HealthData` is not defined in `types.ts`; its shape is taken from `mapHealthData`.
- AiService.PromptSplitsIntoLines: holds only when the instruction, the trimmed message and the history contents contain no line break. The instruction's rules contain none, but the user's name may.
- `GEMINI_API_KEY`, `GEMINI_MODEL`, `LOG_LEVEL` and `IS_PROD` are read but not defined by the configuration. The key and the level are parameters, and the model name is not modelled.
- The `GoogleGenAI` client, `generateContentStream` and `geminiService.ts` are not modelled. The client is an opaque value, and the reply stream is the given sequence of chunks.
- `project.service.js` is not part of this model: it is database calls plus sandboxed execution of arbitrary code, and it calls a method the AI service does not have.
- `health.model.js` is not part of this model. Health documents are stored as the handler builds them, without schema validation.
- UI rendering, the JSX of `App.tsx` and `MessageBubble.tsx`, the sidebar and input components, and `localStorage` persistence are not modelled. `IsUser` and `ShowsCursor` are the bubble's two display predicates.
- Object key order in the stored documents and in `Object.keys` is not modelled; documents are maps.

=== FILE: ai_service.dfy ===
/**
  Prompt construction for the health assistant (`ai.service.js`): the history normaliser,
  the system instruction, the line layout of the prompt, the argument and credential checks
  of `streamChat`, and its chunk filter.

  The language-model provider is outside the model: a client is a value holding the API key,
  and the streamed response is the sequence of the chunks' `text` values (`None` for an
  absent text), given as a parameter.
 */
module AiService {
  import opened Wrappers
  import opened JsValue
  import opened Text

  const MAX_HISTORY_MESSAGES: nat := 20

  /** One normalised history entry: role `User` or `Assistant`, trimmed non-empty content. */
  datatype Turn = Turn(role: string, content: string)

  /** The first filters: a truthy object whose `content` is a string and whose `role` is
      `user` or `model`. */
  predicate Kept(item: Js) {
    && Get(item, "content").Str?
    && (Get(item, "role") == Str("user") || Get(item, "role") == Str("model"))
  }

  /** The two `filter` calls, in order. */
  function KeepTurns(items: seq<Js>): (r: seq<Js>)
    ensures |r| <= |items|
    ensures forall x :: x in r <==> x in items && Kept(x)
  {
    if items == [] then []
    else if Kept(items[0]) then [items[0]] + KeepTurns(items[1..])
    else KeepTurns(items[1..])
  }

  /** The filters keep the turns in their original order: filtering a concatenation filters
      each side. */
  lemma {:induction false} KeepTurnsAppend(a: seq<Js>, b: seq<Js>)
    ensures KeepTurns(a + b) == KeepTurns(a) + KeepTurns(b)
  {
    if a != [] {
      assert (a + b)[0] == a[0] && (a + b)[1..] == a[1..] + b;
      KeepTurnsAppend(a[1..], b);
    } else {
      assert a + b == b;
    }
  }

  /** `s.slice(-n)` for a positive `n`: the last `n` elements, or all of them. */
  function Last(s: seq<Js>, n: nat): (r: seq<Js>)
    ensures |r| == if |s| <= n then |s| else n
    ensures r == s[|s| - |r|..]
  {
    if |s| <= n then s else s[|s| - n..]
  }

  /** The `map` step for one kept item. */
  function Relabel(item: Js): (t: Turn)
    requires Kept(item)
    ensures t.role == "Assistant" <==> Get(item, "role") == Str("model")
    ensures t.role == "User" <==> Get(item, "role") == Str("user")
    ensures t.content == Trim(Get(item, "content").s) && IsTrimmed(t.content)
  {
    Turn(if Get(item, "role") == Str("model") then "Assistant" else "User", Trim(Get(item, "content").s))
  }

  /** The `map` step: one entry per kept item, at the same position. */
  function RelabelAll(items: seq<Js>): (r: seq<Turn>)
    requires forall i :: 0 <= i < |items| ==> Kept(items[i])
    ensures |r| == |items|
    ensures forall i :: 0 <= i < |items| ==> r[i] == Relabel(items[i])
  {
    seq(|items|, i requires 0 <= i < |items| => Relabel(items[i]))
  }

  /** The last `filter`: drops the entries left blank by the trim. */
  function DropBlank(turns: seq<Turn>): (r: seq<Turn>)
    ensures |r| <= |turns|
    ensures forall t :: t in r <==> t in turns && t.content != ""
  {
    if turns == [] then []
    else if turns[0].content != "" then [turns[0]] + DropBlank(turns[1..])
    else DropBlank(turns[1..])
  }

  /** The blank filter keeps the entries in their original order. */
  lemma {:induction false} DropBlankAppend(a: seq<Turn>, b: seq<Turn>)
    ensures DropBlank(a + b) == DropBlank(a) + DropBlank(b)
  {
    if a != [] {
      assert (a + b)[0] == a[0] && (a + b)[1..] == a[1..] + b;
      DropBlankAppend(a[1..], b);
    } else {
      assert a + b == b;
    }
  }

  /** `normalizeHistory`: nothing for a non-array; otherwise at most the last 20 kept turns,
      relabelled, trimmed, and without the blank ones. */
  function NormalizeHistory(history: Js): (r: seq<Turn>)
    ensures !history.Arr? ==> r == []
    ensures |r| <= MAX_HISTORY_MESSAGES
    ensures forall t :: t in r ==>
      && (t.role == "User" || t.role == "Assistant")
      && t.content != "" && IsTrimmed(t.content)
  {
    if !history.Arr? then []
    else
      var kept := Last(KeepTurns(history.items), MAX_HISTORY_MESSAGES);
      assert forall x :: x in kept ==> x in KeepTurns(history.items);
      RelabelAllShape(kept);
      DropBlank(RelabelAll(kept))
  }

  /** Every relabelled entry has one of the two roles and trimmed content. */
  lemma RelabelAllShape(kept: seq<Js>)
    requires forall x :: x in kept ==> Kept(x)
    ensures forall t :: t in RelabelAll(kept) ==> IsTrimmed(t.content) && (t.role == "User" || t.role == "Assistant")
  {
    var turns := RelabelAll(kept);
    forall t | t in turns
      ensures IsTrimmed(t.content) && (t.role == "User" || t.role == "Assistant")
    {
      var i :| 0 <= i < |turns| && turns[i] == t;
      assert kept[i] in kept;
    }
  }

  /** Dropping nothing: when no turn is blank, `DropBlank` is the identity. */
  lemma {:induction false} DropBlankNone(turns: seq<Turn>)
    requires forall t :: t in turns ==> t.content != ""
    ensures DropBlank(turns) == turns
  {
    if turns != [] {
      DropBlankNone(turns[1..]);
    }
  }

  /** Dropping everything: when every turn is blank, nothing is left. */
  lemma {:induction false} DropBlankAll(turns: seq<Turn>)
    requires forall t :: t in turns ==> t.content == ""
    ensures DropBlank(turns) == []
  {
    if turns != [] {
      DropBlankAll(turns[1..]);
    }
  }

  /** When none of the last 20 kept turns is blank after trimming, exactly those turns come
      out, in order, with `model` relabelled `Assistant`, `user` relabelled `User`, and the
      content trimmed; with more than 20 kept turns, the older ones are gone. */
  lemma NormalizeHistoryKeepsRecentTurns(items: seq<Js>)
    requires forall x :: x in Last(KeepTurns(items), MAX_HISTORY_MESSAGES) ==>
      Get(x, "content").Str? && Trim(Get(x, "content").s) != ""
    ensures var r := NormalizeHistory(Arr(items)); var kept := Last(KeepTurns(items), MAX_HISTORY_MESSAGES);
      && |r| == |kept|
      && (|KeepTurns(items)| > MAX_HISTORY_MESSAGES ==> |r| == MAX_HISTORY_MESSAGES)
      && forall i :: 0 <= i < |r| ==>
        && (r[i].role == "Assistant" <==> Get(kept[i], "role") == Str("model"))
        && (r[i].role == "User" <==> Get(kept[i], "role") == Str("user"))
        && r[i].content == Trim(Get(kept[i], "content").s)
  {
    var kept := Last(KeepTurns(items), MAX_HISTORY_MESSAGES);
    assert forall x :: x in kept ==> x in KeepTurns(items);
    var turns := RelabelAll(kept);
    RelabelAllNonBlank(kept);
    DropBlankNone(turns);
    assert NormalizeHistory(Arr(items)) == turns;
    forall i | 0 <= i < |turns|
      ensures && (turns[i].role == "Assistant" <==> Get(kept[i], "role") == Str("model"))
              && (turns[i].role == "User" <==> Get(kept[i], "role") == Str("user"))
              && turns[i].content == Trim(Get(kept[i], "content").s)
    {
      assert kept[i] in kept;
      assert turns[i] == Relabel(kept[i]);
    }
  }

  /** Items whose content is not blank give entries that are not blank. */
  lemma RelabelAllNonBlank(kept: seq<Js>)
    requires forall x :: x in kept ==> Kept(x) && Trim(Get(x, "content").s) != ""
    ensures forall t :: t in RelabelAll(kept) ==> t.content != ""
  {
    var turns := RelabelAll(kept);
    forall t | t in turns
      ensures t.content != ""
    {
      var i :| 0 <= i < |turns| && turns[i] == t;
      assert kept[i] in kept;
    }
  }

  /** Only the last 20 kept turns matter: turns before a stretch holding 20 kept ones never
      reach the prompt. */
  lemma NormalizeHistoryIgnoresOlderTurns(older: seq<Js>, recent: seq<Js>)
    requires |KeepTurns(recent)| >= MAX_HISTORY_MESSAGES
    ensures NormalizeHistory(Arr(older + recent)) == NormalizeHistory(Arr(recent))
  {
    KeepTurnsAppend(older, recent);
    LastOfLonger(KeepTurns(older), KeepTurns(recent), MAX_HISTORY_MESSAGES);
  }

  /** The last `n` of a concatenation whose second part has at least `n` elements lie in
      that part. */
  lemma LastOfLonger(a: seq<Js>, b: seq<Js>, n: nat)
    requires |b| >= n
    ensures Last(a + b, n) == Last(b, n)
  {
    assert (a + b)[|a + b| - n..] == b[|b| - n..];
  }

  /** The cap is applied before the blank entries go: when the last 20 kept turns are all
      blank, the result is empty, however many non-blank turns come earlier. */
  lemma NormalizeHistoryCapsBeforeDroppingBlanks(items: seq<Js>)
    requires forall x :: x in Last(KeepTurns(items), MAX_HISTORY_MESSAGES) ==>
      Get(x, "content").Str? && Trim(Get(x, "content").s) == ""
    ensures NormalizeHistory(Arr(items)) == []
  {
    var kept := Last(KeepTurns(items), MAX_HISTORY_MESSAGES);
    assert forall x :: x in kept ==> x in KeepTurns(items);
    RelabelAllBlank(kept);
    DropBlankAll(RelabelAll(kept));
    assert NormalizeHistory(Arr(items)) == DropBlank(RelabelAll(kept));
  }

  /** Turns whose content is blank stay blank once relabelled. */
  lemma RelabelAllBlank(kept: seq<Js>)
    requires forall x :: x in kept ==> Kept(x) && Trim(Get(x, "content").s) == ""
    ensures forall t :: t in RelabelAll(kept) ==> t.content == ""
  {
    var turns := RelabelAll(kept);
    forall t | t in turns
      ensures t.content == ""
    {
      var i :| 0 <= i < |turns| && turns[i] == t;
      assert kept[i] in kept;
      assert t == Relabel(kept[i]);
    }
  }

  const DEFAULT_NAME: string := "User"

  lemma DefaultNameTrimmed()
    ensures DEFAULT_NAME != "" && IsTrimmed(DEFAULT_NAME)
  {
    assert DEFAULT_NAME[0] == 'U' && DEFAULT_NAME[|DEFAULT_NAME| - 1] == 'r';
  }

  /** `safeName`: the trimmed name when it is a non-blank string, `User` otherwise. */
  function SafeName(userName: Js): (name: string)
    ensures userName.Str? && Trim(userName.s) != "" ==> name == Trim(userName.s)
    ensures !(userName.Str? && Trim(userName.s) != "") ==> name == DEFAULT_NAME
    ensures name != "" && IsTrimmed(name)
  {
    DefaultNameTrimmed();
    if userName.Str? then
      var t := Trim(userName.s);
      if t != "" then t else DEFAULT_NAME
    else DEFAULT_NAME
  }

  const INSTRUCTION_OPENING: string := "You are an expert Ayurvedic AI Health Assistant helping a patient named "

  const INSTRUCTION_RULES: seq<string> := [
    "You are knowledgeable about Pitta, Vata, and Kapha doshas.",
    "The patient currently has a Pitta Aggravation (excess heat).",
    "Recommend cooling foods, herbs like Yashtimadhu and Amalaki, and therapies like Virechana.",
    "Keep your tone professional, soothing, and medically responsible.",
    "Always include a brief disclaimer that this is not a substitute for medical advice.",
    "Use Markdown to format lists and emphasis.",
    "Keep responses concise and structured."
  ]

  /** `buildSystemInstruction`: the eight sentences joined by a space; the first names the patient. */
  function SystemInstruction(userName: Js): string {
    Join([INSTRUCTION_OPENING + SafeName(userName) + "."] + INSTRUCTION_RULES, ' ')
  }

  /** The instruction opens by naming the patient, then a space and the fixed rules. */
  lemma SystemInstructionNamesPatient(userName: Js)
    ensures var opening := INSTRUCTION_OPENING + SafeName(userName) + ".";
      SystemInstruction(userName) == opening + " " + Join(INSTRUCTION_RULES, ' ')
  {
    var parts := [INSTRUCTION_OPENING + SafeName(userName) + "."] + INSTRUCTION_RULES;
    assert parts[1..] == INSTRUCTION_RULES;
  }

  /** `${entry.role}: ${entry.content}` */
  function EntryLine(t: Turn): (line: string)
    ensures |line| == |t.role| + 2 + |t.content|
    ensures line[..|t.role|] == t.role && line[|t.role|..|t.role| + 2] == ": "
    ensures line[|t.role| + 2..] == t.content
  {
    t.role + ": " + t.content
  }

  function HistoryLines(h: seq<Turn>): (r: seq<string>)
    ensures |r| == |h|
  {
    seq(|h|, i requires 0 <= i < |h| => EntryLine(h[i]))
  }

  /** The `lines` array `buildPrompt` joins. */
  function PromptLines(history: Js, message: string, userName: Js): (lines: seq<string>)
    ensures |lines| >= 4 && lines[0] == SystemInstruction(userName)
    ensures lines[|lines| - 2] == "User: " + Trim(message) && lines[|lines| - 1] == "Assistant:"
  {
    Layout(SystemInstruction(userName), NormalizeHistory(history), Trim(message))
  }

  function Layout(instruction: string, h: seq<Turn>, message: string): seq<string> {
    [instruction]
      + (if h != [] then ["", "Conversation history:"] + HistoryLines(h) else [])
      + ["", "User: " + message, "Assistant:"]
  }

  /** The shape of a layout: the instruction; with a history, a blank line, the heading and
      one `Role: content` line per entry; then a blank line, the message and `Assistant:`. */
  lemma LayoutShape(instruction: string, h: seq<Turn>, message: string)
    ensures var lines := Layout(instruction, h, message);
      && |lines| == (if h == [] then 4 else 6 + |h|)
      && lines[0] == instruction
      && (h != [] ==> lines[1] == "" && lines[2] == "Conversation history:")
      && (forall i :: 0 <= i < |h| ==> lines[3 + i] == EntryLine(h[i]))
      && lines[|lines| - 3] == ""
      && lines[|lines| - 2] == "User: " + message
      && lines[|lines| - 1] == "Assistant:"
  {
    var middle := if h != [] then ["", "Conversation history:"] + HistoryLines(h) else [];
    var tail := ["", "User: " + message, "Assistant:"];
    var lines := [instruction] + middle + tail;
    assert Layout(instruction, h, message) == lines;
    assert |middle| == (if h == [] then 0 else 2 + |h|);
    forall i | 0 <= i < |h|
      ensures lines[3 + i] == EntryLine(h[i])
    {
      assert lines[3 + i] == middle[2 + i];
      assert middle[2 + i] == HistoryLines(h)[i];
    }
    assert lines[|lines| - 3] == tail[0];
  }

  /** The layout of the prompt: the instruction first; with a history, a blank line, the
      heading and one `Role: content` line per entry; then a blank line, the user's trimmed
      message and the open `Assistant:` turn. */
  lemma PromptLayout(history: Js, message: string, userName: Js)
    ensures var lines := PromptLines(history, message, userName); var h := NormalizeHistory(history);
      && |lines| == (if h == [] then 4 else 6 + |h|)
      && lines[0] == SystemInstruction(userName)
      && (h != [] ==> lines[1] == "" && lines[2] == "Conversation history:")
      && (forall i :: 0 <= i < |h| ==> lines[3 + i] == EntryLine(h[i]))
      && lines[|lines| - 3] == ""
      && lines[|lines| - 2] == "User: " + Trim(message)
      && lines[|lines| - 1] == "Assistant:"
  {
    LayoutShape(SystemInstruction(userName), NormalizeHistory(history), Trim(message));
  }

  /** Splitting a laid-out prompt at line breaks gives back its lines when no piece holds one. */
  lemma LayoutSplitsIntoLines(instruction: string, h: seq<Turn>, message: string)
    requires '\n' !in instruction && '\n' !in message
    requires forall t :: t in h ==> '\n' !in t.role && '\n' !in t.content
    ensures Split(Join(Layout(instruction, h, message), '\n'), '\n') == Layout(instruction, h, message)
  {
    var lines := Layout(instruction, h, message);
    forall l | l in lines
      ensures '\n' !in l
    {
      if l in HistoryLines(h) {
        var i :| 0 <= i < |h| && l == HistoryLines(h)[i];
        assert h[i] in h;
      }
    }
    SplitJoin(lines, '\n');
  }

  /** Splitting the prompt at line breaks gives back its lines, provided the instruction,
      the message and the kept history contents are single-line. */
  lemma PromptSplitsIntoLines(history: Js, message: string, userName: Js)
    requires '\n' !in SystemInstruction(userName)
    requires '\n' !in Trim(message)
    requires forall t :: t in NormalizeHistory(history) ==> '\n' !in t.content
    ensures Split(Join(PromptLines(history, message, userName), '\n'), '\n') == PromptLines(history, message, userName)
  {
    var h := NormalizeHistory(history);
    assert '\n' !in "User" && '\n' !in "Assistant";
    LayoutSplitsIntoLines(SystemInstruction(userName), h, Trim(message));
  }

  /** The chunk filter: the non-empty texts, in the order received. */
  function NonEmptyTexts(texts: seq<Option<string>>): (r: seq<string>)
    ensures |r| <= |texts|
    ensures forall t :: t in r <==> t != "" && Some(t) in texts
  {
    if texts == [] then []
    else if texts[0].Some? && texts[0].value != "" then [texts[0].value] + NonEmptyTexts(texts[1..])
    else NonEmptyTexts(texts[1..])
  }

  /** The filter works chunk by chunk: the texts of a longer stream extend those of its prefix. */
  lemma {:induction false} NonEmptyTextsAppend(a: seq<Option<string>>, b: seq<Option<string>>)
    ensures NonEmptyTexts(a + b) == NonEmptyTexts(a) + NonEmptyTexts(b)
  {
    if a == [] {
      assert a + b == b;
    } else {
      assert (a + b)[1..] == a[1..] + b;
      NonEmptyTextsAppend(a[1..], b);
    }
  }

  /** One chunk yields its text exactly when the text is non-empty. */
  lemma NonEmptyTextsSingle(chunk: Option<string>)
    ensures NonEmptyTexts([chunk]) == if chunk.Some? && chunk.value != "" then [chunk.value] else []
  {
    assert [chunk][1..] == [];
  }

  /** The pushes of `buildPrompt`, given the instruction, the normalised history and the
      trimmed message. */
  method PushLines(instruction: string, h: seq<Turn>, message: string) returns (lines: seq<string>)
    ensures lines == Layout(instruction, h, message)
  {
    var entries := HistoryLines(h);
    lines := [instruction];
    if |h| > 0 {
      lines := lines + [""];
      lines := lines + ["Conversation history:"];
      var i := 0;
      while i < |entries|
        invariant 0 <= i <= |entries|
        invariant lines == [instruction, "", "Conversation history:"] + entries[..i]
      {
        assert entries[..i + 1] == entries[..i] + [entries[i]];
        lines := lines + [entries[i]];
        i := i + 1;
      }
      assert entries[..i] == entries;
    }
    lines := lines + [""];
    lines := lines + ["User: " + message];
    lines := lines + ["Assistant:"];
  }

  /** The `for await` loop of `streamChat`: yields each chunk's text when it is non-empty. */
  method YieldTexts(chunks: seq<Option<string>>) returns (texts: seq<string>)
    ensures texts == NonEmptyTexts(chunks)
  {
    texts := [];
    var i := 0;
    while i < |chunks|
      invariant 0 <= i <= |chunks|
      invariant texts == NonEmptyTexts(chunks[..i])
    {
      NonEmptyTextsAppend(chunks[..i], [chunks[i]]);
      NonEmptyTextsSingle(chunks[i]);
      assert chunks[..i + 1] == chunks[..i] + [chunks[i]];
      if chunks[i].Some? && chunks[i].value != "" {
        texts := texts + [chunks[i].value];
      }
      i := i + 1;
    }
    assert chunks[..i] == chunks;
  }

  /** The provider client; the SDK object itself is not modelled. */
  datatype Client = Client(apiKey: string)

  /** What `streamChat` sends and yields: the prompt and the non-empty chunk texts. */
  datatype Stream = Stream(prompt: string, texts: seq<string>)

  class AIService {
    var ai: Option<Client>

    constructor ()
      ensures ai == None
    {
      ai := None;
    }

    /** `getClient`: fails without a key; otherwise creates the client once and then keeps
        returning that same client. */
    method GetClient(apiKey: Option<string>) returns (r: Result<Client, string>)
      modifies this
      ensures (apiKey.None? || apiKey.value == "") ==> r == Err("GEMINI_API_KEY is not set") && ai == old(ai)
      ensures apiKey.Some? && apiKey.value != "" && old(ai).Some? ==> r == Ok(old(ai).value) && ai == old(ai)
      ensures apiKey.Some? && apiKey.value != "" && old(ai).None? ==>
        r == Ok(Client(apiKey.value)) && ai == Some(Client(apiKey.value))
    {
      if apiKey.None? || apiKey.value == "" {
        return Err("GEMINI_API_KEY is not set");
      }
      if ai.None? {
        ai := Some(Client(apiKey.value));
      }
      r := Ok(ai.value);
    }

    /** `buildPrompt`: pushes the lines one by one and joins them with line breaks. */
    method BuildPrompt(history: Js, message: string, userName: Js) returns (prompt: string)
      ensures prompt == Join(PromptLines(history, message, userName), '\n')
    {
      var lines := PushLines(SystemInstruction(userName), NormalizeHistory(history), Trim(message));
      prompt := Join(lines, '\n');
    }

    /** `streamChat`: a falsy or non-string message fails before the prompt is built or the
        client is touched; a missing key fails in `getClient`; otherwise the prompt is built
        and the non-empty chunk texts are yielded in order. */
    method StreamChat(history: Js, message: Js, userName: Js, apiKey: Option<string>,
                      chunks: seq<Option<string>>)
      returns (r: Result<Stream, string>)
      modifies this
      ensures !(message.Str? && message.s != "") ==> r == Err("message is required") && ai == old(ai)
      ensures message.Str? && message.s != "" && (apiKey.None? || apiKey.value == "") ==>
        r == Err("GEMINI_API_KEY is not set") && ai == old(ai)
      ensures message.Str? && message.s != "" && apiKey.Some? && apiKey.value != "" ==>
        && r == Ok(Stream(Join(PromptLines(history, message.s, userName), '\n'), NonEmptyTexts(chunks)))
        && ai == (if old(ai).Some? then old(ai) else Some(Client(apiKey.value)))
    {
      if !(message.Str? && message.s != "") {
        return Err("message is required");
      }
      var prompt := BuildPrompt(history, message.s, userName);
      var client := GetClient(apiKey);
      if client.Err? {
        return Err(client.error);
      }
      var texts := YieldTexts(chunks);
      r := Ok(Stream(prompt, texts));
    }
  }
}

=== FILE: api_client.dfy ===
/**
  The front end's server client (`api.ts`): the base address, the error a failed request
  raises, and the mapping of the server's answers onto the front end's types. The fetch
  itself is left out; each function takes the answer's body as a value.
 */
module ApiClient {
  import opened Wrappers
  import opened JsValue
  import opened Text
  import opened ChatTypes

  const REQUEST_FAILED: string := "Request failed: "

  /** `normalizeBase`: drops every trailing slash. */
  function NormalizeBase(base: string): (r: string)
    ensures !EndsWithSlash(r)
    ensures |r| <= |base| && r == base[..|r|]
    ensures forall i :: |r| <= i < |base| ==> base[i] == '/'
  {
    StripTrailingSlashes(base)
  }

  /** Normalising twice is normalising once. */
  lemma NormalizeBaseIdempotent(base: string)
    ensures NormalizeBase(NormalizeBase(base)) == NormalizeBase(base)
  {
    StripIdempotent(base);
  }

  /** `API_BASE`: empty in development (the dev server forwards `/api`), otherwise the
      configured address, or the page's own origin when none is configured, without
      trailing slashes. */
  function ApiBase(dev: bool, viteApiUrl: Option<string>, locationOrigin: string): (base: string)
    ensures dev ==> base == ""
    ensures !dev && viteApiUrl.Some? && viteApiUrl.value != "" ==> base == NormalizeBase(viteApiUrl.value)
    ensures !dev && (viteApiUrl.None? || viteApiUrl.value == "") ==> base == NormalizeBase(locationOrigin)
    ensures !EndsWithSlash(base)
  {
    if dev then ""
    else NormalizeBase(if viteApiUrl.Some? && viteApiUrl.value != "" then viteApiUrl.value else locationOrigin)
  }

  /** The error `request` throws: none for an ok answer, otherwise the answer's text, or
      `Request failed: <status>` when that text is empty. */
  function RequestError(ok: bool, status: nat, text: string): (error: Option<string>)
    ensures error.None? <==> ok
    ensures !ok && text != "" ==> error == Some(text)
    ensures !ok && text == "" ==> error == Some(REQUEST_FAILED + DecimalString(status))
    ensures error.Some? ==> error.value != ""
  {
    if ok then None
    else if text != "" then Some(text)
    else Some(REQUEST_FAILED + DecimalString(status))
  }

  /** `HealthData` as the front end keeps it. */
  datatype HealthData = HealthData(
    id: Js,
    deviceId: Js,
    deviceType: Js,
    firmwareVersion: Js,
    patientId: Js,
    capturedAt: Js,
    receivedAt: Js,
    metrics: Js,
    activity: Js,
    battery: Js,
    signal: Js,
    location: Js)

  /** `mapHealthData`: the id from `_id`, else `id`, else empty; the device id defaults to
      empty; the other fields are copied. */
  function MapHealthData(item: Js): (h: HealthData)
    ensures !IsNullish(Get(item, "_id")) ==> h.id == Get(item, "_id")
    ensures IsNullish(Get(item, "_id")) && !IsNullish(Get(item, "id")) ==> h.id == Get(item, "id")
    ensures IsNullish(Get(item, "_id")) && IsNullish(Get(item, "id")) ==> h.id == Str("")
    ensures !IsNullish(h.id) && !IsNullish(h.deviceId)
    ensures h.deviceId == if IsNullish(Get(item, "deviceId")) then Str("") else Get(item, "deviceId")
    ensures h.patientId == Get(item, "patientId") && h.metrics == Get(item, "metrics")
    ensures h.deviceType == Get(item, "deviceType") && h.firmwareVersion == Get(item, "firmwareVersion")
    ensures h.capturedAt == Get(item, "capturedAt") && h.receivedAt == Get(item, "receivedAt")
    ensures h.activity == Get(item, "activity") && h.battery == Get(item, "battery")
    ensures h.signal == Get(item, "signal") && h.location == Get(item, "location")
  {
    HealthData(
      Coalesce(Coalesce(Get(item, "_id"), Get(item, "id")), Str("")),
      Coalesce(Get(item, "deviceId"), Str("")),
      Get(item, "deviceType"),
      Get(item, "firmwareVersion"),
      Get(item, "patientId"),
      Get(item, "capturedAt"),
      Get(item, "receivedAt"),
      Get(item, "metrics"),
      Get(item, "activity"),
      Get(item, "battery"),
      Get(item, "signal"),
      Get(item, "location"))
  }

  /** The user in the answer to `POST /api/users`. */
  datatype UserReply = UserReply(_id: string, name: string)

  /** `createUser`: the server's `_id` becomes the id, and the name is kept. */
  function CreateUser(reply: UserReply): (u: User)
    ensures u.id == reply._id && u.name == reply.name
  {
    User(reply._id, reply.name)
  }

  /** A stored message in the answer to `GET /api/messages/conversation/:id`. */
  datatype MessageReply = MessageReply(_id: string, role: Role, content: string, createdAt: string)

  /** `getConversationMessages`: one message per answer item, in order, with the server's id,
      role and content and the creation time in milliseconds (`toTime`). */
  function MapMessages(items: seq<MessageReply>, toTime: string -> int): (ms: seq<Message>)
    ensures |ms| == |items|
    ensures forall i :: 0 <= i < |items| ==>
      && ms[i].id == items[i]._id && ms[i].role == items[i].role && ms[i].content == items[i].content
      && ms[i].timestamp == toTime(items[i].createdAt) && ms[i].isStreaming.None?
  {
    seq(|items|, i requires 0 <= i < |items| =>
      Message(items[i]._id, items[i].role, items[i].content, toTime(items[i].createdAt), None))
  }

  /** `v?.[0]`: the first element of an array, the first character of a string, or the
      property `"0"` of an object. */
  function First(v: Js): (r: Js)
    ensures v.Arr? && v.items != [] ==> r == v.items[0]
    ensures (v.Arr? && v.items == []) || IsNullish(v) ==> r == Undefined
  {
    match v
    case Arr(items) => if items != [] then items[0] else Undefined
    case Str(s) => if s != "" then Str(s[..1]) else Undefined
    case Obj(fields) => if "0" in fields then fields["0"] else Undefined
    case _ => Undefined
  }

  /** `getLatestHealthForPatient`: the first item of the answer's `data`, mapped, or nothing
      when there is no (truthy) first item. */
  function LatestHealth(answer: Js): (r: Option<HealthData>)
    ensures r.Some? <==> Truthy(First(Get(answer, "data")))
    ensures r.Some? ==> r.value == MapHealthData(First(Get(answer, "data")))
    ensures Get(answer, "data") == Arr([]) ==> r.None?
  {
    var item := First(Get(answer, "data"));
    if Truthy(item) then Some(MapHealthData(item)) else None
  }
}

=== FILE: app_cors.dfy ===
/**
  The origin check of the HTTP application (`app.js`): origins are compared after removing
  their trailing slashes, a request without an origin is let through, and any other origin
  must be one of the configured ones.
 */
module AppCors {
  import opened Wrappers
  import opened Text
  import opened Config

  const CORS_ERROR: string := "CORS not allowed"

  /** `normalizeOrigin`: an empty origin is returned as it is, any other loses its trailing
      slashes. The result is a prefix of the origin and what was cut is all slashes. */
  function NormalizeOrigin(origin: string): (r: string)
    ensures origin == "" ==> r == origin
    ensures !EndsWithSlash(r)
    ensures |r| <= |origin| && r == origin[..|r|]
    ensures forall i :: |r| <= i < |origin| ==> origin[i] == '/'
  {
    if origin == "" then origin else StripTrailingSlashes(origin)
  }

  /** Normalising twice is normalising once, and slashes added at the end are ignored. */
  lemma NormalizeOriginIdempotent(origin: string, n: nat)
    ensures NormalizeOrigin(NormalizeOrigin(origin)) == NormalizeOrigin(origin)
    ensures origin != "" ==> NormalizeOrigin(origin + seq(n, _ => '/')) == NormalizeOrigin(origin)
  {
    StripIdempotent(origin);
    if origin != "" {
      StripIgnoresAddedSlashes(origin, n);
    }
  }

  /** `config.FRONTEND_URLS.map(normalizeOrigin)` */
  function AllowedOrigins(urls: seq<string>): (allowed: seq<string>)
    ensures |allowed| == |urls|
    ensures forall i :: 0 <= i < |urls| ==> allowed[i] == NormalizeOrigin(urls[i])
  {
    seq(|urls|, i requires 0 <= i < |urls| => NormalizeOrigin(urls[i]))
  }

  /** The configured origins already have no trailing slash, so normalising them changes
      nothing. */
  lemma AllowedOriginsOfConfig(env: Env)
    ensures AllowedOrigins(Configure(env).FRONTEND_URLS) == Configure(env).FRONTEND_URLS
  {
  }

  /** `corsOptions.origin`: `Ok(true)` lets the request through, `Err` refuses it. The
      request's `Origin` header is `None` when absent. */
  function CorsDecision(origin: Option<string>, allowed: seq<string>): (r: Result<bool, string>)
    ensures r.Ok? ==> r.value
    ensures r.Ok? <==> origin.None? || origin.value == "" || NormalizeOrigin(origin.value) in allowed
    ensures r.Err? ==> r.error == CORS_ERROR
  {
    if origin.None? || origin.value == "" then Ok(true)
    else if NormalizeOrigin(origin.value) in allowed then Ok(true)
    else Err(CORS_ERROR)
  }

  /** An origin that differs from an allowed one only by trailing slashes is let through, and an
      origin is let through exactly when the same origin with more slashes is. */
  lemma CorsIgnoresTrailingSlashes(origin: string, n: nat, allowed: seq<string>)
    requires origin != ""
    ensures CorsDecision(Some(origin + seq(n, _ => '/')), allowed) == CorsDecision(Some(origin), allowed)
    ensures origin in AllowedOrigins(allowed) ==> CorsDecision(Some(origin + seq(n, _ => '/')), AllowedOrigins(allowed)).Ok?
  {
    NormalizeOriginIdempotent(origin, n);
    assert origin + seq(n, _ => '/') != "" by {
      assert |origin + seq(n, _ => '/')| >= |origin|;
    }
    if origin in AllowedOrigins(allowed) {
      var i :| 0 <= i < |allowed| && AllowedOrigins(allowed)[i] == origin;
      assert NormalizeOrigin(origin) == NormalizeOrigin(NormalizeOrigin(allowed[i]));
      NormalizeOriginIdempotent(allowed[i], 0);
    }
  }
}

=== FILE: call_service.dfy ===
/**
  The in-memory call registry (`CallService`): the calls by id, and the index from a
  `team:username` key to the id of the call that user is busy in.

  `crypto.randomUUID`, `Date.now` and `setTimeout` come from outside: the generated id and
  the clock are parameters, and the runtime's table of pending timers is the `timers` field
  (a handle that has been armed and neither cleared nor fired, with the call id its
  callback reports).
 */
module CallService {
  import opened Wrappers
  import opened JsValue

  const CALL_TIMEOUT_MS: nat := 30000

  const TerminalStatuses: set<string> := {"REJECTED", "CANCELLED", "ENDED", "FAILED"}

  predicate IsTerminal(status: string) {
    status in TerminalStatuses
  }

  /** `buildUserKey` */
  function UserKey(teamName: string, username: string): string {
    teamName + ":" + username
  }

  /** Within one team, different users have different keys. */
  lemma {:induction false} UserKeyInjective(teamName: string, a: string, b: string)
    requires UserKey(teamName, a) == UserKey(teamName, b)
    ensures a == b
  {
    var n := |teamName| + 1;
    assert UserKey(teamName, a)[n..] == a;
    assert UserKey(teamName, b)[n..] == b;
  }

  type TimerHandle = nat

  /** A call record. `type`, the socket ids, the offer, the answer and `acceptedBy` are
      whatever the signalling layer passes; the registry only stores them. */
  datatype Call = Call(
    callId: string,
    caller: string,
    receiver: Option<string>,
    receivers: Option<seq<string>>,
    receiverStates: map<string, string>,
    acceptedBy: Js,
    callType: Js,
    teamName: string,
    callerSocketId: Js,
    receiverSocketId: Js,
    offer: Js,
    answer: Js,
    status: string,
    createdAt: int,
    updatedAt: int,
    startedAt: int,
    endedAt: Option<int>,
    timeoutId: Option<TimerHandle>)

  /** The `updates` object of `updateCall`/`setStatus`: any field of the record may be given. */
  datatype CallPatch = CallPatch(
    callId: Option<string>,
    caller: Option<string>,
    receiver: Option<Option<string>>,
    receivers: Option<Option<seq<string>>>,
    receiverStates: Option<map<string, string>>,
    acceptedBy: Option<Js>,
    callType: Option<Js>,
    teamName: Option<string>,
    callerSocketId: Option<Js>,
    receiverSocketId: Option<Js>,
    offer: Option<Js>,
    answer: Option<Js>,
    status: Option<string>,
    createdAt: Option<int>,
    updatedAt: Option<int>,
    startedAt: Option<int>,
    endedAt: Option<Option<int>>,
    timeoutId: Option<Option<TimerHandle>>)
  {
    /** The patch leaves alone every field the registry's bookkeeping depends on. */
    predicate KeepsIdentity() {
      callId.None? && caller.None? && receiver.None? && receivers.None? && teamName.None? && timeoutId.None?
    }
  }

  /** `Object.assign(call, updates)` */
  function Merge(c: Call, p: CallPatch): Call {
    Call(
      p.callId.GetOr(c.callId), p.caller.GetOr(c.caller), p.receiver.GetOr(c.receiver),
      p.receivers.GetOr(c.receivers), p.receiverStates.GetOr(c.receiverStates),
      p.acceptedBy.GetOr(c.acceptedBy), p.callType.GetOr(c.callType), p.teamName.GetOr(c.teamName),
      p.callerSocketId.GetOr(c.callerSocketId), p.receiverSocketId.GetOr(c.receiverSocketId),
      p.offer.GetOr(c.offer), p.answer.GetOr(c.answer), p.status.GetOr(c.status),
      p.createdAt.GetOr(c.createdAt), p.updatedAt.GetOr(c.updatedAt), p.startedAt.GetOr(c.startedAt),
      p.endedAt.GetOr(c.endedAt), p.timeoutId.GetOr(c.timeoutId))
  }

  /** A patch that keeps the identity fields keeps the keys `cleanup` will delete. */
  lemma MergeKeepsKeys(c: Call, p: CallPatch)
    requires p.KeepsIdentity()
    ensures CleanupKeys(Merge(c, p)) == CleanupKeys(c)
    ensures Merge(c, p).callId == c.callId && Merge(c, p).timeoutId == c.timeoutId
  {
  }

  function KeySet(teamName: string, users: seq<string>): set<string> {
    set u | u in users :: UserKey(teamName, u)
  }

  lemma KeySetCons(teamName: string, u: string, users: seq<string>)
    ensures KeySet(teamName, [u] + users) == {UserKey(teamName, u)} + KeySet(teamName, users)
  {
    assert forall v :: v in [u] + users <==> v == u || v in users;
  }

  /** The keys `cleanup` deletes for a call: the caller's, and every receiver's (or the
      single `receiver`'s when `receivers` is not an array). */
  function CleanupKeys(c: Call): set<string> {
    {UserKey(c.teamName, c.caller)} +
    match c.receivers
    case Some(rs) => KeySet(c.teamName, rs)
    case None => if c.receiver.Some? && c.receiver.value != "" then {UserKey(c.teamName, c.receiver.value)} else {}
  }

  predicate NoDuplicates(s: seq<string>) {
    forall i, j :: 0 <= i < j < |s| ==> s[i] != s[j]
  }

  /** `Array.isArray(receivers) ? receivers : receiver ? [receiver] : []`; `None` stands for
      null/undefined entries, `""` is the falsy string. */
  function TargetList(receivers: Option<seq<Option<string>>>, receiver: Option<string>): seq<Option<string>> {
    if receivers.Some? then receivers.value
    else if receiver.Some? && receiver.value != "" then [receiver]
    else []
  }

  /** `list.filter(Boolean)` */
  function Present(list: seq<Option<string>>): (r: seq<string>)
    ensures forall u :: u in r <==> u != "" && Some(u) in list
  {
    if list == [] then []
    else if list[0].Some? && list[0].value != "" then [list[0].value] + Present(list[1..])
    else Present(list[1..])
  }

  /** `filter(Boolean)` keeps the names in the request's order: filtering a concatenation
      filters each side. */
  lemma {:induction false} PresentAppend(a: seq<Option<string>>, b: seq<Option<string>>)
    ensures Present(a + b) == Present(a) + Present(b)
  {
    if a != [] {
      assert (a + b)[0] == a[0] && (a + b)[1..] == a[1..] + b;
      PresentAppend(a[1..], b);
    } else {
      assert a + b == b;
    }
  }

  /** Index of the first occurrence of `x` in `s`. */
  function FirstIndex(s: seq<string>, x: string): (i: nat)
    requires x in s
    ensures i < |s| && s[i] == x
  {
    if s[0] == x then 0 else 1 + FirstIndex(s[1..], x)
  }

  /** No occurrence comes before the first. */
  lemma {:induction false} FirstIndexIsFirst(s: seq<string>, x: string, k: nat)
    requires x in s && k < FirstIndex(s, x)
    ensures s[k] != x
  {
    if s[0] != x && k > 0 {
      FirstIndexIsFirst(s[1..], x, k - 1);
    }
  }

  /** `Array.from(new Set(s))`, skipping the names in `seen`: each name once, and only those
      of `s` that are not in `seen`. */
  function Distinct(s: seq<string>, seen: set<string>): (r: seq<string>)
    ensures NoDuplicates(r)
    ensures forall u :: u in r <==> u in s && u !in seen
  {
    if s == [] then []
    else
      assert s == [s[0]] + s[1..];
      if s[0] in seen then Distinct(s[1..], seen)
      else
        var rest := Distinct(s[1..], seen + {s[0]});
        var r := [s[0]] + rest;
        forall i, j | 0 <= i < j < |r|
          ensures r[i] != r[j]
        {
          assert r[j] == rest[j - 1] && rest[j - 1] in rest;
          if i > 0 {
            assert r[i] == rest[i - 1];
          }
        }
        r
  }

  /** `r` lists names of `s` in the order of their first occurrence in `s`. */
  predicate FirstOccurrenceOrder(s: seq<string>, r: seq<string>) {
    forall i, j :: 0 <= i < j < |r| ==> FirstBefore(s, r, i, j)
  }

  /** `r[i]` and `r[j]` occur in `s`, `r[i]` first. */
  predicate FirstBefore(s: seq<string>, r: seq<string>, i: nat, j: nat)
    requires i < j < |r|
  {
    r[i] in s && r[j] in s && FirstIndex(s, r[i]) < FirstIndex(s, r[j])
  }

  /** The names come out in the order of their first occurrence. */
  lemma {:induction false} DistinctOrder(s: seq<string>, seen: set<string>)
    ensures FirstOccurrenceOrder(s, Distinct(s, seen))
  {
    if s != [] {
      if s[0] in seen {
        var r := Distinct(s[1..], seen);
        DistinctOrder(s[1..], seen);
        assert forall u :: u in r ==> u in s[1..] && u !in seen;
        DistinctTail(s, r);
      } else {
        var rest := Distinct(s[1..], seen + {s[0]});
        DistinctOrder(s[1..], seen + {s[0]});
        assert forall u :: u in rest ==> u in s[1..] && u !in seen + {s[0]};
        DistinctCons(s, rest);
        assert Distinct(s, seen) == [s[0]] + rest;
      }
    }
  }

  /** Past the head, first occurrences are one further along. */
  lemma FirstIndexTail(s: seq<string>, u: string)
    requires s != [] && u in s[1..] && u != s[0]
    ensures u in s && FirstIndex(s, u) == 1 + FirstIndex(s[1..], u)
  {
    assert s == [s[0]] + s[1..];
  }

  lemma DistinctTail(s: seq<string>, r: seq<string>)
    requires s != [] && forall u :: u in r ==> u in s[1..] && u != s[0]
    requires FirstOccurrenceOrder(s[1..], r)
    ensures FirstOccurrenceOrder(s, r)
  {
    forall i, j | 0 <= i < j < |r|
      ensures FirstBefore(s, r, i, j)
    {
      assert FirstBefore(s[1..], r, i, j);
      assert r[i] in r && r[j] in r;
      FirstIndexTail(s, r[i]);
      FirstIndexTail(s, r[j]);
    }
  }

  lemma DistinctCons(s: seq<string>, rest: seq<string>)
    requires s != [] && forall u :: u in rest ==> u in s[1..] && u != s[0]
    requires FirstOccurrenceOrder(s[1..], rest)
    ensures FirstOccurrenceOrder(s, [s[0]] + rest)
  {
    var r := [s[0]] + rest;
    forall i, j | 0 <= i < j < |r|
      ensures FirstBefore(s, r, i, j)
    {
      ConsPair(s, rest, i, j);
    }
  }

  /** One pair of `DistinctCons`. */
  lemma ConsPair(s: seq<string>, rest: seq<string>, i: nat, j: nat)
    requires s != [] && forall u :: u in rest ==> u in s[1..] && u != s[0]
    requires FirstOccurrenceOrder(s[1..], rest)
    requires i < j <= |rest|
    ensures FirstBefore(s, [s[0]] + rest, i, j)
  {
    var r := [s[0]] + rest;
    if i > 0 {
      assert FirstBefore(s[1..], rest, i - 1, j - 1);
    }
    var v := rest[j - 1];
    assert r[j] == v && v in rest;
    FirstIndexTail(s, v);
    if i == 0 {
      assert r[i] == s[0] && FirstIndex(s, s[0]) == 0;
    } else {
      var w := rest[i - 1];
      assert r[i] == w && w in rest;
      FirstIndexTail(s, w);
    }
  }

  /** `s.filter(u => u !== x)` */
  function Without(s: seq<string>, x: string): (r: seq<string>)
    ensures forall u :: u in r <==> u in s && u != x
  {
    if s == [] then [] else if s[0] == x then Without(s[1..], x) else [s[0]] + Without(s[1..], x)
  }

  /** Dropping `x` after the de-duplication is the same as never admitting it. */
  lemma {:induction false} WithoutDistinct(s: seq<string>, seen: set<string>, x: string)
    ensures Without(Distinct(s, seen), x) == Distinct(s, seen + {x})
  {
    if s != [] {
      if s[0] in seen {
        WithoutDistinct(s[1..], seen, x);
      } else if s[0] == x {
        WithoutDistinct(s[1..], seen + {x}, x);
        assert seen + {x} + {x} == seen + {x};
      } else {
        WithoutDistinct(s[1..], seen + {s[0]}, x);
        assert seen + {s[0]} + {x} == seen + {x} + {s[0]};
      }
    }
  }

  /** `uniqueTargets`: the present names, each once, without the caller. */
  function UniqueTargets(list: seq<Option<string>>, caller: string): (r: seq<string>)
    ensures NoDuplicates(r)
    ensures forall u :: u in r <==> u != "" && u != caller && Some(u) in list
  {
    WithoutDistinct(Present(list), {}, caller);
    Without(Distinct(Present(list), {}), caller)
  }

  /** The targets keep the order in which each name first appears in the request. */
  lemma UniqueTargetsFirstOccurrence(list: seq<Option<string>>, caller: string)
    ensures forall u :: u in UniqueTargets(list, caller) ==> u in Present(list)
    ensures FirstOccurrenceOrder(Present(list), UniqueTargets(list, caller))
  {
    WithoutDistinct(Present(list), {}, caller);
    assert {} + {caller} == {caller};
    DistinctOrder(Present(list), {caller});
  }

  /** `availableTargets`: the targets whose key is not in the index, in order. */
  function FreeTargets(targets: seq<string>, teamName: string, index: map<string, string>): (r: seq<string>)
    ensures forall u :: u in r <==> u in targets && UserKey(teamName, u) !in index
    ensures NoDuplicates(targets) ==> NoDuplicates(r)
    ensures |r| <= |targets|
  {
    if targets == [] then []
    else if UserKey(teamName, targets[0]) !in index then [targets[0]] + FreeTargets(targets[1..], teamName, index)
    else FreeTargets(targets[1..], teamName, index)
  }

  /** `skipped`: the targets that are not available, in order. */
  function Skipped(targets: seq<string>, available: seq<string>): (r: seq<string>)
    ensures forall u :: u in r <==> u in targets && u !in available
  {
    if targets == [] then []
    else if targets[0] !in available then [targets[0]] + Skipped(targets[1..], available)
    else Skipped(targets[1..], available)
  }

  /** A target is skipped exactly when its key is already in the index. */
  lemma SkippedAreBusy(targets: seq<string>, teamName: string, index: map<string, string>, u: string)
    ensures u in Skipped(targets, FreeTargets(targets, teamName, index)) <==> u in targets && UserKey(teamName, u) in index
  {
  }

  /** The de-duplicated targets of a `createCall` request. */
  function Targets(receivers: Option<seq<Option<string>>>, receiver: Option<string>, caller: string): (targets: seq<string>)
    ensures NoDuplicates(targets)
    ensures forall u :: u in targets <==> u != "" && u != caller && Some(u) in TargetList(receivers, receiver)
  {
    UniqueTargets(TargetList(receivers, receiver), caller)
  }

  /** `callId || this.generateCallId()` */
  function ResolvedId(callId: Option<string>, generatedId: string): (id: string)
    ensures callId.Some? && callId.value != "" ==> id == callId.value
    ensures callId.None? || callId.value == "" ==> id == generatedId
    ensures id == "" ==> generatedId == ""
  {
    if callId.Some? && callId.value != "" then callId.value else generatedId
  }

  /** The `forEach` that marks every available target RINGING. */
  method RingingStates(available: seq<string>) returns (states: map<string, string>)
    ensures states == map u | u in available :: "RINGING"
  {
    states := map[];
    var i := 0;
    while i < |available|
      invariant 0 <= i <= |available|
      invariant states == map u | u in available[..i] :: "RINGING"
    {
      assert available[..i + 1] == available[..i] + [available[i]];
      states := states[available[i] := "RINGING"];
      i := i + 1;
    }
    assert available[..i] == available;
  }

  /** What holds between the registry's maps: every index entry names an existing call and
      is one of that call's keys; each call is stored under its own id; each pending timer
      belongs to an existing call that holds its handle. The index need not list every busy
      user: `cleanup` and `releaseReceiver` delete keys without looking at what they map to. */
  ghost predicate ValidState(calls: map<string, Call>, index: map<string, string>,
                             timers: map<TimerHandle, string>, nextTimer: TimerHandle)
  {
    && (forall id :: id in calls ==> calls[id].callId == id)
    && (forall k :: k in index ==> index[k] in calls && k in CleanupKeys(calls[index[k]]))
    && (forall h :: h in timers ==> h < nextTimer && timers[h] in calls && calls[timers[h]].timeoutId == Some(h))
  }

  /** Adding a call under a fresh id, with its keys (all new) pointing at it, keeps the maps valid. */
  lemma AddCallKeepsValid(calls: map<string, Call>, index: map<string, string>,
                          timers: map<TimerHandle, string>, nextTimer: TimerHandle,
                          call: Call, index': map<string, string>)
    requires ValidState(calls, index, timers, nextTimer)
    requires call.callId !in calls && call.timeoutId == None
    requires index'.Keys == index.Keys + CleanupKeys(call)
    requires forall k :: k in index' ==> index'[k] == if k in CleanupKeys(call) then call.callId else index[k]
    ensures ValidState(calls[call.callId := call], index', timers, nextTimer)
  {
    var calls' := calls[call.callId := call];
    forall k | k in index'
      ensures index'[k] in calls' && k in CleanupKeys(calls'[index'[k]])
    {
      if k !in CleanupKeys(call) {
        assert k in index && index'[k] == index[k];
        assert index[k] != call.callId;
      }
    }
  }

  /** The timer table once a call's handle, if any, is cleared. */
  function WithoutTimer(timers: map<TimerHandle, string>, c: Call): map<TimerHandle, string> {
    if c.timeoutId.Some? then timers - {c.timeoutId.value} else timers
  }

  /** Removing a call with its keys and its timer keeps the maps valid, and leaves no key and
      no pending timer naming it. */
  lemma RemoveCallKeepsValid(calls: map<string, Call>, index: map<string, string>,
                             timers: map<TimerHandle, string>, nextTimer: TimerHandle, id: string)
    requires ValidState(calls, index, timers, nextTimer) && id in calls
    ensures var c := calls[id];
      && ValidState(calls - {id}, index - CleanupKeys(c), WithoutTimer(timers, c), nextTimer)
      && (forall k :: k in index - CleanupKeys(c) ==> (index - CleanupKeys(c))[k] != id)
      && (forall h :: h in WithoutTimer(timers, c) ==> WithoutTimer(timers, c)[h] != id)
  {
    var c := calls[id];
    var index' := index - CleanupKeys(c);
    var timers' := WithoutTimer(timers, c);
    forall k | k in index'
      ensures index'[k] != id && index'[k] in calls - {id} && k in CleanupKeys((calls - {id})[index'[k]])
    {
      assert k in index && k !in CleanupKeys(c);
    }
    forall h | h in timers'
      ensures timers'[h] != id && timers'[h] in calls - {id}
    {
      assert h in timers && timers'[h] == timers[h];
      assert calls[timers[h]].timeoutId == Some(h);
    }
  }

  /** Arming a fresh handle for a known call, after clearing its old one, keeps the maps valid,
      and the fresh handle is then the only one pending for that call. */
  lemma ArmTimerKeepsValid(calls: map<string, Call>, index: map<string, string>,
                           timers: map<TimerHandle, string>, nextTimer: TimerHandle, id: string)
    requires ValidState(calls, index, timers, nextTimer) && id in calls
    ensures var c := calls[id];
      var timers' := WithoutTimer(timers, c)[nextTimer := id];
      && ValidState(calls[id := c.(timeoutId := Some(nextTimer))], index, timers', nextTimer + 1)
      && (set h | h in timers' && timers'[h] == id) == {nextTimer}
  {
    var c := calls[id];
    var c' := c.(timeoutId := Some(nextTimer));
    var calls' := calls[id := c'];
    var timers' := WithoutTimer(timers, c)[nextTimer := id];
    assert CleanupKeys(c') == CleanupKeys(c);
    forall k | k in index
      ensures index[k] in calls' && k in CleanupKeys(calls'[index[k]])
    {
    }
    forall h | h in timers'
      ensures h < nextTimer + 1 && timers'[h] in calls' && calls'[timers'[h]].timeoutId == Some(h)
    {
      if h != nextTimer {
        assert h in timers && timers'[h] == timers[h];
        assert calls[timers[h]].timeoutId == Some(h);
      }
    }
    assert calls'[id].timeoutId == Some(nextTimer);
    forall h | h in timers' && timers'[h] == id
      ensures h == nextTimer
    {
      assert calls'[timers'[h]].timeoutId == Some(h);
    }
  }

  /** The record `createCall` stores for the available targets, with `receiver` set only when
      there is exactly one, status `CALLING`, no answer, no end and no timer yet. */
  function NewCall(id: string, caller: string, available: seq<string>, receiverStates: map<string, string>,
                   callType: Js, teamName: string, callerSocketId: Js, receiverSocketId: Js, offer: Js,
                   now: int): Call
  {
    Call(
      id, caller, if |available| == 1 then Some(available[0]) else None, Some(available),
      receiverStates, Null, callType, teamName, callerSocketId, receiverSocketId,
      offer, Null, "CALLING", now, now, now, None, None)
  }

  datatype CreateResult =
    | Created(call: Call, skipped: seq<string>)
    | Failed(error: string)

  class CallRegistry {
    var calls: map<string, Call>
    var activeByUser: map<string, string>
    var timers: map<TimerHandle, string>
    var nextTimer: TimerHandle

    /** What holds between the maps (see ValidState). */
    ghost predicate Valid()
      reads this
    {
      ValidState(calls, activeByUser, timers, nextTimer)
    }

    /** The pending timers that will report `callId`. */
    ghost function PendingFor(callId: string): set<TimerHandle>
      reads this
    {
      set h | h in timers && timers[h] == callId
    }

    constructor ()
      ensures calls == map[] && activeByUser == map[] && timers == map[] && nextTimer == 0
      ensures Valid()
    {
      calls := map[];
      activeByUser := map[];
      timers := map[];
      nextTimer := 0;
    }

    /** `getCall` */
    function GetCall(callId: string): (r: Option<Call>)
      reads this
      ensures r.Some? <==> callId in calls
      ensures r.Some? ==> r.value == calls[callId]
    {
      if callId in calls then Some(calls[callId]) else None
    }

    /** `isUserBusy`: the user's key is in the index, whatever it maps to. */
    function IsUserBusy(teamName: string, username: string): (busy: bool)
      reads this
      ensures busy <==> UserKey(teamName, username) in activeByUser
    {
      UserKey(teamName, username) in activeByUser
    }

    /** `findActiveCallByUser`: the call the user's key maps to, if the key is present with a
        non-empty id and that call still exists. */
    function FindActiveCallByUser(teamName: string, username: string): (r: Option<Call>)
      reads this
      ensures r.Some? <==>
        var key := UserKey(teamName, username);
        key in activeByUser && activeByUser[key] != "" && activeByUser[key] in calls
      ensures r.Some? ==> r.value == calls[activeByUser[UserKey(teamName, username)]]
    {
      var key := UserKey(teamName, username);
      if key !in activeByUser || activeByUser[key] == "" then None
      else if activeByUser[key] in calls then Some(calls[activeByUser[key]])
      else None
    }

    /** `findActiveCallBetween`: the call `first`'s key maps to, provided `second` is its
        receiver, its caller or one of its receivers, and it is not terminal. */
    function FindActiveCallBetween(teamName: string, first: string, second: string): (r: Option<Call>)
      reads this
      ensures r.Some? <==>
        && FindActiveCallByUser(teamName, first).Some?
        && var c := FindActiveCallByUser(teamName, first).value;
        && (c.receiver == Some(second) || c.caller == second || (c.receivers.Some? && second in c.receivers.value))
        && !IsTerminal(c.status)
      ensures r.Some? ==> r == FindActiveCallByUser(teamName, first)
    {
      match FindActiveCallByUser(teamName, first)
      case None => None
      case Some(c) =>
        if c.receiver != Some(second) && c.caller != second && !(c.receivers.Some? && second in c.receivers.value) then None
        else if IsTerminal(c.status) then None
        else Some(c)
    }

    /** `createCall`. Checks, in order: the caller is busy; no target is left; every target is
        busy; the id is taken. Any failure leaves the registry as it was. On success the call is
        stored ringing every available target, and exactly the caller's and those targets' keys
        are added to the index, all mapping to the new id. */
    method CreateCall(callId: Option<string>, caller: string, receiver: Option<string>,
                      receivers: Option<seq<Option<string>>>, callType: Js, teamName: string,
                      callerSocketId: Js, receiverSocketId: Js, offer: Js,
                      generatedId: string, now: int)
      returns (r: CreateResult)
      modifies this
      ensures UserKey(teamName, caller) in old(activeByUser) ==> r == Failed("busy")
      ensures UserKey(teamName, caller) !in old(activeByUser) && Targets(receivers, receiver, caller) == [] ==>
        r == Failed("no-targets")
      ensures
        var targets := Targets(receivers, receiver, caller);
        (UserKey(teamName, caller) !in old(activeByUser) && targets != [] &&
         FreeTargets(targets, teamName, old(activeByUser)) == []) ==> r == Failed("busy")
      ensures
        var available := FreeTargets(Targets(receivers, receiver, caller), teamName, old(activeByUser));
        (UserKey(teamName, caller) !in old(activeByUser) && available != [] &&
         ResolvedId(callId, generatedId) in old(calls)) ==> r == Failed("duplicate")
      ensures
        var available := FreeTargets(Targets(receivers, receiver, caller), teamName, old(activeByUser));
        r.Created? <==>
          UserKey(teamName, caller) !in old(activeByUser) && available != [] && ResolvedId(callId, generatedId) !in old(calls)
      ensures r.Failed? ==> calls == old(calls) && activeByUser == old(activeByUser)
      ensures r.Created? ==>
        var available := FreeTargets(Targets(receivers, receiver, caller), teamName, old(activeByUser));
        && r.call == NewCall(ResolvedId(callId, generatedId), caller, available, map u | u in available :: "RINGING",
                             callType, teamName, callerSocketId, receiverSocketId, offer, now)
        && r.skipped == Skipped(Targets(receivers, receiver, caller), available)
      ensures r.Created? ==>
        && calls == old(calls)[r.call.callId := r.call]
        && activeByUser.Keys == old(activeByUser).Keys + CleanupKeys(r.call)
        && (forall k :: k in activeByUser ==>
              activeByUser[k] == if k in CleanupKeys(r.call) then r.call.callId else old(activeByUser)[k])
      ensures timers == old(timers) && nextTimer == old(nextTimer)
      ensures old(Valid()) ==> Valid()
    {
      var callerKey := UserKey(teamName, caller);
      var targets := Targets(receivers, receiver, caller);

      if callerKey in activeByUser {
        return Failed("busy");
      }
      if |targets| == 0 {
        return Failed("no-targets");
      }
      var available := FreeTargets(targets, teamName, activeByUser);
      if |available| == 0 {
        return Failed("busy");
      }
      var id := ResolvedId(callId, generatedId);
      if id in calls {
        return Failed("duplicate");
      }

      var receiverStates := RingingStates(available);
      var call := NewCall(id, caller, available, receiverStates, callType, teamName, callerSocketId, receiverSocketId, offer, now);
      Commit(call, available);
      r := Created(call, Skipped(targets, available));
    }

    /** Stores a new call and points the caller's and the receivers' keys at it. */
    method Commit(call: Call, available: seq<string>)
      requires call.callId !in calls && call.timeoutId == None
      requires call.receivers == Some(available)
      modifies this
      ensures calls == old(calls)[call.callId := call]
      ensures activeByUser.Keys == old(activeByUser).Keys + CleanupKeys(call)
      ensures forall k :: k in activeByUser ==>
        activeByUser[k] == if k in CleanupKeys(call) then call.callId else old(activeByUser)[k]
      ensures timers == old(timers) && nextTimer == old(nextTimer)
      ensures old(Valid()) ==> Valid()
    {
      KeySetCons(call.teamName, call.caller, available);
      assert CleanupKeys(call) == KeySet(call.teamName, [call.caller] + available);
      calls := calls[call.callId := call];
      MarkBusy(call.teamName, [call.caller] + available, call.callId);
      if old(Valid()) {
        AddCallKeepsValid(old(calls), old(activeByUser), timers, nextTimer, call, activeByUser);
      }
    }

    /** The `forEach` that points every user's key at `id`. */
    method MarkBusy(teamName: string, users: seq<string>, id: string)
      modifies this
      ensures activeByUser.Keys == old(activeByUser).Keys + KeySet(teamName, users)
      ensures forall k :: k in activeByUser ==>
        activeByUser[k] == if k in KeySet(teamName, users) then id else old(activeByUser)[k]
      ensures calls == old(calls) && timers == old(timers) && nextTimer == old(nextTimer)
    {
      var j := 0;
      while j < |users|
        invariant 0 <= j <= |users|
        invariant calls == old(calls) && timers == old(timers) && nextTimer == old(nextTimer)
        invariant activeByUser.Keys == old(activeByUser).Keys + KeySet(teamName, users[..j])
        invariant forall k :: k in activeByUser ==>
          activeByUser[k] == if k in KeySet(teamName, users[..j]) then id else old(activeByUser)[k]
      {
        assert users[..j + 1] == users[..j] + [users[j]];
        activeByUser := activeByUser[UserKey(teamName, users[j]) := id];
        j := j + 1;
      }
      assert users[..j] == users;
    }

    /** `updateCall`: on a known id, merges `updates` and then stamps `updatedAt`; on an
        unknown id returns null. The index and the timers are never touched. */
    method UpdateCall(callId: string, updates: CallPatch, now: int) returns (r: Option<Call>)
      modifies this
      ensures callId !in old(calls) ==> r == None && calls == old(calls)
      ensures callId in old(calls) ==>
        && r == Some(Merge(old(calls)[callId], updates).(updatedAt := now))
        && calls == old(calls)[callId := r.value]
      ensures activeByUser == old(activeByUser) && timers == old(timers) && nextTimer == old(nextTimer)
      ensures old(Valid()) && updates.KeepsIdentity() ==> Valid()
    {
      if callId !in calls {
        return None;
      }
      var call := Merge(calls[callId], updates).(updatedAt := now);
      if updates.KeepsIdentity() {
        MergeKeepsKeys(calls[callId], updates);
      }
      calls := calls[callId := call];
      r := Some(call);
    }

    /** `setStatus`: sets the status and `updatedAt`, stamps `endedAt` only for a terminal
        status, then merges `updates` (which may override any of those). Unknown ids give null.
        The index and the timers are never touched, even for a terminal status. The clock is
        read once for `updatedAt` and again for `endedAt`. */
    method SetStatus(callId: string, status: string, updates: CallPatch, updatedNow: int, endedNow: int)
      returns (r: Option<Call>)
      modifies this
      ensures callId !in old(calls) ==> r == None && calls == old(calls)
      ensures callId in old(calls) ==>
        var c := old(calls)[callId];
        && r.Some?
        && r.value == Merge(c.(status := status, updatedAt := updatedNow, endedAt := if IsTerminal(status) then Some(endedNow) else c.endedAt), updates)
        && calls == old(calls)[callId := r.value]
        && (updates.status.None? ==> r.value.status == status)
        && (updates.updatedAt.None? ==> r.value.updatedAt == updatedNow)
        && (updates.endedAt.None? ==> r.value.endedAt == if IsTerminal(status) then Some(endedNow) else c.endedAt)
      ensures activeByUser == old(activeByUser) && timers == old(timers) && nextTimer == old(nextTimer)
      ensures old(Valid()) && updates.KeepsIdentity() ==> Valid()
    {
      if callId !in calls {
        return None;
      }
      var call := calls[callId];
      call := call.(status := status, updatedAt := updatedNow);
      if IsTerminal(status) {
        call := call.(endedAt := Some(endedNow));
      }
      call := Merge(call, updates);
      if updates.KeepsIdentity() {
        MergeKeepsKeys(calls[callId].(status := status, updatedAt := updatedNow, endedAt := if IsTerminal(status) then Some(endedNow) else calls[callId].endedAt), updates);
      }
      calls := calls[callId := call];
      r := Some(call);
    }

    /** `releaseReceiver`: when the call exists and `username` is one of its receivers, records
        that receiver's state (default CANCELLED) and deletes that user's key; otherwise does
        nothing. The call's own status is left as it was. */
    method ReleaseReceiver(callId: string, username: string, status: Option<string>)
      modifies this
      ensures
        if callId in old(calls) && old(calls)[callId].receivers.Some? && username in old(calls)[callId].receivers.value then
          var c := old(calls)[callId];
          && calls == old(calls)[callId := c.(receiverStates := c.receiverStates[username := status.GetOr("CANCELLED")])]
          && activeByUser == old(activeByUser) - {UserKey(c.teamName, username)}
        else
          calls == old(calls) && activeByUser == old(activeByUser)
      ensures timers == old(timers) && nextTimer == old(nextTimer)
      ensures old(Valid()) ==> Valid()
    {
      if callId !in calls {
        return;
      }
      var call := calls[callId];
      if !(call.receivers.Some? && username in call.receivers.value) {
        return;
      }
      call := call.(receiverStates := call.receiverStates[username := status.GetOr("CANCELLED")]);
      calls := calls[callId := call];
      activeByUser := activeByUser - {UserKey(call.teamName, username)};
    }

    /** `startTimeout`: on a known id, cancels the call's previous timer (if any) and arms a
        fresh one that will report this id; unknown ids are ignored. */
    method StartTimeout(callId: string)
      modifies this
      ensures callId !in old(calls) ==>
        calls == old(calls) && timers == old(timers) && nextTimer == old(nextTimer)
      ensures callId in old(calls) ==>
        var c := old(calls)[callId];
        var h := old(nextTimer);
        && calls == old(calls)[callId := c.(timeoutId := Some(h))]
        && timers == (if c.timeoutId.Some? then old(timers) - {c.timeoutId.value} else old(timers))[h := callId]
        && nextTimer == h + 1
      ensures activeByUser == old(activeByUser)
      ensures old(Valid()) ==> Valid()
      ensures old(Valid()) && callId in old(calls) ==> PendingFor(callId) == {old(nextTimer)}
    {
      if callId !in calls {
        return;
      }
      ClearTimeout(callId);
      var h := nextTimer;
      timers := timers[h := callId];
      nextTimer := nextTimer + 1;
      calls := calls[callId := calls[callId].(timeoutId := Some(h))];
      assert timers == WithoutTimer(old(timers), old(calls)[callId])[h := callId];
      if old(Valid()) {
        ArmTimerKeepsValid(old(calls), old(activeByUser), old(timers), old(nextTimer), callId);
      }
    }

    /** `clearTimeout(call)`: cancels the call's pending timer and forgets its handle. */
    method ClearTimeout(callId: string)
      requires callId in calls
      modifies this
      ensures
        var c := old(calls)[callId];
        && calls == old(calls)[callId := c.(timeoutId := None)]
        && timers == if c.timeoutId.Some? then old(timers) - {c.timeoutId.value} else old(timers)
      ensures activeByUser == old(activeByUser) && nextTimer == old(nextTimer)
    {
      var call := calls[callId];
      if call.timeoutId.Some? {
        timers := timers - {call.timeoutId.value};
        calls := calls[callId := call.(timeoutId := None)];
      }
    }

    /** A pending timer fires after CALL_TIMEOUT_MS: it leaves the table and its callback
        receives the call id it was armed for. */
    method TimerFires(h: TimerHandle) returns (reported: Option<string>)
      modifies this
      ensures h in old(timers) ==> reported == Some(old(timers)[h]) && timers == old(timers) - {h}
      ensures h !in old(timers) ==> reported == None && timers == old(timers)
      ensures calls == old(calls) && activeByUser == old(activeByUser) && nextTimer == old(nextTimer)
      ensures old(Valid()) ==> Valid()
    {
      if h in timers {
        reported := Some(timers[h]);
        timers := timers - {h};
      } else {
        reported := None;
      }
    }

    /** `call.receivers.forEach(...)` inside `cleanup`: deletes every receiver's key. */
    method ReleaseAll(teamName: string, rs: seq<string>)
      modifies this
      ensures activeByUser == old(activeByUser) - KeySet(teamName, rs)
      ensures calls == old(calls) && timers == old(timers) && nextTimer == old(nextTimer)
    {
      var i := 0;
      while i < |rs|
        invariant 0 <= i <= |rs|
        invariant calls == old(calls) && timers == old(timers) && nextTimer == old(nextTimer)
        invariant activeByUser == old(activeByUser) - KeySet(teamName, rs[..i])
      {
        assert rs[..i + 1] == rs[..i] + [rs[i]];
        activeByUser := activeByUser - {UserKey(teamName, rs[i])};
        i := i + 1;
      }
      assert rs[..i] == rs;
    }

    /** `cleanup`: on a known id, cancels its timer, removes the call and deletes the caller's
        and every receiver's key, whichever call each key maps to now. Unknown ids are ignored,
        so a second cleanup is a no-op. */
    method Cleanup(callId: string)
      modifies this
      ensures callId !in old(calls) ==>
        calls == old(calls) && activeByUser == old(activeByUser) && timers == old(timers)
      ensures callId in old(calls) ==>
        var c := old(calls)[callId];
        && calls == old(calls) - {callId}
        && activeByUser == old(activeByUser) - CleanupKeys(c)
        && (forall k :: k in CleanupKeys(c) ==> k !in activeByUser)
        && timers == if c.timeoutId.Some? then old(timers) - {c.timeoutId.value} else old(timers)
      ensures nextTimer == old(nextTimer)
      ensures old(Valid()) ==> Valid()
      ensures old(Valid()) ==> forall k :: k in activeByUser ==> activeByUser[k] != callId
      ensures old(Valid()) ==> PendingFor(callId) == {}
    {
      if callId !in calls {
        return;
      }
      var call := calls[callId];
      ClearTimeout(callId);
      calls := calls - {callId};
      assert calls == old(calls) - {callId};
      ghost var timers0 := timers;
      activeByUser := activeByUser - {UserKey(call.teamName, call.caller)};
      match call.receivers {
        case Some(rs) =>
          ReleaseAll(call.teamName, rs);
        case None =>
          if call.receiver.Some? && call.receiver.value != "" {
            activeByUser := activeByUser - {UserKey(call.teamName, call.receiver.value)};
          }
      }
      assert activeByUser == old(activeByUser) - CleanupKeys(call);
      assert timers == WithoutTimer(old(timers), call);
      if old(Valid()) {
        RemoveCallKeepsValid(old(calls), old(activeByUser), old(timers), old(nextTimer), callId);
      }
    }
  }
}

=== FILE: chat_state.dfy ===
/**
  The chat application's state handling (`App.tsx`): the updaters that create, delete and
  deselect conversations, the login guard, the merge of a conversation with the server's
  copy, and the sending of a message, whose reply is streamed into a placeholder message.

  Generated ids, the clock, the server's answers and the reply's chunks are parameters.
  Each updater is applied to the state it receives, one at a time.
 */
module ChatApp {
  import opened Wrappers
  import opened Text
  import opened Ordering
  import opened ChatTypes

  const NEW_CHAT_TITLE: string := "New Chat"
  const NAME_REQUIRED: string := "Display Name is required."
  const LOGIN_FAILED: string := "Unable to connect to server. Please try again."

  /** `createNewChat`: appends an empty `New Chat` conversation and makes it active. The two
      stamps are two separate clock reads. */
  function CreateNewChat(prev: ChatState, id: string, createdAt: int, updatedAt: int): (next: ChatState)
    ensures |next.conversations| == |prev.conversations| + 1
    ensures next.conversations[..|prev.conversations|] == prev.conversations
    ensures next.conversations[|prev.conversations|] == Conversation(id, NEW_CHAT_TITLE, [], createdAt, updatedAt)
    ensures next.activeConversationId == Some(id) && ActiveExists(next)
    ensures next.isTyping == prev.isTyping
  {
    var chat := Conversation(id, NEW_CHAT_TITLE, [], createdAt, updatedAt);
    var next := prev.(conversations := prev.conversations + [chat], activeConversationId := Some(id));
    assert Ids(next.conversations)[|prev.conversations|] == id;
    next
  }

  /** The `filter` callback of `deleteChat`. */
  function Other(id: string): Conversation -> bool {
    (c: Conversation) => c.id != id
  }

  /** `deleteChat`: drops every conversation with the id, keeping the rest in order; when it
      was the active one, the last remaining conversation becomes active, or none. */
  function DeleteChat(prev: ChatState, id: string): (next: ChatState)
    ensures next.conversations == Select(prev.conversations, Other(id))
    ensures forall c :: c in next.conversations <==> c in prev.conversations && c.id != id
    ensures |next.conversations| <= |prev.conversations|
    ensures prev.activeConversationId != Some(id) ==> next.activeConversationId == prev.activeConversationId
    ensures prev.activeConversationId == Some(id) && next.conversations == [] ==> next.activeConversationId.None?
    ensures prev.activeConversationId == Some(id) && next.conversations != [] ==>
      next.activeConversationId == Some(next.conversations[|next.conversations| - 1].id)
    ensures next.isTyping == prev.isTyping
  {
    var remaining := Select(prev.conversations, Other(id));
    forall c | c in remaining
      ensures c in prev.conversations
    {
      assert c in multiset(prev.conversations);
    }
    prev.(
      conversations := remaining,
      activeConversationId :=
        if prev.activeConversationId == Some(id) then
          (if |remaining| > 0 then Some(remaining[|remaining| - 1].id) else None)
        else prev.activeConversationId)
  }

  /** Deleting from a list split in two deletes from each part and keeps the parts in order. */
  lemma DeleteChatKeepsOrder(prev: ChatState, id: string, front: seq<Conversation>, back: seq<Conversation>)
    requires prev.conversations == front + back
    ensures DeleteChat(prev, id).conversations == Select(front, Other(id)) + Select(back, Other(id))
  {
    SelectAppend(front, back, Other(id));
  }

  /** Deleting keeps the active id pointing at an existing conversation. */
  lemma DeleteChatKeepsActive(prev: ChatState, id: string)
    requires ActiveExists(prev)
    ensures ActiveExists(DeleteChat(prev, id))
  {
    var next := DeleteChat(prev, id);
    if next.activeConversationId.Some? {
      if prev.activeConversationId == Some(id) {
        assert next.conversations[|next.conversations| - 1] in next.conversations;
        assert Ids(next.conversations)[|next.conversations| - 1] == next.activeConversationId.value;
      } else {
        var a := prev.activeConversationId.value;
        var k :| 0 <= k < |prev.conversations| && Ids(prev.conversations)[k] == a;
        var c := prev.conversations[k];
        assert c in next.conversations;
        var j :| 0 <= j < |next.conversations| && next.conversations[j] == c;
        assert Ids(next.conversations)[j] == a;
      }
    }
  }

  /** The signed-in user and the chat state together. */
  datatype Session = Session(auth: AuthState, chat: ChatState)

  /** `handleLogout`: signs out and deselects, keeping every conversation. */
  function Logout(s: Session): (r: Session)
    ensures r.auth.user.None? && !r.auth.isAuthenticated
    ensures r.chat.conversations == s.chat.conversations && r.chat.isTyping == s.chat.isTyping
    ensures r.chat.activeConversationId.None? && ActiveExists(r.chat)
  {
    Session(AuthState(None, false), s.chat.(activeConversationId := None))
  }

  /** What a login attempt leaves: the session, the error shown, and the name sent to the
      server, if any. */
  datatype LoginResult = LoginResult(session: Session, error: string, requested: Option<string>)

  /** `handleLogin`: a blank name is refused without asking the server; otherwise the trimmed
      name is sent, a failure is reported, and a success signs the user in and opens a first
      conversation when there is none. `createUser` is the server's answer. */
  function Login(s: Session, nameInput: string, createUser: string -> Result<User, string>,
                 newChatId: string, createdAt: int, updatedAt: int): (r: LoginResult)
    ensures Trim(nameInput) == "" ==> r == LoginResult(s, NAME_REQUIRED, None)
    ensures Trim(nameInput) != "" ==> r.requested == Some(Trim(nameInput))
    ensures Trim(nameInput) != "" && createUser(Trim(nameInput)).Err? ==> r.session == s && r.error == LOGIN_FAILED
    ensures Trim(nameInput) != "" && createUser(Trim(nameInput)).Ok? ==>
      && r.error == ""
      && r.session.auth == AuthState(Some(createUser(Trim(nameInput)).value), true)
      && (s.chat.conversations != [] ==> r.session.chat == s.chat)
      && (s.chat.conversations == [] ==> r.session.chat == CreateNewChat(s.chat, newChatId, createdAt, updatedAt))
  {
    var name := Trim(nameInput);
    if name == "" then LoginResult(s, NAME_REQUIRED, None)
    else
      match createUser(name)
      case Err(_) => LoginResult(s, LOGIN_FAILED, Some(name))
      case Ok(user) =>
        var chat := if |s.chat.conversations| == 0 then CreateNewChat(s.chat, newChatId, createdAt, updatedAt) else s.chat;
        LoginResult(Session(AuthState(Some(user), true), chat), "", Some(name))
  }

  /** Appends a message to the conversation with the id, stamping `updatedAt` when a time is
      given; the other conversations, and the order, are unchanged. */
  function AddMessage(convs: seq<Conversation>, id: string, m: Message, stamp: Option<int>): (r: seq<Conversation>)
    ensures |r| == |convs| && Ids(r) == Ids(convs)
    ensures forall i :: 0 <= i < |convs| && convs[i].id != id ==> r[i] == convs[i]
    ensures forall i :: 0 <= i < |convs| && convs[i].id == id ==>
      && r[i].messages == convs[i].messages + [m]
      && r[i].title == convs[i].title && r[i].createdAt == convs[i].createdAt
      && r[i].updatedAt == stamp.GetOr(convs[i].updatedAt)
  {
    seq(|convs|, i requires 0 <= i < |convs| =>
      if convs[i].id == id then
        convs[i].(messages := convs[i].messages + [m], updatedAt := stamp.GetOr(convs[i].updatedAt))
      else convs[i])
  }

  /** Sets the content of the messages with the id. */
  function SetMessageContent(ms: seq<Message>, messageId: string, content: string): (r: seq<Message>)
    ensures |r| == |ms|
    ensures forall j :: 0 <= j < |ms| && ms[j].id != messageId ==> r[j] == ms[j]
    ensures forall j :: 0 <= j < |ms| && ms[j].id == messageId ==> r[j] == ms[j].(content := content)
  {
    seq(|ms|, j requires 0 <= j < |ms| => if ms[j].id == messageId then ms[j].(content := content) else ms[j])
  }

  /** The streaming updater: only the placeholder of the current conversation changes, and
      only its content. */
  function SetContent(convs: seq<Conversation>, id: string, messageId: string, content: string): (r: seq<Conversation>)
    ensures |r| == |convs| && Ids(r) == Ids(convs)
    ensures forall i :: 0 <= i < |convs| && convs[i].id != id ==> r[i] == convs[i]
    ensures forall i :: 0 <= i < |convs| && convs[i].id == id ==>
      r[i] == convs[i].(messages := SetMessageContent(convs[i].messages, messageId, content))
  {
    seq(|convs|, i requires 0 <= i < |convs| =>
      if convs[i].id == id then convs[i].(messages := SetMessageContent(convs[i].messages, messageId, content))
      else convs[i])
  }

  /** Each update of the placeholder replaces the previous one: only the last content counts. */
  lemma SetContentOverwrites(convs: seq<Conversation>, id: string, messageId: string, a: string, b: string)
    ensures SetContent(SetContent(convs, id, messageId, a), id, messageId, b) == SetContent(convs, id, messageId, b)
  {
    var once := SetContent(convs, id, messageId, a);
    var twice := SetContent(once, id, messageId, b);
    var direct := SetContent(convs, id, messageId, b);
    forall i | 0 <= i < |convs|
      ensures twice[i] == direct[i]
    {
      if convs[i].id == id {
        var ms := convs[i].messages;
        assert SetMessageContent(SetMessageContent(ms, messageId, a), messageId, b) == SetMessageContent(ms, messageId, b);
      }
    }
  }

  /** The finishing updater: the placeholder of the current conversation stops streaming. */
  function StopStreaming(convs: seq<Conversation>, id: string, messageId: string): (r: seq<Conversation>)
    ensures |r| == |convs| && Ids(r) == Ids(convs)
    ensures forall i :: 0 <= i < |convs| && convs[i].id != id ==> r[i] == convs[i]
    ensures forall i :: 0 <= i < |convs| && convs[i].id == id ==>
      && |r[i].messages| == |convs[i].messages|
      && forall j :: 0 <= j < |convs[i].messages| ==>
           r[i].messages[j] ==
             if convs[i].messages[j].id == messageId then convs[i].messages[j].(isStreaming := Some(false))
             else convs[i].messages[j]
  {
    seq(|convs|, i requires 0 <= i < |convs| =>
      if convs[i].id == id then
        convs[i].(messages := seq(|convs[i].messages|, j requires 0 <= j < |convs[i].messages| =>
          if convs[i].messages[j].id == messageId then convs[i].messages[j].(isStreaming := Some(false))
          else convs[i].messages[j]))
      else convs[i])
  }

  /** The conversations once the given chunks have been streamed into the placeholder. */
  function Streamed(base: seq<Conversation>, id: string, messageId: string, chunks: seq<string>): seq<Conversation> {
    if chunks == [] then base else SetContent(base, id, messageId, Concat(chunks))
  }

  /** A request to store a message on the server. */
  datatype Outgoing = Outgoing(conversationId: string, userId: string, role: Role, content: string)

  /** The sync updater: the active conversation takes the server's messages when the server
      has at least as many, and is stamped either way; the others are untouched. */
  function SyncMessages(prev: ChatState, activeId: string, remote: seq<Message>, now: int): (next: ChatState)
    ensures next.activeConversationId == prev.activeConversationId && next.isTyping == prev.isTyping
    ensures |next.conversations| == |prev.conversations| && Ids(next.conversations) == Ids(prev.conversations)
    ensures forall i :: 0 <= i < |prev.conversations| && prev.conversations[i].id != activeId ==>
      next.conversations[i] == prev.conversations[i]
    ensures forall i :: 0 <= i < |prev.conversations| && prev.conversations[i].id == activeId ==>
      var before := prev.conversations[i];
      var after := next.conversations[i];
      && (after.messages == remote <==> |remote| >= |before.messages|)
      && (|remote| < |before.messages| ==> after.messages == before.messages)
      && |after.messages| >= |before.messages|
      && after.updatedAt == now && after.title == before.title && after.createdAt == before.createdAt
  {
    var convs := prev.conversations;
    prev.(conversations := seq(|convs|, i requires 0 <= i < |convs| =>
      if convs[i].id != activeId then convs[i]
      else convs[i].(messages := if |remote| >= |convs[i].messages| then remote else convs[i].messages, updatedAt := now)))
  }

  /** The application's state. */
  class App {
    var auth: AuthState
    var chat: ChatState
    /** Whether the reply service has been set up (it is once a user is signed in). */
    var hasService: bool

    constructor (auth: AuthState, chat: ChatState, hasService: bool)
      ensures this.auth == auth && this.chat == chat && this.hasService == hasService
    {
      this.auth := auth;
      this.chat := chat;
      this.hasService := hasService;
    }

    /** `handleSendMessage`: without a service, an active conversation or a user, nothing
        happens. Otherwise the user's message is appended and stored; if storing fails the
        typing flag is cleared. Then a streaming placeholder is appended, each chunk of the
        reply is added to its content, and when the reply ends the placeholder stops
        streaming, the typing flag is cleared and the reply is stored. If the reply fails
        after some chunks, only the typing flag is cleared. The result lists the store
        requests made, in order. The clock is read three times, each a parameter: the user
        message's timestamp, the conversation's new `updatedAt`, and, after the store request,
        the placeholder's timestamp. */
    method SendMessage(text: string, userMsgId: string, aiMsgId: string, sentAt: int, stampedAt: int, placeholderAt: int,
                       userSaved: bool, chunks: seq<string>, streamFails: bool)
      returns (requests: seq<Outgoing>)
      modifies this
      ensures auth == old(auth) && hasService == old(hasService)
      ensures chat.activeConversationId == old(chat.activeConversationId)
      ensures Ids(chat.conversations) == Ids(old(chat.conversations))
      ensures (!old(hasService) || old(chat.activeConversationId).None? || old(chat.activeConversationId) == Some("")
               || old(auth.user).None?) ==> chat == old(chat) && requests == []
      ensures (old(hasService) && old(chat.activeConversationId).Some? && old(chat.activeConversationId) != Some("")
               && old(auth.user).Some?) ==>
        var current := old(chat.activeConversationId).value;
        var userId := old(auth.user).value.id;
        var withUser := AddMessage(old(chat.conversations), current, Message(userMsgId, UserRole, text, sentAt, None), Some(stampedAt));
        var base := AddMessage(withUser, current, Message(aiMsgId, ModelRole, "", placeholderAt, Some(true)), None);
        && !chat.isTyping
        && |requests| >= 1 && requests[0] == Outgoing(current, userId, UserRole, text)
        && (!userSaved ==> chat.conversations == withUser && |requests| == 1)
        && (userSaved && streamFails ==> chat.conversations == Streamed(base, current, aiMsgId, chunks) && |requests| == 1)
        && (userSaved && !streamFails ==>
              && chat.conversations == StopStreaming(Streamed(base, current, aiMsgId, chunks), current, aiMsgId)
              && requests == [Outgoing(current, userId, UserRole, text), Outgoing(current, userId, ModelRole, Concat(chunks))])
    {
      requests := [];
      if !hasService || chat.activeConversationId.None? || chat.activeConversationId == Some("") || auth.user.None? {
        return;
      }
      var currentChatId := chat.activeConversationId.value;
      var userId := auth.user.value.id;
      var userMsg := Message(userMsgId, UserRole, text, sentAt, None);
      chat := chat.(conversations := AddMessage(chat.conversations, currentChatId, userMsg, Some(stampedAt)), isTyping := true);
      requests := [Outgoing(currentChatId, userId, UserRole, text)];
      if !userSaved {
        chat := chat.(isTyping := false);
        return;
      }
      var placeholder := Message(aiMsgId, ModelRole, "", placeholderAt, Some(true));
      chat := chat.(conversations := AddMessage(chat.conversations, currentChatId, placeholder, None));
      var accumulated := StreamReply(currentChatId, aiMsgId, chunks);
      if streamFails {
        chat := chat.(isTyping := false);
        return;
      }
      chat := chat.(isTyping := false, conversations := StopStreaming(chat.conversations, currentChatId, aiMsgId));
      requests := requests + [Outgoing(currentChatId, userId, ModelRole, accumulated)];
    }

    /** The `for await` loop: after each chunk the placeholder holds every chunk so far. */
    method StreamReply(currentChatId: string, aiMsgId: string, chunks: seq<string>) returns (accumulated: string)
      modifies this
      ensures accumulated == Concat(chunks)
      ensures chat == old(chat).(conversations := Streamed(old(chat.conversations), currentChatId, aiMsgId, chunks))
      ensures auth == old(auth) && hasService == old(hasService)
    {
      var base := chat.conversations;
      accumulated := "";
      var i := 0;
      while i < |chunks|
        invariant 0 <= i <= |chunks|
        invariant accumulated == Concat(chunks[..i])
        invariant chat == old(chat).(conversations := Streamed(base, currentChatId, aiMsgId, chunks[..i]))
        invariant auth == old(auth) && hasService == old(hasService)
      {
        ConcatAppend(chunks[..i], chunks[i]);
        assert chunks[..i + 1] == chunks[..i] + [chunks[i]];
        if i > 0 {
          SetContentOverwrites(base, currentChatId, aiMsgId, accumulated, accumulated + chunks[i]);
        }
        accumulated := accumulated + chunks[i];
        chat := chat.(conversations := SetContent(chat.conversations, currentChatId, aiMsgId, accumulated));
        i := i + 1;
      }
      assert chunks[..i] == chunks;
    }
  }
}

=== FILE: chat_types.dfy ===
/**
  The front end's data types (`types.ts`): messages, conversations, the signed-in user and
  the chat state the application keeps.
 */
module ChatTypes {
  import opened Wrappers

  /** `Role`: `'user'`, `'model'`, `'system'`. */
  datatype Role = UserRole | ModelRole | SystemRole

  /** `isStreaming` is optional. */
  datatype Message = Message(
    id: string,
    role: Role,
    content: string,
    timestamp: int,
    isStreaming: Option<bool>)

  datatype Conversation = Conversation(
    id: string,
    title: string,
    messages: seq<Message>,
    createdAt: int,
    updatedAt: int)

  datatype User = User(id: string, name: string)

  datatype AuthState = AuthState(user: Option<User>, isAuthenticated: bool)

  datatype ChatState = ChatState(
    conversations: seq<Conversation>,
    activeConversationId: Option<string>,
    isTyping: bool)

  /** The conversation ids, in order. */
  function Ids(convs: seq<Conversation>): (ids: seq<string>)
    ensures |ids| == |convs|
    ensures forall i :: 0 <= i < |convs| ==> ids[i] == convs[i].id
  {
    seq(|convs|, i requires 0 <= i < |convs| => convs[i].id)
  }

  /** The active id, when set, names a conversation of the list. */
  predicate ActiveExists(s: ChatState) {
    s.activeConversationId.Some? ==> s.activeConversationId.value in Ids(s.conversations)
  }
}

=== FILE: config.dfy ===
/**
  The server configuration (`config.js`): the allowed front-end origins parsed from a
  comma-separated environment variable, and the defaults of the other fields. The process
  environment is the parameter `env`; an unset variable is a missing key.
 */
module Config {
  import opened Wrappers
  import opened JsValue
  import opened Text
  import opened Ordering

  const DEFAULT_FRONTEND_URL: string := "http://localhost:5173"
  const DEFAULT_PORT: real := 5000.0
  const DEFAULT_MONGODB_URI: string := "mongodb://localhost:27017/codex"
  const DEFAULT_JWT_SECRET: string := "your-secret-key"

  /** `.map(item => item.trim())` */
  function TrimAll(parts: seq<string>): (r: seq<string>)
    ensures |r| == |parts|
    ensures forall i :: 0 <= i < |parts| ==> r[i] == Trim(parts[i])
  {
    seq(|parts|, i requires 0 <= i < |parts| => Trim(parts[i]))
  }

  /** `.map(item => item.replace(/\/+$/, ''))` */
  function StripAll(parts: seq<string>): (r: seq<string>)
    ensures |r| == |parts|
    ensures forall i :: 0 <= i < |parts| ==> r[i] == StripTrailingSlashes(parts[i])
  {
    seq(|parts|, i requires 0 <= i < |parts| => StripTrailingSlashes(parts[i]))
  }

  predicate NonEmpty(s: string) {
    s != ""
  }

  /** The `map`, `filter`, `map` chain of `parseOrigins` over the comma-separated parts. */
  function CleanParts(parts: seq<string>): (origins: seq<string>)
    ensures forall o :: o in origins ==> !EndsWithSlash(o)
    ensures |origins| <= |parts|
  {
    StripAll(Select(TrimAll(parts), NonEmpty))
  }

  /** `parseOrigins`: split on commas, trim, drop the empty parts, strip trailing slashes.
      No origin keeps a trailing slash, and there are no more origins than parts; which
      origins come out, and in what order, `ParseOriginsPiece` and `ParseOriginsSingle`
      state part by part. */
  function ParseOrigins(value: string): (origins: seq<string>)
    ensures forall o :: o in origins ==> !EndsWithSlash(o)
    ensures |origins| <= |Split(value, ',')|
  {
    CleanParts(Split(value, ','))
  }

  /** What one comma-free part contributes: nothing when it is blank, otherwise the trimmed
      part without its trailing slashes. */
  function PartOrigin(part: string): seq<string> {
    if Trim(part) == "" then [] else [StripTrailingSlashes(Trim(part))]
  }

  lemma TrimAllAppend(a: seq<string>, b: seq<string>)
    ensures TrimAll(a + b) == TrimAll(a) + TrimAll(b)
  {
  }

  lemma StripAllAppend(a: seq<string>, b: seq<string>)
    ensures StripAll(a + b) == StripAll(a) + StripAll(b)
  {
  }

  /** The chain works part by part and keeps the parts in order. */
  lemma CleanPartsAppend(a: seq<string>, b: seq<string>)
    ensures CleanParts(a + b) == CleanParts(a) + CleanParts(b)
  {
    TrimAllAppend(a, b);
    SelectAppend(TrimAll(a), TrimAll(b), NonEmpty);
    StripAllAppend(Select(TrimAll(a), NonEmpty), Select(TrimAll(b), NonEmpty));
  }

  /** The filter and the strip over one trimmed part. */
  lemma KeepOneTrimmed(t: string)
    ensures StripAll(Select([t], NonEmpty)) == if t == "" then [] else [StripTrailingSlashes(t)]
  {
    SelectSingle(t, NonEmpty);
    if t != "" {
      assert StripAll([t]) == [StripTrailingSlashes(t)];
    }
  }

  lemma CleanPartsSingle(part: string)
    ensures CleanParts([part]) == PartOrigin(part)
  {
    assert TrimAll([part]) == [Trim(part)];
    KeepOneTrimmed(Trim(part));
  }

  /** A value without a comma is one part. */
  lemma ParseOriginsSingle(part: string)
    requires ',' !in part
    ensures ParseOrigins(part) == PartOrigin(part)
  {
    SplitSingle(part, ',');
    CleanPartsSingle(part);
  }

  /** The first comma-separated part contributes its origin, if any, ahead of the origins of
      the rest of the value. */
  lemma ParseOriginsPiece(part: string, rest: string)
    requires ',' !in part
    ensures ParseOrigins(part + [','] + rest) == PartOrigin(part) + ParseOrigins(rest)
  {
    SplitPiece(part, rest, ',');
    CleanPartsAppend([part], Split(rest, ','));
    CleanPartsSingle(part);
  }

  lemma {:induction false} SelectAll(parts: seq<string>)
    requires forall p :: p in parts ==> NonEmpty(p)
    ensures Select(parts, NonEmpty) == parts
  {
    if parts != [] {
      assert forall p :: p in parts[1..] ==> p in parts;
      SelectAll(parts[1..]);
      assert parts == [parts[0]] + parts[1..];
    }
  }

  lemma TrimAllTrimmed(parts: seq<string>)
    requires forall p :: p in parts ==> IsTrimmed(p)
    ensures TrimAll(parts) == parts
  {
    forall i | 0 <= i < |parts|
      ensures Trim(parts[i]) == parts[i]
    {
      TrimOfTrimmed(parts[i]);
    }
  }

  lemma StripAllClean(parts: seq<string>)
    requires forall p :: p in parts ==> !EndsWithSlash(p)
    ensures StripAll(parts) == parts
  {
  }

  /** A list of origins that are non-empty, trimmed, free of commas and without a trailing
      slash survives being written out comma-separated and parsed back. */
  lemma ParseOriginsRoundTrip(origins: seq<string>)
    requires |origins| >= 1
    requires forall o :: o in origins ==> o != "" && ',' !in o && IsTrimmed(o) && !EndsWithSlash(o)
    ensures ParseOrigins(Join(origins, ',')) == origins
  {
    SplitJoin(origins, ',');
    TrimAllTrimmed(origins);
    SelectAll(origins);
    StripAllClean(origins);
  }

  /** The empty parts are dropped before the slashes are stripped, so a part made only of
      slashes, wherever it stands in the value, yields an empty origin. */
  lemma SlashOnlyPart(n: nat)
    requires n >= 1
    ensures PartOrigin(seq(n, _ => '/')) == [""]
  {
    var slashes := seq(n, _ => '/');
    assert IsTrimmed(slashes) && slashes != "";
    TrimOfTrimmed(slashes);
    StripIgnoresAddedSlashes("", n);
    assert "" + slashes == slashes;
  }

  /** The process environment. */
  type Env = map<string, string>

  /** `process.env[name]` */
  function EnvVar(env: Env, name: string): (v: Js)
    ensures v.Undefined? <==> name !in env
    ensures name in env ==> v == Str(env[name])
  {
    if name in env then Str(env[name]) else Undefined
  }

  /** The frozen configuration object. `PORT` keeps the environment's string when set. */
  datatype Settings = Settings(
    FRONTEND_URLS: seq<string>,
    PORT: Js,
    MONGODB_URI: string,
    JWT_SECRET: string,
    GOOGLE_API_KEY: Option<string>)

  /** `process.env.FRONTEND_URLS || process.env.FRONTEND_URL`, parsed, or the local
      development origin. */
  function FrontendUrls(env: Env): (urls: seq<string>)
    ensures forall o :: o in urls ==> !EndsWithSlash(o)
  {
    var envOrigins := if Truthy(EnvVar(env, "FRONTEND_URLS")) then EnvVar(env, "FRONTEND_URLS") else EnvVar(env, "FRONTEND_URL");
    if Truthy(envOrigins) then ParseOrigins(envOrigins.s) else [DEFAULT_FRONTEND_URL]
  }

  /** The configuration object: no allowed origin ends with a slash. */
  function Configure(env: Env): (c: Settings)
    ensures forall o :: o in c.FRONTEND_URLS ==> !EndsWithSlash(o)
  {
    Settings(
      FrontendUrls(env),
      if Truthy(EnvVar(env, "PORT")) then EnvVar(env, "PORT") else Num(DEFAULT_PORT),
      if Truthy(EnvVar(env, "MONGODB_URI")) then env["MONGODB_URI"] else DEFAULT_MONGODB_URI,
      if Truthy(EnvVar(env, "JWT_SECRET")) then env["JWT_SECRET"] else DEFAULT_JWT_SECRET,
      if "GOOGLE_API_KEY" in env then Some(env["GOOGLE_API_KEY"]) else None)
  }

  /** A non-empty `FRONTEND_URLS` wins over `FRONTEND_URL`, and the local origin is used
      when both are unset or empty. */
  lemma FrontendUrlsPrecedence(env: Env)
    ensures "FRONTEND_URLS" in env && env["FRONTEND_URLS"] != "" ==>
      Configure(env).FRONTEND_URLS == ParseOrigins(env["FRONTEND_URLS"])
    ensures ("FRONTEND_URLS" !in env || env["FRONTEND_URLS"] == "") && "FRONTEND_URL" in env && env["FRONTEND_URL"] != "" ==>
      Configure(env).FRONTEND_URLS == ParseOrigins(env["FRONTEND_URL"])
    ensures ("FRONTEND_URLS" !in env || env["FRONTEND_URLS"] == "") && ("FRONTEND_URL" !in env || env["FRONTEND_URL"] == "") ==>
      Configure(env).FRONTEND_URLS == [DEFAULT_FRONTEND_URL]
  {
    assert Configure(env).FRONTEND_URLS == FrontendUrls(env);
    var urls := EnvVar(env, "FRONTEND_URLS");
    var url := EnvVar(env, "FRONTEND_URL");
    assert Truthy(urls) <==> "FRONTEND_URLS" in env && env["FRONTEND_URLS"] != "";
    assert Truthy(url) <==> "FRONTEND_URL" in env && env["FRONTEND_URL"] != "";
  }

  /** An unset or empty `PORT`, `MONGODB_URI` or `JWT_SECRET` takes its default, and a set
      `PORT` is kept as the string given. */
  lemma ConfigureDefaults(env: Env)
    ensures "PORT" !in env || env["PORT"] == "" ==> Configure(env).PORT == Num(DEFAULT_PORT)
    ensures "PORT" in env && env["PORT"] != "" ==> Configure(env).PORT == Str(env["PORT"])
    ensures "MONGODB_URI" !in env || env["MONGODB_URI"] == "" ==> Configure(env).MONGODB_URI == DEFAULT_MONGODB_URI
    ensures "JWT_SECRET" !in env || env["JWT_SECRET"] == "" ==> Configure(env).JWT_SECRET == DEFAULT_JWT_SECRET
  {
  }
}

=== FILE: health_controllers.dfy ===
/**
  The telemetry endpoints (`health.controllers.js`): the value converters, the removal of
  undefined fields, the metrics and payload built from a device's report, the checks of
  `receiveHealthData`, and the page size, date range and 400/404 rules of the query handlers.

  `Number(v)` is the parameter `toNum` (`None` for NaN), `new Date(v)` is `parseDate` (the
  epoch milliseconds, `None` for an invalid date), and `mongoose.isValidObjectId` is
  `isObjectId`. Objects are maps, so the order of their keys is not represented.
 */
module HealthControllers {
  import opened Wrappers
  import opened JsValue
  import opened Text
  import opened Http
  import opened Ordering

  const DEFAULT_HEALTH_LIMIT: real := 50.0
  const MAX_HEALTH_LIMIT: real := 500.0
  const DEFAULT_BP_UNIT: string := "mmHg"

  /** `toNumber`: absent for null, undefined, the empty string and anything `Number` cannot read. */
  function ToNumber(value: Js, toNum: Js -> Option<real>): (r: Js)
    ensures r.Undefined? || r.Num?
    ensures (value.Null? || value.Undefined? || value == Str("")) ==> r == Undefined
    ensures !(value.Null? || value.Undefined? || value == Str("")) ==>
      r == if toNum(value).Some? then Num(toNum(value).value) else Undefined
  {
    if value.Null? || value.Undefined? || value == Str("") then Undefined
    else
      match toNum(value)
      case Some(n) => Num(n)
      case None => Undefined
  }

  /** `toDate`: absent for a falsy value or an invalid date. */
  function ToDate(value: Js, parseDate: Js -> Option<int>): (r: Js)
    ensures r.Undefined? || r.Date?
    ensures !Truthy(value) ==> r == Undefined
    ensures Truthy(value) ==> r == if parseDate(value).Some? then Date(parseDate(value).value) else Undefined
  {
    if !Truthy(value) then Undefined
    else
      match parseDate(value)
      case Some(ms) => Date(ms)
      case None => Undefined
  }

  /** The object `cleanupObject` leaves: exactly the entries whose value is not undefined. */
  function Defined(obj: map<string, Js>): map<string, Js> {
    map k | k in obj && !obj[k].Undefined? :: obj[k]
  }

  /** Cleaning a clean object changes nothing. */
  lemma DefinedIdempotent(obj: map<string, Js>)
    ensures Defined(Defined(obj)) == Defined(obj)
    ensures forall k :: k in Defined(obj) <==> k in obj && !obj[k].Undefined?
  {
  }

  /** `cleanupObject`: visits every key and deletes those holding undefined. */
  method CleanupObject(obj: map<string, Js>) returns (r: map<string, Js>)
    ensures r == Defined(obj)
    ensures forall k :: k in r <==> k in obj && !obj[k].Undefined?
    ensures forall k :: k in r ==> r[k] == obj[k]
  {
    r := obj;
    var keys := obj.Keys;
    while keys != {}
      invariant keys <= obj.Keys
      invariant forall k :: k in r <==> k in obj && (k in keys || !obj[k].Undefined?)
      invariant forall k :: k in r ==> r[k] == obj[k]
      decreases |keys|
    {
      var key :| key in keys;
      if r[key].Undefined? {
        r := r - {key};
      }
      keys := keys - {key};
    }
  }

  /** The blood-pressure object before its clean-up. */
  function RawBloodPressure(payload: Js, toNum: Js -> Option<real>): map<string, Js> {
    var raw := Coalesce(Get(payload, "bloodPressure"), Obj(map[]));
    map[
      "systolic" := ToNumber(Get(raw, "systolic"), toNum),
      "diastolic" := ToNumber(Get(raw, "diastolic"), toNum),
      "unit" := if Truthy(Get(raw, "unit")) then Get(raw, "unit") else Str(DEFAULT_BP_UNIT)]
  }

  /** The metric fields and the source each is read from, before the clean-up. */
  function RawMetrics(payload: Js, toNum: Js -> Option<real>, bloodPressure: map<string, Js>): map<string, Js> {
    map[
      "temperatureC" := ToNumber(Coalesce(Get(payload, "temperatureC"), Get(payload, "temperature")), toNum),
      "pulseRateBpm" := ToNumber(Coalesce(Get(payload, "pulseRateBpm"), Get(payload, "pulseRate")), toNum),
      "respirationRateBpm" := ToNumber(Get(payload, "respirationRateBpm"), toNum),
      "spo2Percent" := ToNumber(Coalesce(Get(payload, "spo2Percent"), Get(payload, "spo2")), toNum),
      "glucoseMgDl" := ToNumber(Coalesce(Get(payload, "glucoseMgDl"), Get(payload, "glucose")), toNum),
      "bloodPressure" := if |bloodPressure| > 0 then Obj(bloodPressure) else Undefined]
  }

  /** The blood-pressure object after `buildMetrics`: the readings present, and the unit only
      alongside at least one reading. */
  function BloodPressure(payload: Js, toNum: Js -> Option<real>): map<string, Js> {
    UnitOnlyWithReading(Defined(RawBloodPressure(payload, toNum)))
  }

  /** `if (Object.keys(bloodPressure).length <= 1) delete bloodPressure.unit` */
  function UnitOnlyWithReading(bp: map<string, Js>): (r: map<string, Js>)
    ensures forall k :: k in r ==> k in bp && r[k] == bp[k]
    ensures forall k :: k in bp && k != "unit" ==> k in r
    ensures "unit" in r <==> "unit" in bp && |bp| > 1
  {
    if |bp| <= 1 then bp - {"unit"} else bp
  }

  /** The metrics `buildMetrics` returns. */
  function Metrics(payload: Js, toNum: Js -> Option<real>): map<string, Js> {
    Defined(RawMetrics(payload, toNum, BloodPressure(payload, toNum)))
  }

  /** `buildMetrics` */
  method BuildMetrics(payload: Js, toNum: Js -> Option<real>) returns (metrics: map<string, Js>)
    ensures metrics == Metrics(payload, toNum)
  {
    var bloodPressure := CleanupObject(RawBloodPressure(payload, toNum));
    if |bloodPressure| <= 1 {
      bloodPressure := bloodPressure - {"unit"};
    }
    metrics := CleanupObject(RawMetrics(payload, toNum, bloodPressure));
  }

  /** The unit is always kept by the clean-up, so the blood-pressure object keeps a reading
      exactly when it parsed, keeps the unit (default mmHg) exactly when some reading is
      kept, and is omitted from the metrics exactly when neither reading is kept. */
  lemma BloodPressureRule(payload: Js, toNum: Js -> Option<real>)
    ensures var raw := Coalesce(Get(payload, "bloodPressure"), Obj(map[]));
      var sys := ToNumber(Get(raw, "systolic"), toNum);
      var dia := ToNumber(Get(raw, "diastolic"), toNum);
      var bp := BloodPressure(payload, toNum);
      && ("systolic" in bp <==> sys.Num?) && ("systolic" in bp ==> bp["systolic"] == sys)
      && ("diastolic" in bp <==> dia.Num?) && ("diastolic" in bp ==> bp["diastolic"] == dia)
      && ("unit" in bp <==> sys.Num? || dia.Num?)
      && ("unit" in bp ==> bp["unit"] == if Truthy(Get(raw, "unit")) then Get(raw, "unit") else Str(DEFAULT_BP_UNIT))
      && (|bp| > 0 <==> sys.Num? || dia.Num?)
  {
    var raw := Coalesce(Get(payload, "bloodPressure"), Obj(map[]));
    var sys := ToNumber(Get(raw, "systolic"), toNum);
    var dia := ToNumber(Get(raw, "diastolic"), toNum);
    var unit := if Truthy(Get(raw, "unit")) then Get(raw, "unit") else Str(DEFAULT_BP_UNIT);
    assert RawBloodPressure(payload, toNum) == map["systolic" := sys, "diastolic" := dia, "unit" := unit];
    UnitRule(sys, dia, unit);
  }

  /** The metrics carry the blood-pressure object exactly when it is not empty, that is
      exactly when a reading parsed. */
  lemma BloodPressureInMetrics(payload: Js, toNum: Js -> Option<real>)
    ensures var bp := BloodPressure(payload, toNum);
      && ("bloodPressure" in Metrics(payload, toNum) <==> |bp| > 0)
      && ("bloodPressure" in Metrics(payload, toNum) ==> Metrics(payload, toNum)["bloodPressure"] == Obj(bp))
  {
    var bp := BloodPressure(payload, toNum);
    var rawMetrics := RawMetrics(payload, toNum, bp);
    assert Metrics(payload, toNum) == Defined(rawMetrics);
    assert rawMetrics["bloodPressure"] == if |bp| > 0 then Obj(bp) else Undefined;
    DefinedAt(rawMetrics, "bloodPressure");
  }

  /** `BloodPressureRule` for any readings and a unit that is set. */
  lemma UnitRule(sys: Js, dia: Js, unit: Js)
    requires sys.Undefined? || sys.Num?
    requires dia.Undefined? || dia.Num?
    requires !unit.Undefined?
    ensures var bp := UnitOnlyWithReading(Defined(map["systolic" := sys, "diastolic" := dia, "unit" := unit]));
      && ("systolic" in bp <==> sys.Num?) && ("systolic" in bp ==> bp["systolic"] == sys)
      && ("diastolic" in bp <==> dia.Num?) && ("diastolic" in bp ==> bp["diastolic"] == dia)
      && ("unit" in bp <==> sys.Num? || dia.Num?)
      && ("unit" in bp ==> bp["unit"] == unit)
      && (|bp| > 0 <==> sys.Num? || dia.Num?)
  {
    var full := Defined(map["systolic" := sys, "diastolic" := dia, "unit" := unit]);
    assert "unit" in full;
    if sys.Num? || dia.Num? {
      var two := {"unit", if sys.Num? then "systolic" else "diastolic"};
      assert two <= full.Keys && |two| == 2;
      SubsetCardinality(two, full.Keys);
      assert "unit" in UnitOnlyWithReading(full);
    } else {
      assert full.Keys == {"unit"};
      assert UnitOnlyWithReading(full) == map[];
    }
  }

  lemma SubsetCardinality(a: set<string>, b: set<string>)
    requires a <= b
    ensures |a| <= |b|
  {
    assert b == a + (b - a);
  }

  /** An aliased metric is read from its primary field whenever that field is not null or
      undefined, even when it does not parse; the alias is read only otherwise. */
  lemma PrimaryMetricWins(payload: Js, toNum: Js -> Option<real>, primary: string, alias: string)
    requires (primary, alias) in {("temperatureC", "temperature"), ("pulseRateBpm", "pulseRate"),
                                  ("spo2Percent", "spo2"), ("glucoseMgDl", "glucose")}
    ensures !IsNullish(Get(payload, primary)) ==>
      (primary in Metrics(payload, toNum) <==> ToNumber(Get(payload, primary), toNum).Num?)
    ensures !IsNullish(Get(payload, primary)) && primary in Metrics(payload, toNum) ==>
      Metrics(payload, toNum)[primary] == ToNumber(Get(payload, primary), toNum)
    ensures IsNullish(Get(payload, primary)) ==>
      (primary in Metrics(payload, toNum) <==> ToNumber(Get(payload, alias), toNum).Num?)
  {
    var raw := RawMetrics(payload, toNum, BloodPressure(payload, toNum));
    assert Metrics(payload, toNum) == Defined(raw);
    RawMetricAt(payload, toNum, BloodPressure(payload, toNum), primary, alias);
    DefinedAt(raw, primary);
  }

  /** The raw metric of an aliased field, for any blood-pressure object. */
  lemma RawMetricAt(payload: Js, toNum: Js -> Option<real>, bp: map<string, Js>, primary: string, alias: string)
    requires (primary, alias) in {("temperatureC", "temperature"), ("pulseRateBpm", "pulseRate"),
                                  ("spo2Percent", "spo2"), ("glucoseMgDl", "glucose")}
    ensures primary in RawMetrics(payload, toNum, bp)
    ensures RawMetrics(payload, toNum, bp)[primary] == ToNumber(Coalesce(Get(payload, primary), Get(payload, alias)), toNum)
  {
  }

  /** `deviceId`: trimmed when it is a string, passed through otherwise. */
  function DeviceId(body: Js): (r: Js)
    ensures Get(body, "deviceId").Str? ==> r == Str(Trim(Get(body, "deviceId").s))
    ensures !Get(body, "deviceId").Str? ==> r == Get(body, "deviceId")
  {
    if Get(body, "deviceId").Str? then Str(Trim(Get(body, "deviceId").s)) else Get(body, "deviceId")
  }

  /** The fields of the stored document before the clean-up. */
  function RawHealthPayload(body: Js, toNum: Js -> Option<real>, parseDate: Js -> Option<int>,
                            metrics: map<string, Js>): map<string, Js> {
    map[
      "deviceId" := DeviceId(body),
      "deviceType" := Get(body, "deviceType"),
      "firmwareVersion" := Get(body, "firmwareVersion"),
      "patientId" := Get(body, "patientId"),
      "capturedAt" := ToDate(Coalesce(Coalesce(Get(body, "capturedAt"), Get(body, "timestamp")), Get(body, "time")), parseDate),
      "receivedAt" := ToDate(Get(body, "receivedAt"), parseDate),
      "metrics" := if |metrics| > 0 then Obj(metrics) else Undefined,
      "activity" := Get(body, "activity"),
      "battery" := Get(body, "battery"),
      "signal" := Get(body, "signal"),
      "location" := Get(body, "location"),
      "payload" := Coalesce(Get(body, "payload"), body)]
  }

  /** The document `buildHealthPayload` returns. */
  function HealthPayload(body: Js, toNum: Js -> Option<real>, parseDate: Js -> Option<int>): map<string, Js> {
    Defined(RawHealthPayload(body, toNum, parseDate, Metrics(body, toNum)))
  }

  /** `buildHealthPayload` */
  method BuildHealthPayload(body: Js, toNum: Js -> Option<real>, parseDate: Js -> Option<int>)
    returns (payload: map<string, Js>)
    ensures payload == HealthPayload(body, toNum, parseDate)
  {
    var metrics := BuildMetrics(body, toNum);
    payload := CleanupObject(RawHealthPayload(body, toNum, parseDate, metrics));
  }

  /** A field survives the clean-up exactly when it is not undefined, and keeps its value. */
  lemma DefinedAt(obj: map<string, Js>, k: string)
    requires k in obj
    ensures k in Defined(obj) <==> !obj[k].Undefined?
    ensures k in Defined(obj) ==> Defined(obj)[k] == obj[k]
  {
  }

  /** What the stored document holds: the trimmed device id; the capture time from the first
      of `capturedAt`, `timestamp`, `time` that is not null or undefined; the metrics only
      when there is one; the raw report as `payload` (its own `payload` field when set). */
  lemma HealthPayloadFields(body: Js, toNum: Js -> Option<real>, parseDate: Js -> Option<int>)
    ensures var p := HealthPayload(body, toNum, parseDate);
      && ("deviceId" in p <==> !Get(body, "deviceId").Undefined?)
      && ("deviceId" in p && Get(body, "deviceId").Str? ==> p["deviceId"] == Str(Trim(Get(body, "deviceId").s)))
    ensures var p := HealthPayload(body, toNum, parseDate);
      var stamp := Coalesce(Coalesce(Get(body, "capturedAt"), Get(body, "timestamp")), Get(body, "time"));
      && ("capturedAt" in p <==> Truthy(stamp) && parseDate(stamp).Some?)
      && ("capturedAt" in p ==> p["capturedAt"] == Date(parseDate(stamp).value))
    ensures var p := HealthPayload(body, toNum, parseDate);
      && ("metrics" in p <==> |Metrics(body, toNum)| > 0)
      && ("metrics" in p ==> p["metrics"] == Obj(Metrics(body, toNum)))
    ensures var p := HealthPayload(body, toNum, parseDate);
      !body.Undefined? ==> "payload" in p && p["payload"] == Coalesce(Get(body, "payload"), body)
  {
    var metrics := Metrics(body, toNum);
    assert HealthPayload(body, toNum, parseDate) == Defined(RawHealthPayload(body, toNum, parseDate, metrics));
    PayloadFields(body, toNum, parseDate, metrics);
  }

  /** `HealthPayloadFields` for any metrics object. */
  lemma PayloadFields(body: Js, toNum: Js -> Option<real>, parseDate: Js -> Option<int>, metrics: map<string, Js>)
    ensures var p := Defined(RawHealthPayload(body, toNum, parseDate, metrics));
      && ("deviceId" in p <==> !Get(body, "deviceId").Undefined?)
      && ("deviceId" in p && Get(body, "deviceId").Str? ==> p["deviceId"] == Str(Trim(Get(body, "deviceId").s)))
    ensures var p := Defined(RawHealthPayload(body, toNum, parseDate, metrics));
      var stamp := Coalesce(Coalesce(Get(body, "capturedAt"), Get(body, "timestamp")), Get(body, "time"));
      && ("capturedAt" in p <==> Truthy(stamp) && parseDate(stamp).Some?)
      && ("capturedAt" in p ==> p["capturedAt"] == Date(parseDate(stamp).value))
    ensures var p := Defined(RawHealthPayload(body, toNum, parseDate, metrics));
      && ("metrics" in p <==> |metrics| > 0)
      && ("metrics" in p ==> p["metrics"] == Obj(metrics))
    ensures var p := Defined(RawHealthPayload(body, toNum, parseDate, metrics));
      !body.Undefined? ==> "payload" in p && p["payload"] == Coalesce(Get(body, "payload"), body)
  {
    var raw := RawHealthPayload(body, toNum, parseDate, metrics);
    assert raw["deviceId"] == DeviceId(body);
    DefinedAt(raw, "deviceId");
    assert raw["capturedAt"] == ToDate(Coalesce(Coalesce(Get(body, "capturedAt"), Get(body, "timestamp")), Get(body, "time")), parseDate);
    DefinedAt(raw, "capturedAt");
    assert raw["metrics"] == if |metrics| > 0 then Obj(metrics) else Undefined;
    DefinedAt(raw, "metrics");
    assert raw["payload"] == Coalesce(Get(body, "payload"), body);
    DefinedAt(raw, "payload");
  }

  /** A stored telemetry document. */
  datatype HealthRecord = HealthRecord(id: string, doc: map<string, Js>)

  /** The sort key, `capturedAt`, when the document has a date there. */
  function CapturedAt(r: HealthRecord): Option<int> {
    if "capturedAt" in r.doc && r.doc["capturedAt"].Date? then Some(r.doc["capturedAt"].ms) else None
  }

  /** The telemetry collection. */
  class HealthStore {
    var records: seq<HealthRecord>

    constructor ()
      ensures records == []
    {
      records := [];
    }

    /** `HealthData.create(doc)` */
    method Create(doc: map<string, Js>, id: string) returns (r: HealthRecord)
      modifies this
      ensures r == HealthRecord(id, doc)
      ensures records == old(records) + [r]
    {
      r := HealthRecord(id, doc);
      records := records + [r];
    }
  }

  /** `receiveHealthData`: rejects a body that is not an object, then a document without a
      truthy device id, then a truthy patient id that is not an ObjectId; otherwise stores the
      document and answers 201. A rejection stores nothing. */
  method ReceiveHealthData(store: HealthStore, body: Js, toNum: Js -> Option<real>, parseDate: Js -> Option<int>,
                           isObjectId: Js -> bool, id: string)
    returns (r: Response<HealthRecord>)
    modifies store
    ensures !(Truthy(body) && IsObject(body)) ==> r == Fail(400, "Invalid payload")
    ensures Truthy(body) && IsObject(body) ==>
      var p := HealthPayload(body, toNum, parseDate);
      var device := if "deviceId" in p then p["deviceId"] else Undefined;
      var patient := if "patientId" in p then p["patientId"] else Undefined;
      && (!Truthy(device) ==> r == Fail(400, "deviceId is required"))
      && (Truthy(device) && Truthy(patient) && !isObjectId(patient) ==> r == Fail(400, "patientId is invalid"))
      && (Truthy(device) && !(Truthy(patient) && !isObjectId(patient)) ==>
            r == Reply(201, HealthRecord(id, p)) && store.records == old(store.records) + [r.body])
    ensures r.Fail? ==> store.records == old(store.records)
  {
    if !(Truthy(body) && IsObject(body)) {
      return Fail(400, "Invalid payload");
    }
    var payload := BuildHealthPayload(body, toNum, parseDate);
    var device := if "deviceId" in payload then payload["deviceId"] else Undefined;
    if !Truthy(device) {
      return Fail(400, "deviceId is required");
    }
    var patient := if "patientId" in payload then payload["patientId"] else Undefined;
    if Truthy(patient) && !isObjectId(patient) {
      return Fail(400, "patientId is invalid");
    }
    var record := store.Create(payload, id);
    r := Reply(201, record);
  }

  /** A blank device id is rejected: trimming happens before the check. */
  lemma BlankDeviceIdRejected(body: Js, toNum: Js -> Option<real>, parseDate: Js -> Option<int>)
    requires Get(body, "deviceId").Str? && Trim(Get(body, "deviceId").s) == ""
    ensures var p := HealthPayload(body, toNum, parseDate);
      "deviceId" in p && !Truthy(p["deviceId"])
  {
    HealthPayloadFields(body, toNum, parseDate);
  }

  /** `Math.min(Number(limit) || 50, 500)`; `None` is NaN. */
  function HealthLimit(n: Option<real>): (limit: real)
    ensures limit <= MAX_HEALTH_LIMIT
    ensures (n.None? || n.value == 0.0) ==> limit == DEFAULT_HEALTH_LIMIT
    ensures n.Some? && n.value != 0.0 && n.value <= MAX_HEALTH_LIMIT ==> limit == n.value
    ensures n.Some? && n.value > MAX_HEALTH_LIMIT ==> limit == MAX_HEALTH_LIMIT
  {
    var v := if n.Some? && n.value != 0.0 then n.value else DEFAULT_HEALTH_LIMIT;
    if v < MAX_HEALTH_LIMIT then v else MAX_HEALTH_LIMIT
  }

  /** The page size handed to the store: the limit truncated toward zero. */
  function Truncate(x: real): (n: int)
    ensures Abs(n) as real <= if x < 0.0 then -x else x
    ensures 0.0 <= x ==> 0 <= n && n as real <= x < n as real + 1.0
    ensures x < 0.0 ==> n <= 0 && n as real - 1.0 < x <= n as real
  {
    if x >= 0.0 then x.Floor
    else
      var m := (-x).Floor;
      assert m as real <= -x < m as real + 1.0;
      -m
  }

  /** An integral limit reaches the store unchanged. */
  lemma TruncateIntegral(k: int)
    ensures Truncate(k as real) == k
  {
    var n := Truncate(k as real);
    if k >= 0 {
      assert n as real <= k as real < n as real + 1.0;
    } else {
      assert n as real - 1.0 < k as real <= n as real;
    }
  }

  /** `$gte` and `$lte`, each optional. */
  datatype DateRange = DateRange(gte: Option<int>, lte: Option<int>)

  /** The `capturedAt` condition the query handlers end up with: a bound for each of `from`
      and `to` that is given and a valid date, and no condition at all when there is neither. */
  function QueryRange(from: Js, to: Js, parseDate: Js -> Option<int>): (range: Option<DateRange>)
    ensures range.Some? <==> (Truthy(from) && parseDate(from).Some?) || (Truthy(to) && parseDate(to).Some?)
    ensures range.Some? ==> range.value.gte == (if Truthy(from) then parseDate(from) else None)
    ensures range.Some? ==> range.value.lte == (if Truthy(to) then parseDate(to) else None)
  {
    var gte := if Truthy(from) then parseDate(from) else None;
    var lte := if Truthy(to) then parseDate(to) else None;
    if gte.Some? || lte.Some? then Some(DateRange(gte, lte)) else None
  }

  /** The statements that build `query.capturedAt`, and delete it when it stays empty. */
  method BuildRange(from: Js, to: Js, parseDate: Js -> Option<int>) returns (range: Option<DateRange>)
    ensures range == QueryRange(from, to, parseDate)
  {
    var fromDate: Option<Option<int>> := if Truthy(from) then Some(parseDate(from)) else None;
    var toDate: Option<Option<int>> := if Truthy(to) then Some(parseDate(to)) else None;
    range := None;
    if fromDate.Some? || toDate.Some? {
      var capturedAt := DateRange(None, None);
      if fromDate.Some? && fromDate.value.Some? {
        capturedAt := capturedAt.(gte := fromDate.value);
      }
      if toDate.Some? && toDate.value.Some? {
        capturedAt := capturedAt.(lte := toDate.value);
      }
      range := Some(capturedAt);
      if capturedAt.gte.None? && capturedAt.lte.None? {
        range := None;
      }
    }
  }

  /** A document the query `{ field: value, capturedAt? }` selects. */
  predicate Selects(field: string, value: Js, range: Option<DateRange>, r: HealthRecord) {
    && field in r.doc && r.doc[field] == value
    && (range.Some? && range.value.gte.Some? ==> CapturedAt(r).Some? && CapturedAt(r).value >= range.value.gte.value)
    && (range.Some? && range.value.lte.Some? ==> CapturedAt(r).Some? && CapturedAt(r).value <= range.value.lte.value)
  }

  /** The body of a listing. */
  datatype HealthPage = HealthPage(count: nat, data: seq<HealthRecord>)

  /** `getLatestDeviceHealthData`: 400 without a device id, 404 when the device has no
      document, otherwise its newest one. */
  method GetLatestDeviceHealthData(store: HealthStore, deviceId: Js) returns (r: Response<HealthRecord>)
    ensures !Truthy(deviceId) ==> r == Fail(400, "deviceId is required")
    ensures Truthy(deviceId) ==>
      var found := FindHealth(store.records, "deviceId", deviceId, None, 1);
      && (found == [] ==> r == Fail(404, "No health data found"))
      && (found != [] ==> r == Reply(200, found[0]))
  {
    if !Truthy(deviceId) {
      return Fail(400, "deviceId is required");
    }
    var found := FindHealth(store.records, "deviceId", deviceId, None, 1);
    if found == [] {
      return Fail(404, "No health data found");
    }
    r := Reply(200, found[0]);
  }

  /** `find({ field: value, capturedAt? }).sort({ capturedAt: -1 }).limit(limit)` */
  function FindHealth(records: seq<HealthRecord>, field: string, value: Js, range: Option<DateRange>, limit: int): seq<HealthRecord> {
    Find(records, rec => Selects(field, value, range, rec), CapturedAt, limit)
  }

  /** The listing of one device's or one patient's documents: every document on the page
      carries the requested id and falls in the requested range. */
  lemma FindHealthSelects(records: seq<HealthRecord>, field: string, value: Js, range: Option<DateRange>, limit: int)
    ensures forall rec :: rec in FindHealth(records, field, value, range, limit) ==> Selects(field, value, range, rec)
    ensures NewestFirst(FindHealth(records, field, value, range, limit), CapturedAt)
    ensures limit != 0 ==> |FindHealth(records, field, value, range, limit)| <= Abs(limit)
  {
    FindIsNewestPage(records, rec => Selects(field, value, range, rec), CapturedAt, limit);
  }

  /** The shared tail of the two listing handlers. */
  method ListHealthData(store: HealthStore, field: string, value: Js, limit: Option<real>, from: Js, to: Js,
                        parseDate: Js -> Option<int>)
    returns (page: HealthPage)
    ensures var data := FindHealth(store.records, field, value, QueryRange(from, to, parseDate), Truncate(HealthLimit(limit)));
      page == HealthPage(|data|, data)
  {
    var n := HealthLimit(limit);
    var range := BuildRange(from, to, parseDate);
    var data := FindHealth(store.records, field, value, range, Truncate(n));
    page := HealthPage(|data|, data);
  }

  /** `getDeviceHealthData`: 400 without a device id, otherwise the device's page. */
  method GetDeviceHealthData(store: HealthStore, deviceId: Js, limit: Option<real>, from: Js, to: Js,
                             parseDate: Js -> Option<int>)
    returns (r: Response<HealthPage>)
    ensures !Truthy(deviceId) ==> r == Fail(400, "deviceId is required")
    ensures Truthy(deviceId) ==>
      var data := FindHealth(store.records, "deviceId", deviceId, QueryRange(from, to, parseDate), Truncate(HealthLimit(limit)));
      r == Reply(200, HealthPage(|data|, data))
  {
    if !Truthy(deviceId) {
      return Fail(400, "deviceId is required");
    }
    var page := ListHealthData(store, "deviceId", deviceId, limit, from, to, parseDate);
    r := Reply(200, page);
  }

  /** `getPatientHealthData`: 400 without a patient id or with one that is not an ObjectId,
      otherwise the patient's page. */
  method GetPatientHealthData(store: HealthStore, patientId: Js, isObjectId: Js -> bool, limit: Option<real>,
                              from: Js, to: Js, parseDate: Js -> Option<int>)
    returns (r: Response<HealthPage>)
    ensures !Truthy(patientId) ==> r == Fail(400, "patientId is required")
    ensures Truthy(patientId) && !isObjectId(patientId) ==> r == Fail(400, "patientId is invalid")
    ensures Truthy(patientId) && isObjectId(patientId) ==>
      var data := FindHealth(store.records, "patientId", patientId, QueryRange(from, to, parseDate), Truncate(HealthLimit(limit)));
      r == Reply(200, HealthPage(|data|, data))
  {
    if !Truthy(patientId) {
      return Fail(400, "patientId is required");
    }
    if !isObjectId(patientId) {
      return Fail(400, "patientId is invalid");
    }
    var page := ListHealthData(store, "patientId", patientId, limit, from, to, parseDate);
    r := Reply(200, page);
  }
}

=== FILE: http.dfy ===
/** The shape of the JSON replies the Express handlers send. */
module Http {

  /** A success reply with its status and payload, or a failure with its status and the
      `message` field of the body. */
  datatype Response<+T> =
    | Reply(status: nat, body: T)
    | Fail(status: nat, message: string)
}

=== FILE: js_value.dfy ===
/**
  The JavaScript values the handlers receive (parsed JSON bodies, query strings, route
  parameters) and the few operators the source applies to them: truthiness, optional
  property access `?.` and nullish coalescing `??`.
 */
module JsValue {

  /** Numbers are reals: a conversion that would give NaN is modelled as an absent
      result by the parse functions that produce numbers, so NaN never appears here.
      A Date carries its epoch milliseconds; an invalid Date is never stored. */
  datatype Js =
    | Undefined
    | Null
    | Bool(b: bool)
    | Num(n: real)
    | Str(s: string)
    | Arr(items: seq<Js>)
    | Obj(fields: map<string, Js>)
    | Date(ms: int)

  /** JavaScript truthiness (`!!v`). */
  predicate Truthy(v: Js) {
    match v
    case Undefined => false
    case Null => false
    case Bool(b) => b
    case Num(n) => n != 0.0
    case Str(s) => s != ""
    case _ => true
  }

  predicate IsNullish(v: Js) {
    v.Undefined? || v.Null?
  }

  /** `a ?? b` */
  function Coalesce(a: Js, b: Js): Js {
    if IsNullish(a) then b else a
  }

  /** `v?.key`: undefined unless `v` is a plain object holding `key`. */
  function Get(v: Js, key: string): Js {
    if v.Obj? && key in v.fields then v.fields[key] else Undefined
  }

  /** `typeof v === 'object'` for a truthy `v` (arrays and dates are objects too). */
  predicate IsObject(v: Js) {
    v.Arr? || v.Obj? || v.Date?
  }
}

=== FILE: logger.dfy ===
/**
  The log-level gate (`logger.js`): a rank per level, a threshold taken from the configured
  level, and a call written to the console only when its rank does not exceed the threshold.
  The configured level is the parameter `configured`; the console call is returned rather
  than performed. `levels` is a plain object, so a configured level that names a property
  inherited from `Object.prototype` gives a threshold that is not a number, and every
  comparison against it is false: nothing is filtered out.
 */
module Logger {
  import opened Wrappers

  const ERROR_RANK: nat := 0
  const WARN_RANK: nat := 1
  const INFO_RANK: nat := 2
  const DEBUG_RANK: nat := 3

  /** `levels[name]` */
  function Rank(level: string): (rank: Option<nat>)
    ensures rank.Some? <==> level in {"error", "warn", "info", "debug"}
    ensures rank.Some? ==> rank.value <= DEBUG_RANK
  {
    if level == "error" then Some(ERROR_RANK)
    else if level == "warn" then Some(WARN_RANK)
    else if level == "info" then Some(INFO_RANK)
    else if level == "debug" then Some(DEBUG_RANK)
    else None
  }

  /** The ranks are strictly ordered from error to debug. */
  lemma RanksOrdered()
    ensures Rank("error").value < Rank("warn").value < Rank("info").value < Rank("debug").value
    ensures Rank("error") == Some(0) && Rank("debug") == Some(3)
  {
  }

  /** The properties every plain object inherits from `Object.prototype`. Looking one of them
      up in `levels` gives a function (or, for `__proto__`, the prototype object), which is
      not nullish, so `??` keeps it. */
  const INHERITED: set<string> := {
    "constructor", "hasOwnProperty", "isPrototypeOf", "propertyIsEnumerable", "toString",
    "toLocaleString", "valueOf", "__proto__", "__defineGetter__", "__defineSetter__",
    "__lookupGetter__", "__lookupSetter__"}

  /** What `levels[name]` can hold once it is not nullish: a rank, or an inherited member,
      which is not a number. */
  datatype LevelValue = RankOf(rank: nat) | Inherited

  /** `levels[name]`, `None` when it is `undefined`. */
  function Lookup(name: string): (v: Option<LevelValue>)
    ensures Rank(name).Some? ==> v == Some(RankOf(Rank(name).value))
    ensures Rank(name).None? && name in INHERITED ==> v == Some(Inherited)
    ensures v.None? <==> Rank(name).None? && name !in INHERITED
  {
    if Rank(name).Some? then Some(RankOf(Rank(name).value))
    else if name in INHERITED then Some(Inherited)
    else None
  }

  /** `levels[x] ?? levels.info` */
  function LevelOrInfo(name: Option<string>): (v: LevelValue)
    ensures name.Some? && Rank(name.value).Some? ==> v == RankOf(Rank(name.value).value)
    ensures v.Inherited? <==> name.Some? && name.value in INHERITED
    ensures v.RankOf? ==> v.rank <= DEBUG_RANK
  {
    if name.Some? && Lookup(name.value).Some? then Lookup(name.value).value else RankOf(INFO_RANK)
  }

  /** `currentLevel`: the configured level's rank, or info's when it is unset or not a key of
      `levels`; an inherited member name leaves a value that is not a number. */
  function CurrentLevel(configured: Option<string>): (threshold: LevelValue)
    ensures configured.Some? && Rank(configured.value).Some? ==> threshold == RankOf(Rank(configured.value).value)
    ensures configured.Some? && configured.value in INHERITED ==> threshold == Inherited
    ensures configured.None? || (Rank(configured.value).None? && configured.value !in INHERITED) ==>
      threshold == RankOf(INFO_RANK)
    ensures threshold.RankOf? ==> threshold.rank <= DEBUG_RANK
  {
    LevelOrInfo(configured)
  }

  /** A console call: the name of the console method and its arguments. */
  datatype ConsoleCall = ConsoleCall(consoleMethod: string, args: seq<string>)

  /** `(levels[level] ?? levels.info) > currentLevel` is false, so `write` goes on. A
      comparison with a value that is not a number is false (it converts to NaN). */
  predicate Emits(level: string, threshold: LevelValue)
    ensures Rank(level).Some? && threshold.RankOf? ==> (Emits(level, threshold) <==> Rank(level).value <= threshold.rank)
    ensures Rank(level).None? && level !in INHERITED && threshold.RankOf? ==>
      (Emits(level, threshold) <==> INFO_RANK <= threshold.rank)
    ensures threshold.Inherited? || level in INHERITED ==> Emits(level, threshold)
  {
    var v := LevelOrInfo(Some(level));
    !(v.RankOf? && threshold.RankOf? && v.rank > threshold.rank)
  }

  /** `write(level, ...args)`: nothing above the threshold; otherwise `console.log` for debug
      and the console method of the level's own name for the others. */
  function Write(level: string, threshold: LevelValue, args: seq<string>): (call: Option<ConsoleCall>)
    ensures call.Some? <==> Emits(level, threshold)
    ensures Rank(level).Some? && threshold.RankOf? ==> (call.Some? <==> Rank(level).value <= threshold.rank)
    ensures threshold.Inherited? ==> call.Some?
    ensures call.Some? ==> call.value.args == args
    ensures call.Some? && level == "debug" ==> call.value.consoleMethod == "log"
    ensures call.Some? && level != "debug" ==> call.value.consoleMethod == level
  {
    if !Emits(level, threshold) then None
    else Some(ConsoleCall(if level == "debug" then "log" else level, args))
  }

  /** Errors are always written, whatever the configured level; with no configured level
      everything but debug is written; and a level is written whenever a noisier one is. */
  lemma GateProperties(configured: Option<string>, quieter: string, noisier: string, args: seq<string>)
    requires Rank(quieter).Some? && Rank(noisier).Some? && Rank(quieter).value <= Rank(noisier).value
    ensures Write("error", CurrentLevel(configured), args).Some?
    ensures Write("info", CurrentLevel(None), args).Some? && Write("warn", CurrentLevel(None), args).Some?
    ensures Write("debug", CurrentLevel(None), args).None?
    ensures Write(noisier, CurrentLevel(configured), args).Some? ==> Write(quieter, CurrentLevel(configured), args).Some?
  {
  }

  /** The four logger methods call `write` with their own level. */
  function LoggerCall(name: string, configured: Option<string>, args: seq<string>): (call: Option<ConsoleCall>)
    requires name in {"error", "warn", "info", "debug"}
    ensures name == "debug" ==>
      (call.Some? <==> configured == Some("debug") || (configured.Some? && configured.value in INHERITED))
    ensures name == "error" ==> call == Some(ConsoleCall("error", args))
  {
    Write(name, CurrentLevel(configured), args)
  }

  /** A level named after an inherited member of `Object.prototype`, such as `toString`,
      switches the gate off: every logger method writes, debug included. */
  lemma InheritedLevelWritesAll(name: string, configured: string, args: seq<string>)
    requires name in {"error", "warn", "info", "debug"}
    requires configured in INHERITED
    ensures LoggerCall(name, Some(configured), args).Some?
    ensures LoggerCall("debug", Some("toString"), args) == Some(ConsoleCall("log", args))
  {
    assert Rank("toString").None? && "toString" in INHERITED;
  }
}

=== FILE: message_bubble.dfy ===
/**
  The message bubble's logic (`MessageBubble.tsx`): which side a message is on, whether the
  streaming cursor shows, and `formatContent`, which splits the content around `**…**`
  spans with `content.split(/(\*\*.*?\*\*)/g)` and renders a part in bold when it starts
  and ends with `**`.

  The split is modelled as the scan ECMAScript's `split` performs with a regular
  expression: at each position it tries a match starting exactly there; `.*?` takes the
  shortest run of characters other than line terminators before the closing `**`. Because
  the expression captures, each matched span is kept between the pieces around it.
 */
module MessageBubble {
  import opened Wrappers
  import opened Text
  import opened ChatTypes

  /** `isUser` */
  predicate IsUser(m: Message) {
    m.role == UserRole
  }

  /** The cursor is rendered exactly when `isStreaming` is set and true. */
  predicate ShowsCursor(m: Message) {
    m.isStreaming == Some(true)
  }

  predicate StarsAt(s: string, i: nat) {
    i + 2 <= |s| && s[i] == '*' && s[i + 1] == '*'
  }

  /** Where the lazy `.*?\*\*` that starts at `j` closes: the first `**` at or after `j`
      with no line terminator before it. */
  function CloseAt(s: string, j: nat): (close: Option<nat>)
    requires j <= |s|
    decreases |s| - j
    ensures close.Some? ==> j <= close.value && StarsAt(s, close.value)
    ensures close.Some? ==> forall k :: j <= k < close.value ==> !IsLineTerminator(s[k]) && !StarsAt(s, k)
    ensures close.None? ==> forall k :: j <= k && StarsAt(s, k) ==> exists m :: j <= m < k && IsLineTerminator(s[m])
  {
    if j + 2 > |s| then None
    else if StarsAt(s, j) then Some(j)
    else if IsLineTerminator(s[j]) then None
    else CloseAt(s, j + 1)
  }

  /** The end of a match of `\*\*.*?\*\*` starting exactly at `q`, if there is one. */
  function MatchAt(s: string, q: nat): (e: Option<nat>)
    requires q <= |s|
    ensures e.Some? ==> q + 4 <= e.value <= |s|
    ensures e.Some? ==> StarsAt(s, q) && StarsAt(s, e.value - 2)
    ensures e.Some? ==> q + 2 <= |s| && CloseAt(s, q + 2) == Some(e.value - 2)
    ensures e.None? ==> !StarsAt(s, q) || forall k :: q + 2 <= k && StarsAt(s, k) ==>
      exists m :: q + 2 <= m < k && IsLineTerminator(s[m])
  {
    if StarsAt(s, q) && CloseAt(s, q + 2).Some? then Some(CloseAt(s, q + 2).value + 2) else None
  }

  /** The split from position `q`, the current piece having started at `p`. */
  function SplitFrom(s: string, p: nat, q: nat): (parts: seq<string>)
    requires p <= q <= |s|
    decreases |s| - q
    ensures |parts| % 2 == 1
  {
    if q == |s| then [s[p..]]
    else if MatchAt(s, q).Some? then
      var e := MatchAt(s, q).value;
      [s[p..q], s[q..e]] + SplitFrom(s, e, e)
    else SplitFrom(s, p, q + 1)
  }

  /** `content.split(/(\*\*.*?\*\*)/g)` */
  function Parts(content: string): (parts: seq<string>)
    ensures |parts| % 2 == 1
    ensures Concat(parts) == content
  {
    SplitFromConcat(content, 0, 0);
    SplitFrom(content, 0, 0)
  }

  /** Concatenating the parts from `p` gives back the rest of the string. */
  lemma {:induction false} SplitFromConcat(s: string, p: nat, q: nat)
    requires p <= q <= |s|
    decreases |s| - q
    ensures Concat(SplitFrom(s, p, q)) == s[p..]
  {
    if q == |s| {
      assert Concat([s[p..]]) == s[p..] + Concat([]);
    } else if MatchAt(s, q).Some? {
      var e := MatchAt(s, q).value;
      SplitFromConcat(s, e, e);
      ConcatPair(s[p..q], s[q..e], SplitFrom(s, e, e));
      assert s[p..] == s[p..q] + s[q..e] + s[e..];
    } else {
      SplitFromConcat(s, p, q + 1);
    }
  }

  /** Positions where no match starts are passed over: the piece goes on. */
  lemma {:induction false} SplitFromSkips(s: string, p: nat, q: nat, r: nat)
    requires p <= q <= r <= |s|
    requires forall k :: q <= k < r ==> MatchAt(s, k).None?
    decreases r - q
    ensures SplitFrom(s, p, q) == SplitFrom(s, p, r)
  {
    if q < r {
      SplitFromSkips(s, p, q + 1, r);
    }
  }

  /** The close found from `j` in `s` is the one found from `j - p` in `s[p..]`. */
  lemma {:induction false} CloseAtShift(s: string, p: nat, j: nat)
    requires p <= j <= |s|
    decreases |s| - j
    ensures CloseAt(s[p..], j - p).Some? <==> CloseAt(s, j).Some?
    ensures CloseAt(s, j).Some? ==> CloseAt(s[p..], j - p).value + p == CloseAt(s, j).value
  {
    var t := s[p..];
    if j + 2 <= |s| {
      assert t[j - p] == s[j] && t[j - p + 1] == s[j + 1];
      if !StarsAt(s, j) && !IsLineTerminator(s[j]) {
        CloseAtShift(s, p, j + 1);
        assert j + 1 - p == j - p + 1;
      }
    }
  }

  /** A match starts at `q` in `s` exactly when one starts at `q - p` in `s[p..]`, and it
      ends at the same place. */
  lemma MatchAtShift(s: string, p: nat, q: nat)
    requires p <= q <= |s|
    ensures MatchAt(s[p..], q - p).Some? <==> MatchAt(s, q).Some?
    ensures MatchAt(s, q).Some? ==> MatchAt(s[p..], q - p).value + p == MatchAt(s, q).value
  {
    var t := s[p..];
    if q + 2 <= |s| {
      assert t[q - p] == s[q] && t[q - p + 1] == s[q + 1];
      CloseAtShift(s, p, q + 2);
      assert q + 2 - p == q - p + 2;
    }
  }

  /** The split looks only forward: splitting from `a` in `s` is splitting from `a - p` in
      `s[p..]`. */
  lemma {:induction false} SplitFromShift(s: string, p: nat, a: nat, b: nat)
    requires p <= a <= b <= |s|
    decreases |s| - b
    ensures SplitFrom(s, a, b) == SplitFrom(s[p..], a - p, b - p)
  {
    var t := s[p..];
    MatchAtShift(s, p, b);
    if b == |s| {
      assert t[a - p..] == s[a..];
    } else if MatchAt(s, b).Some? {
      var e := MatchAt(s, b).value;
      SplitFromShift(s, p, e, e);
      assert t[a - p..b - p] == s[a..b] && t[b - p..e - p] == s[b..e];
    } else {
      SplitFromShift(s, p, a, b + 1);
      assert b + 1 - p == b - p + 1;
    }
  }

  /** Content in which no match starts is a single part. */
  lemma PartsNoMatch(content: string)
    requires forall k :: 0 <= k < |content| ==> MatchAt(content, k).None?
    ensures Parts(content) == [content]
  {
    SplitFromSkips(content, 0, 0, |content|);
    assert content[0..] == content;
  }

  /** Every match is split out: the text before the first match, the first match, and then
      the parts of the rest. With `PartsNoMatch` this determines the parts of every string. */
  lemma PartsPiece(content: string, q: nat)
    requires q <= |content| && MatchAt(content, q).Some?
    requires forall k :: 0 <= k < q ==> MatchAt(content, k).None?
    ensures var e := MatchAt(content, q).value;
      Parts(content) == [content[..q], content[q..e]] + Parts(content[e..])
  {
    var e := MatchAt(content, q).value;
    SplitFromSkips(content, 0, 0, q);
    SplitFromShift(content, e, e, e);
    assert content[0..q] == content[..q];
  }

  lemma ConcatPair(a: string, b: string, rest: seq<string>)
    ensures Concat([a, b] + rest) == a + b + Concat(rest)
  {
    var parts := [a, b] + rest;
    assert parts[1..] == [b] + rest;
    assert parts[1..][1..] == rest;
  }

  /** Because the expression captures, no character is lost: the parts put back together are
      the content. */
  lemma PartsConcat(content: string)
    ensures Concat(Parts(content)) == content
  {
    SplitFromConcat(content, 0, 0);
  }

  /** A matched span: it opens and closes with `**` and holds no line terminator. */
  predicate IsSpan(part: string) {
    && |part| >= 4 && StarsAt(part, 0) && StarsAt(part, |part| - 2)
    && forall k :: 0 <= k < |part| ==> !IsLineTerminator(part[k])
  }

  /** The parts at odd positions are the matched spans. */
  lemma {:induction false} SplitFromSpans(s: string, p: nat, q: nat)
    requires p <= q <= |s|
    decreases |s| - q
    ensures forall i :: 0 <= i < |SplitFrom(s, p, q)| && i % 2 == 1 ==> IsSpan(SplitFrom(s, p, q)[i])
  {
    if q < |s| {
      if MatchAt(s, q).Some? {
        var e := MatchAt(s, q).value;
        SplitFromSpans(s, e, e);
        var span := s[q..e];
        var close := CloseAt(s, q + 2).value;
        assert e == close + 2;
        forall k | 0 <= k < |span|
          ensures !IsLineTerminator(span[k])
        {
          assert span[k] == s[q + k];
          if q + k >= q + 2 && q + k < close {
          } else {
            assert s[q + k] == '*';
          }
        }
        assert |span| == e - q >= 4;
        assert span[0] == s[q] && span[1] == s[q + 1];
        assert span[|span| - 2] == s[e - 2] && span[|span| - 1] == s[e - 1];
        assert IsSpan(span);
        var rest := SplitFrom(s, e, e);
        var parts := [s[p..q], span] + rest;
        assert SplitFrom(s, p, q) == parts;
        forall i | 0 <= i < |parts| && i % 2 == 1
          ensures IsSpan(parts[i])
        {
          if i == 1 {
            assert parts[i] == span;
          } else {
            assert parts[i] == rest[i - 2] && (i - 2) % 2 == 1;
          }
        }
      } else {
        SplitFromSpans(s, p, q + 1);
      }
    }
  }

  /** What a part renders as. */
  datatype Span = Bold(text: string) | Plain(text: string)

  /** `part.startsWith('**') && part.endsWith('**')`, then `part.slice(2, -2)` in bold;
      otherwise the part as it is. For `**` and `***` the slice is empty. */
  function Render(part: string): (span: Span)
    ensures span.Bold? <==> StarsAt(part, 0) && StarsAt(part, |part| - 2)
    ensures span.Bold? && |part| >= 4 ==> "**" + span.text + "**" == part
    ensures span.Bold? && |part| < 4 ==> span.text == ""
    ensures span.Plain? ==> span.text == part
  {
    if StarsAt(part, 0) && |part| >= 2 && StarsAt(part, |part| - 2) then
      Bold(if |part| >= 4 then part[2..|part| - 2] else "")
    else Plain(part)
  }

  /** `formatContent` */
  function FormatContent(content: string): (spans: seq<Span>)
    ensures |spans| == |Parts(content)|
    ensures forall i :: 0 <= i < |spans| ==> spans[i] == Render(Parts(content)[i])
  {
    var parts := Parts(content);
    seq(|parts|, i requires 0 <= i < |parts| => Render(parts[i]))
  }

  /** Every matched span is rendered in bold, and its bold text wrapped in `**` is the span. */
  lemma SpansAreBold(content: string, i: nat)
    requires i < |Parts(content)| && i % 2 == 1
    ensures FormatContent(content)[i].Bold?
    ensures "**" + FormatContent(content)[i].text + "**" == Parts(content)[i]
  {
    SplitFromSpans(content, 0, 0);
    var parts := SplitFrom(content, 0, 0);
    assert Parts(content) == parts;
    var part := parts[i];
    assert IsSpan(part);
    assert FormatContent(content)[i] == Render(part);
  }

  /** A closing `**` on a later line does not close the span: `**a` newline `b**` is a single
      part, which the start and end test still renders in bold. */
  lemma LineBreakKeepsOnePart()
    ensures Parts("**a\nb**") == ["**a\nb**"]
    ensures FormatContent("**a\nb**") == [Bold("a\nb")]
  {
    var s := "**a\nb**";
    assert CloseAt(s, 2) == CloseAt(s, 3);
    assert CloseAt(s, 3) == None;
    assert MatchAt(s, 0) == None;
    assert forall q :: 1 <= q <= 6 ==> !StarsAt(s, q) || q + 2 > |s| || q >= 5;
    assert MatchAt(s, 5) == None by {
      assert CloseAt(s, 7) == None;
    }
    assert SplitFrom(s, 0, 7) == [s];
    assert SplitFrom(s, 0, 0) == SplitFrom(s, 0, 7);
    assert s[2..5] == "a\nb";
    assert Render(s) == Bold("a\nb");
  }

  /** `**a** b` splits into an empty leading piece, the bold span and the rest. */
  lemma BoldSpanSplitOut()
    ensures Parts("**a** b") == ["", "**a**", " b"]
    ensures FormatContent("**a** b") == [Plain(""), Bold("a"), Plain(" b")]
  {
    var s := "**a** b";
    FirstMatchOfExample();
    PartsNoMatch(" b");
    assert s[5..] == " b";
    PartsPiece(s, 0);
    assert s[..0] == "" && s[0..5] == "**a**";
    assert Render("**a**") == Bold("a");
  }

  lemma FirstMatchOfExample()
    ensures MatchAt("**a** b", 0) == Some(5)
    ensures MatchAt(" b", 0).None? && MatchAt(" b", 1).None?
  {
    assert CloseAt("**a** b", 3) == Some(3);
    assert CloseAt("**a** b", 2) == Some(3);
  }
}

=== FILE: message_controllers.dfy ===
/**
  The message endpoints (`message.controllers.js`): the checks on the route parameter and the
  body, with their exact bounds and messages, the clamped page size, the reversal of the
  page into oldest-first order, and the persisted fields.

  `parseInt(v, 10)` is the parameter `parseInt` (`None` for NaN), `mongoose.isValidObjectId`
  is `isObjectId`, and `User.exists` is membership in the set `userIds`.
 */
module MessageControllers {
  import opened Wrappers
  import opened JsValue
  import opened Text
  import opened Http
  import opened MessageModel
  import opened MessageService
  import opened Ordering

  const MAX_CONVERSATION_ID_LENGTH: nat := 200
  const MIN_LIMIT: int := 1
  const MAX_LIMIT: int := 500

  /** `typeof v === 'string' ? v.trim() : ''` */
  function TrimmedString(v: Js): (s: string)
    ensures IsTrimmed(s)
    ensures v.Str? ==> s == Trim(v.s)
    ensures !v.Str? ==> s == ""
  {
    if v.Str? then Trim(v.s) else ""
  }

  /** Normalising an already normalised id changes nothing. */
  lemma TrimmedStringIdempotent(v: Js)
    ensures TrimmedString(Str(TrimmedString(v))) == TrimmedString(v)
  {
    if v.Str? {
      TrimIdempotent(v.s);
    } else {
      TrimOfTrimmed("");
    }
  }

  /** `Math.min(Math.max(Number.isFinite(parsed) ? parsed : 200, 1), 500)` */
  function ClampLimit(parsed: Option<int>): (n: int)
    ensures MIN_LIMIT <= n <= MAX_LIMIT
    ensures parsed.None? ==> n == DEFAULT_LIMIT
    ensures parsed.Some? && MIN_LIMIT <= parsed.value <= MAX_LIMIT ==> n == parsed.value
    ensures parsed.Some? && parsed.value < MIN_LIMIT ==> n == MIN_LIMIT
    ensures parsed.Some? && parsed.value > MAX_LIMIT ==> n == MAX_LIMIT
  {
    var safe := if parsed.Some? then parsed.value else DEFAULT_LIMIT;
    var atLeast := if safe > MIN_LIMIT then safe else MIN_LIMIT;
    if atLeast < MAX_LIMIT then atLeast else MAX_LIMIT
  }

  /** The body of a successful listing. */
  datatype MessagePage = MessagePage(data: seq<Message>, count: nat)

  /** The route-parameter checks of `getConversationMessages`. */
  function CheckConversationId(param: Js): (r: Result<string, string>)
    ensures r.Ok? <==> TrimmedString(param) != "" && |TrimmedString(param)| <= MAX_CONVERSATION_ID_LENGTH
    ensures r.Ok? ==> r.value == TrimmedString(param)
    ensures TrimmedString(param) == "" ==> r == Err("conversationId is required")
    ensures TrimmedString(param) != "" && |TrimmedString(param)| > MAX_CONVERSATION_ID_LENGTH ==>
      r == Err("conversationId is too long")
  {
    var id := TrimmedString(param);
    if id == "" then Err("conversationId is required")
    else if |id| > MAX_CONVERSATION_ID_LENGTH then Err("conversationId is too long")
    else Ok(id)
  }

  /** `messages.reverse()`: reverses the array in place. */
  method ReverseInPlace<T>(a: array<T>)
    modifies a
    ensures a[..] == Reversed(old(a[..]))
  {
    ghost var orig := a[..];
    ghost var n := a.Length;
    var i := 0;
    var j := a.Length - 1;
    while i < j
      invariant 0 <= i <= n && j == n - 1 - i
      invariant forall k :: 0 <= k < i ==> a[k] == orig[n - 1 - k]
      invariant forall k :: j < k < n ==> a[k] == orig[n - 1 - k]
      invariant forall k :: i <= k <= j ==> a[k] == orig[k]
    {
      a[i], a[j] := a[j], a[i];
      i := i + 1;
      j := j - 1;
    }
    assert forall k :: 0 <= k < n ==> a[k] == orig[n - 1 - k];
    assert a[..] == Reversed(orig);
  }

  /** The page reversed into oldest-first order, on a fresh array as the controller does. */
  method ReversedCopy(messages: seq<Message>) returns (reversed: seq<Message>)
    ensures reversed == Reversed(messages)
  {
    var a := new Message[|messages|](i requires 0 <= i < |messages| => messages[i]);
    assert a[..] == messages;
    ReverseInPlace(a);
    reversed := a[..];
  }

  /** `getConversationMessages`: 400 for an empty or over-long id; otherwise the page for the
      trimmed id with the clamped limit, reversed, with its length as `count`. */
  method GetConversationMessages(store: MessageStore, param: Js, limit: Js, before: Js, after: Js,
                                 parseInt: Js -> Option<int>, parseDate: Js -> Option<int>)
    returns (r: Response<MessagePage>)
    ensures CheckConversationId(param).Err? ==> r == Fail(400, CheckConversationId(param).error)
    ensures CheckConversationId(param).Ok? ==>
      var page := FindMessages(store.docs, Query(TrimmedString(param), QueryBounds(before, after, parseDate)), ClampLimit(parseInt(limit)));
      r == Reply(200, MessagePage(Reversed(page), |page|))
  {
    var check := CheckConversationId(param);
    if check.Err? {
      return Fail(400, check.error);
    }
    var conversationId := check.value;
    var clamped := ClampLimit(parseInt(limit));
    var messages := MessageService.GetConversationMessages(store, conversationId, Some(clamped), before, after, parseDate);
    assert messages == FindMessages(store.docs, Query(TrimmedString(param), QueryBounds(before, after, parseDate)), clamped);
    var reversed := ReversedCopy(messages);
    r := Reply(200, MessagePage(reversed, |messages|));
  }

  /** The fields `createMessage` passes on after its checks. */
  datatype NewMessage = NewMessage(conversationId: string, userId: Js, role: string, content: string)

  /** `allowedRoles.has(role) ? role : 'user'` */
  function SafeRole(role: Js): (r: string)
    ensures r in Roles
    ensures role.Str? && role.s in Roles ==> r == role.s
    ensures !(role.Str? && role.s in Roles) ==> r == DEFAULT_ROLE
  {
    if role.Str? && role.s in Roles then role.s else DEFAULT_ROLE
  }

  /** The checks of `createMessage`, in order: the body is an object; the trimmed id, the
      user id and the trimmed content are all present; the id is at most 200 characters; the
      user id is an ObjectId; the user exists; the content is at most 8000 characters. */
  function CheckCreate(body: Js, isObjectId: Js -> bool, userIds: set<Js>): (r: Result<NewMessage, (nat, string)>)
    ensures !(Truthy(body) && IsObject(body)) ==> r == Err((400, "Invalid payload"))
    ensures r.Ok? ==>
      && r.value.conversationId == TrimmedString(Get(body, "conversationId"))
      && r.value.content == TrimmedString(Get(body, "content"))
      && r.value.userId == Get(body, "userId")
      && r.value.role == SafeRole(Get(body, "role"))
      && r.value.conversationId != "" && |r.value.conversationId| <= MAX_CONVERSATION_ID_LENGTH
      && r.value.content != "" && |r.value.content| <= MAX_CONTENT_LENGTH
      && Truthy(r.value.userId) && isObjectId(r.value.userId) && r.value.userId in userIds
  {
    if !(Truthy(body) && IsObject(body)) then Err((400, "Invalid payload"))
    else
      CheckFields(TrimmedString(Get(body, "conversationId")), Get(body, "userId"),
                  TrimmedString(Get(body, "content")), Get(body, "role"), isObjectId, userIds)
  }

  /** The checks after the body's fields are read; the role is only ever mapped. */
  function CheckFields(conversationId: string, userId: Js, content: string, role: Js,
                       isObjectId: Js -> bool, userIds: set<Js>): (r: Result<NewMessage, (nat, string)>)
    ensures r.Ok? ==> r.value == NewMessage(conversationId, userId, SafeRole(role), content)
  {
    if conversationId == "" || !Truthy(userId) || content == "" then
      Err((400, "conversationId, userId, and content are required"))
    else if |conversationId| > MAX_CONVERSATION_ID_LENGTH then Err((400, "conversationId is too long"))
    else if !isObjectId(userId) then Err((400, "Invalid userId"))
    else if userId !in userIds then Err((404, "User not found"))
    else if |content| > MAX_CONTENT_LENGTH then Err((400, "content exceeds 8000 characters"))
    else Ok(NewMessage(conversationId, userId, SafeRole(role), content))
  }

  /** The checks run in their stated order: each rejection happens exactly when every earlier
      check passed and its own fails. */
  lemma CheckCreateOrder(body: Js, isObjectId: Js -> bool, userIds: set<Js>)
    requires Truthy(body) && IsObject(body)
    ensures var id := TrimmedString(Get(body, "conversationId"));
      var content := TrimmedString(Get(body, "content"));
      var userId := Get(body, "userId");
      var r := CheckCreate(body, isObjectId, userIds);
      && (id == "" || !Truthy(userId) || content == "" <==> r == Err((400, "conversationId, userId, and content are required")))
      && (id != "" && Truthy(userId) && content != "" && |id| > MAX_CONVERSATION_ID_LENGTH <==>
            r == Err((400, "conversationId is too long")))
      && (id != "" && Truthy(userId) && content != "" && |id| <= MAX_CONVERSATION_ID_LENGTH && !isObjectId(userId) <==>
            r == Err((400, "Invalid userId")))
      && ((id != "" && Truthy(userId) && content != "" && |id| <= MAX_CONVERSATION_ID_LENGTH && isObjectId(userId)
            && userId !in userIds) <==> r == Err((404, "User not found")))
      && ((id != "" && Truthy(userId) && content != "" && |id| <= MAX_CONVERSATION_ID_LENGTH && isObjectId(userId)
            && userId in userIds && |content| > MAX_CONTENT_LENGTH) <==> r == Err((400, "content exceeds 8000 characters")))
  {
    CheckCreateOfObject(body, isObjectId, userIds);
  }

  /** The role never causes a rejection: two bodies that differ only in `role` get the same
      verdict. */
  lemma RoleNeverRejects(fields: map<string, Js>, role: Js, isObjectId: Js -> bool, userIds: set<Js>)
    ensures CheckCreate(Obj(fields), isObjectId, userIds).Ok? <==>
            CheckCreate(Obj(fields["role" := role]), isObjectId, userIds).Ok?
    ensures CheckCreate(Obj(fields), isObjectId, userIds).Err? ==>
            CheckCreate(Obj(fields), isObjectId, userIds) == CheckCreate(Obj(fields["role" := role]), isObjectId, userIds)
  {
    var b1 := Obj(fields);
    var b2 := Obj(fields["role" := role]);
    assert |"role"| != |"content"| && |"role"| != |"conversationId"| && |"role"| != |"userId"|;
    assert Get(b2, "content") == Get(b1, "content");
    assert Get(b2, "conversationId") == Get(b1, "conversationId");
    assert Get(b2, "userId") == Get(b1, "userId");
    CheckCreateOfObject(b1, isObjectId, userIds);
    CheckCreateOfObject(b2, isObjectId, userIds);
    CheckFieldsIgnoresRole(TrimmedString(Get(b1, "conversationId")), Get(b1, "userId"),
                           TrimmedString(Get(b1, "content")), Get(b1, "role"), role, isObjectId, userIds);
  }

  /** Of the fields' checks, none looks at the role. */
  lemma CheckFieldsIgnoresRole(conversationId: string, userId: Js, content: string, role1: Js, role2: Js,
                               isObjectId: Js -> bool, userIds: set<Js>)
    ensures var r1 := CheckFields(conversationId, userId, content, role1, isObjectId, userIds);
      var r2 := CheckFields(conversationId, userId, content, role2, isObjectId, userIds);
      && (r1.Ok? <==> r2.Ok?)
      && (r1.Err? ==> r1 == r2)
  {
  }

  /** On an object body, `createMessage` decides by the fields it reads. */
  lemma CheckCreateOfObject(body: Js, isObjectId: Js -> bool, userIds: set<Js>)
    requires Truthy(body) && IsObject(body)
    ensures CheckCreate(body, isObjectId, userIds) ==
      CheckFields(TrimmedString(Get(body, "conversationId")), Get(body, "userId"),
                  TrimmedString(Get(body, "content")), Get(body, "role"), isObjectId, userIds)
  {
  }

  /** What the controller lets through always satisfies the schema, and is stored as given. */
  lemma CheckedMessageValidates(body: Js, isObjectId: Js -> bool, userIds: set<Js>, id: string, now: int)
    requires CheckCreate(body, isObjectId, userIds).Ok?
    ensures var m := CheckCreate(body, isObjectId, userIds).value;
      ValidateMessage(MessageFields(Some(m.conversationId), m.userId, Some(RoleOrDefault(m.role)), Some(m.content)), isObjectId, id, now)
        == Ok(Message(id, m.conversationId, m.userId, m.role, m.content, false, now, now))
  {
    var m := CheckCreate(body, isObjectId, userIds).value;
    assert m.role == SafeRole(Get(body, "role")) && m.content == TrimmedString(Get(body, "content"));
    CheckedFieldsValidate(m, isObjectId, id, now);
  }

  /** Fields that passed the controller's checks pass the schema's. */
  lemma CheckedFieldsValidate(m: NewMessage, isObjectId: Js -> bool, id: string, now: int)
    requires m.conversationId != "" && Truthy(m.userId) && isObjectId(m.userId) && m.role in Roles
    requires m.content != "" && IsTrimmed(m.content) && |m.content| <= MAX_CONTENT_LENGTH
    ensures ValidateMessage(MessageFields(Some(m.conversationId), m.userId, Some(RoleOrDefault(m.role)), Some(m.content)), isObjectId, id, now)
        == Ok(Message(id, m.conversationId, m.userId, m.role, m.content, false, now, now))
  {
    TrimOfTrimmed(m.content);
    assert m.role == "user" || m.role == "model" || m.role == "system";
    assert RoleOrDefault(m.role) == m.role;
  }

  /** `createMessage`: a rejection leaves the store alone; otherwise the message is saved with
      the trimmed id and content and the safe role, and returned with status 201. */
  method CreateMessage(store: MessageStore, body: Js, isObjectId: Js -> bool, userIds: set<Js>, id: string, now: int)
    returns (r: Response<Message>)
    modifies store
    ensures CheckCreate(body, isObjectId, userIds).Err? ==>
      && var e := CheckCreate(body, isObjectId, userIds).error;
      && r == Fail(e.0, e.1)
      && store.docs == old(store.docs)
    ensures CheckCreate(body, isObjectId, userIds).Ok? ==>
      var m := CheckCreate(body, isObjectId, userIds).value;
      && r.Reply? && r.status == 201
      && r.body == Message(id, m.conversationId, m.userId, m.role, m.content, false, now, now)
      && store.docs == old(store.docs) + [r.body]
  {
    var check := CheckCreate(body, isObjectId, userIds);
    if check.Err? {
      return Fail(check.error.0, check.error.1);
    }
    var m := check.value;
    CheckedMessageValidates(body, isObjectId, userIds, id, now);
    var saved := MessageService.CreateMessage(store, m.conversationId, m.userId, m.role, m.content, isObjectId, id, now);
    r := Reply(201, saved.value);
  }
}

=== FILE: message_model.dfy ===
/**
  The constraints of the `Message` schema (`message.model.js`): the required fields, the
  role enumeration with its default, and the trimmed, bounded content. Mongoose applies the
  `trim` setter before validating, and `metadata.edited` starts false.

  Whether a value casts to an ObjectId is the parameter `isObjectId`.
 */
module MessageModel {
  import opened Wrappers
  import opened JsValue
  import opened Text

  const MAX_CONTENT_LENGTH: nat := 8000

  const Roles: set<string> := {"user", "model", "system"}

  const DEFAULT_ROLE: string := "user"

  /** A stored message. `editedAt` and `replyTo` are never set by the handlers. */
  datatype Message = Message(
    id: string,
    conversationId: string,
    userId: Js,
    role: string,
    content: string,
    edited: bool,
    createdAt: int,
    updatedAt: int)

  /** The document passed to `new Message(...)`; `None` is an absent field. */
  datatype MessageFields = MessageFields(
    conversationId: Option<string>,
    userId: Js,
    role: Option<string>,
    content: Option<string>)

  /** The first failing constraint, by field order. */
  datatype SchemaError =
    | Required(path: string)
    | CastFailed(path: string)
    | NotInEnum(path: string)
    | TooLong(path: string)

  /** Validation of a new document, stamped with the generated id and the time of saving. */
  function ValidateMessage(f: MessageFields, isObjectId: Js -> bool, id: string, now: int): (r: Result<Message, SchemaError>)
    ensures r.Ok? <==>
      && f.conversationId.Some? && f.conversationId.value != ""
      && !IsNullish(f.userId) && isObjectId(f.userId)
      && (f.role.None? || f.role.value in Roles)
      && f.content.Some? && Trim(f.content.value) != "" && |Trim(f.content.value)| <= MAX_CONTENT_LENGTH
    ensures r.Ok? ==>
      && r.value.conversationId == f.conversationId.value
      && r.value.userId == f.userId
      && r.value.role == f.role.GetOr(DEFAULT_ROLE) && r.value.role in Roles
      && r.value.content == Trim(f.content.value) && IsTrimmed(r.value.content)
      && |r.value.content| <= MAX_CONTENT_LENGTH
      && !r.value.edited
      && r.value.id == id && r.value.createdAt == now && r.value.updatedAt == now
    ensures (f.conversationId.None? || f.conversationId.value == "") ==> r == Err(Required("conversationId"))
  {
    if f.conversationId.None? || f.conversationId.value == "" then Err(Required("conversationId"))
    else if IsNullish(f.userId) then Err(Required("userId"))
    else if !isObjectId(f.userId) then Err(CastFailed("userId"))
    else if f.role.Some? && f.role.value !in Roles then Err(NotInEnum("role"))
    else
      var content := if f.content.Some? then Trim(f.content.value) else "";
      if content == "" then Err(Required("content"))
      else if |content| > MAX_CONTENT_LENGTH then Err(TooLong("content"))
      else Ok(Message(id, f.conversationId.value, f.userId, f.role.GetOr(DEFAULT_ROLE), content, false, now, now))
  }

  /** The fields of a stored message, as they would be given again. */
  function FieldsOf(m: Message): MessageFields {
    MessageFields(Some(m.conversationId), m.userId, Some(m.role), Some(m.content))
  }

  /** A validated message validates again unchanged: the setters and defaults are idempotent. */
  lemma RevalidateStored(f: MessageFields, isObjectId: Js -> bool, id: string, now: int)
    requires ValidateMessage(f, isObjectId, id, now).Ok?
    ensures var m := ValidateMessage(f, isObjectId, id, now).value;
      ValidateMessage(FieldsOf(m), isObjectId, m.id, m.createdAt) == Ok(m)
  {
    var m := ValidateMessage(f, isObjectId, id, now).value;
    TrimIdempotent(f.content.value);
    assert Trim(m.content) == m.content;
  }
}

=== FILE: message_service.dfy ===
/**
  The message service (`message.service.js`): the query for a conversation's messages, built
  field by field, the newest-first page the store returns for it, and the creation of a
  message with its role defaulted.

  The collection is the class `MessageStore`; `new Date(v)` is the parameter `parseDate`,
  giving the epoch milliseconds or `None` for an invalid date.
 */
module MessageService {
  import opened Wrappers
  import opened JsValue
  import opened MessageModel
  import opened Ordering

  const DEFAULT_LIMIT: nat := 200

  /** The `createdAt` condition: `$lt` and `$gt`, each optional. */
  datatype DateBounds = DateBounds(lt: Option<int>, gt: Option<int>)

  /** `{ conversationId, createdAt? }` */
  datatype Query = Query(conversationId: string, createdAt: Option<DateBounds>)

  /** The date a truthy bound parses to, if it is valid. */
  function Bound(v: Js, parseDate: Js -> Option<int>): (d: Option<int>)
    ensures d.Some? ==> Truthy(v) && d == parseDate(v)
    ensures Truthy(v) ==> d == parseDate(v)
  {
    if Truthy(v) then parseDate(v) else None
  }

  /** The query-building statements of `getConversationMessages`. */
  method BuildQuery(conversationId: string, before: Js, after: Js, parseDate: Js -> Option<int>)
    returns (q: Query)
    ensures q.conversationId == conversationId
    ensures q.createdAt.Some? <==> Bound(before, parseDate).Some? || Bound(after, parseDate).Some?
    ensures q.createdAt.Some? ==> q.createdAt.value == DateBounds(Bound(before, parseDate), Bound(after, parseDate))
  {
    q := Query(conversationId, None);
    var createdAt := DateBounds(None, None);
    if Truthy(before) {
      var beforeDate := parseDate(before);
      if beforeDate.Some? {
        createdAt := createdAt.(lt := beforeDate);
      }
    }
    if Truthy(after) {
      var afterDate := parseDate(after);
      if afterDate.Some? {
        createdAt := createdAt.(gt := afterDate);
      }
    }
    if createdAt.lt.Some? || createdAt.gt.Some? {
      q := q.(createdAt := Some(createdAt));
    }
  }

  /** A message the query selects. */
  predicate Matches(m: Message, q: Query) {
    && m.conversationId == q.conversationId
    && (q.createdAt.Some? && q.createdAt.value.lt.Some? ==> m.createdAt < q.createdAt.value.lt.value)
    && (q.createdAt.Some? && q.createdAt.value.gt.Some? ==> m.createdAt > q.createdAt.value.gt.value)
  }

  /** The sort key, `createdAt`, which every message has. */
  function CreatedAt(m: Message): Option<int> {
    Some(m.createdAt)
  }

  /** `Message.find(query).sort({ createdAt: -1 }).limit(limit)` */
  function FindMessages(ms: seq<Message>, q: Query, limit: int): seq<Message> {
    Find(ms, m => Matches(m, q), CreatedAt, limit)
  }

  /** The messages collection. */
  class MessageStore {
    var docs: seq<Message>

    constructor ()
      ensures docs == []
    {
      docs := [];
    }

    /** `new Message(data).save()`: appends the validated document, or leaves the
        collection as it was when validation fails. */
    method Save(f: MessageFields, isObjectId: Js -> bool, id: string, now: int) returns (r: Result<Message, SchemaError>)
      modifies this
      ensures r == ValidateMessage(f, isObjectId, id, now)
      ensures r.Ok? ==> docs == old(docs) + [r.value]
      ensures r.Err? ==> docs == old(docs)
    {
      r := ValidateMessage(f, isObjectId, id, now);
      if r.Ok? {
        docs := docs + [r.value];
      }
    }
  }

  /** `getConversationMessages(conversationId, { limit = 200, before, after })` */
  method GetConversationMessages(store: MessageStore, conversationId: string, limit: Option<int>,
                                 before: Js, after: Js, parseDate: Js -> Option<int>)
    returns (messages: seq<Message>)
    ensures messages == FindMessages(store.docs, Query(conversationId, QueryBounds(before, after, parseDate)), limit.GetOr(DEFAULT_LIMIT))
  {
    var q := BuildQuery(conversationId, before, after, parseDate);
    messages := FindMessages(store.docs, q, limit.GetOr(DEFAULT_LIMIT));
  }

  /** The `createdAt` part `BuildQuery` produces. */
  function QueryBounds(before: Js, after: Js, parseDate: Js -> Option<int>): (b: Option<DateBounds>)
    ensures b.Some? <==> Bound(before, parseDate).Some? || Bound(after, parseDate).Some?
  {
    if Bound(before, parseDate).Some? || Bound(after, parseDate).Some? then
      Some(DateBounds(Bound(before, parseDate), Bound(after, parseDate)))
    else None
  }

  /** `data.role || 'user'` */
  function RoleOrDefault(role: string): (r: string)
    ensures role != "" ==> r == role
    ensures role == "" ==> r == DEFAULT_ROLE
  {
    if role != "" then role else DEFAULT_ROLE
  }

  /** `createMessage`: saves the four fields, with an empty role replaced by `user`. */
  method CreateMessage(store: MessageStore, conversationId: string, userId: Js, role: string, content: string,
                       isObjectId: Js -> bool, id: string, now: int)
    returns (r: Result<Message, SchemaError>)
    modifies store
    ensures r == ValidateMessage(MessageFields(Some(conversationId), userId, Some(RoleOrDefault(role)), Some(content)), isObjectId, id, now)
    ensures r.Ok? ==> store.docs == old(store.docs) + [r.value] && r.value.role == RoleOrDefault(role)
    ensures r.Err? ==> store.docs == old(store.docs)
  {
    r := store.Save(MessageFields(Some(conversationId), userId, Some(RoleOrDefault(role)), Some(content)), isObjectId, id, now);
  }
}

=== FILE: ordering.dfy ===
/**
  What the document store does with a result set: keep the documents a query selects, sort
  them by a timestamp, newest first (`sort({ field: -1 })`), and cut the page
  (`limit(n)`). A document without the timestamp sorts after every dated one, as a missing
  field sorts below every date in MongoDB's order.
 */
module Ordering {
  import opened Wrappers

  /** `a` comes no later than `b` in a newest-first order. */
  predicate NoOlder(a: Option<int>, b: Option<int>) {
    b.None? || (a.Some? && a.value >= b.value)
  }

  predicate NewestFirst<T>(s: seq<T>, stamp: T -> Option<int>) {
    forall i, j :: 0 <= i < j < |s| ==> NoOlder(stamp(s[i]), stamp(s[j]))
  }

  /** `s.filter(keep)`, in order. */
  function Select<T(==)>(s: seq<T>, keep: T -> bool): (r: seq<T>)
    ensures forall x :: x in r ==> keep(x)
    ensures multiset(r) <= multiset(s) && |r| <= |s|
    ensures forall x :: x in s && keep(x) ==> x in r
  {
    if s == [] then []
    else
      assert s == [s[0]] + s[1..];
      if keep(s[0]) then [s[0]] + Select(s[1..], keep) else Select(s[1..], keep)
  }

  /** Filtering a concatenation filters each side and keeps them in order: together with
      the one-element case, the kept elements come out in their original order, each
      occurrence once. */
  lemma {:induction false} SelectAppend<T>(a: seq<T>, b: seq<T>, keep: T -> bool)
    ensures Select(a + b, keep) == Select(a, keep) + Select(b, keep)
  {
    if a != [] {
      assert (a + b)[0] == a[0] && (a + b)[1..] == a[1..] + b;
      SelectAppend(a[1..], b, keep);
    } else {
      assert a + b == b;
    }
  }

  /** A one-element list is kept or dropped whole. */
  lemma SelectSingle<T>(x: T, keep: T -> bool)
    ensures Select([x], keep) == if keep(x) then [x] else []
  {
    assert [x][1..] == [];
  }

  function Insert<T(==)>(x: T, s: seq<T>, stamp: T -> Option<int>): (r: seq<T>)
    requires NewestFirst(s, stamp)
    ensures NewestFirst(r, stamp)
    ensures forall y :: y in r ==> y in s || y == x
    ensures multiset(r) == multiset(s) + multiset{x}
  {
    if s == [] || NoOlder(stamp(x), stamp(s[0])) then
      InsertFront(x, s, stamp);
      [x] + s
    else
      var rest := Insert(x, s[1..], stamp);
      InsertBehind(x, s, rest, stamp);
      assert s == [s[0]] + s[1..];
      [s[0]] + rest
  }

  /** An element no older than the head of a newest-first list may go in front of it. */
  lemma InsertFront<T>(x: T, s: seq<T>, stamp: T -> Option<int>)
    requires NewestFirst(s, stamp)
    requires s == [] || NoOlder(stamp(x), stamp(s[0]))
    ensures NewestFirst([x] + s, stamp)
  {
    var r := [x] + s;
    forall i, j | 0 <= i < j < |r|
      ensures NoOlder(stamp(r[i]), stamp(r[j]))
    {
      assert r[j] == s[j - 1];
      if i > 0 {
        assert r[i] == s[i - 1];
      } else if j > 1 {
        assert NoOlder(stamp(s[0]), stamp(s[j - 1]));
      }
    }
  }

  /** The head of a newest-first list stays in front of a newest-first list made of its tail
      and an element older than it. */
  lemma InsertBehind<T>(x: T, s: seq<T>, rest: seq<T>, stamp: T -> Option<int>)
    requires NewestFirst(s, stamp) && s != [] && !NoOlder(stamp(x), stamp(s[0]))
    requires NewestFirst(rest, stamp)
    requires forall y :: y in rest ==> y in s[1..] || y == x
    ensures NewestFirst([s[0]] + rest, stamp)
  {
    var r := [s[0]] + rest;
    forall i, j | 0 <= i < j < |r|
      ensures NoOlder(stamp(r[i]), stamp(r[j]))
    {
      var y := rest[j - 1];
      assert r[j] == y && y in rest;
      if i > 0 {
        assert r[i] == rest[i - 1];
      } else if y != x {
        var k :| 0 <= k < |s[1..]| && s[1..][k] == y;
        assert s[k + 1] == y;
      }
    }
  }

  /** The store's sort: newest first, the same documents. */
  function SortNewestFirst<T(==)>(s: seq<T>, stamp: T -> Option<int>): (r: seq<T>)
    ensures NewestFirst(r, stamp)
    ensures multiset(r) == multiset(s)
  {
    if s == [] then []
    else
      assert s == [s[0]] + s[1..];
      Insert(s[0], SortNewestFirst(s[1..], stamp), stamp)
  }

  function Abs(n: int): nat {
    if n < 0 then -n else n
  }

  /** `.limit(n)`: 0 means no limit, and a negative limit counts as its absolute value. */
  function Page<T>(s: seq<T>, limit: int): (r: seq<T>)
    ensures |r| <= |s| && r == s[..|r|]
    ensures |r| == if limit == 0 || |s| <= Abs(limit) then |s| else Abs(limit)
  {
    if limit == 0 || |s| <= Abs(limit) then s else s[..Abs(limit)]
  }

  /** `find(query).sort({ field: -1 }).limit(limit)` */
  function Find<T(==)>(s: seq<T>, keep: T -> bool, stamp: T -> Option<int>, limit: int): seq<T> {
    Page(SortNewestFirst(Select(s, keep), stamp), limit)
  }

  /** A prefix of a newest-first list is newest first and holds no element the list lacks. */
  lemma PrefixOfNewestFirst<T>(s: seq<T>, n: nat, stamp: T -> Option<int>)
    requires n <= |s| && NewestFirst(s, stamp)
    ensures NewestFirst(s[..n], stamp)
    ensures multiset(s[..n]) <= multiset(s)
  {
    assert s == s[..n] + s[n..];
    assert multiset(s) == multiset(s[..n]) + multiset(s[n..]);
  }

  /** The page holds only selected documents of the store, newest first, and no more than the
      limit; when the limit leaves room, it holds every selected document. */
  lemma FindIsNewestPage<T>(s: seq<T>, keep: T -> bool, stamp: T -> Option<int>, limit: int)
    ensures var r := Find(s, keep, stamp, limit);
      && NewestFirst(r, stamp)
      && (forall x :: x in r ==> keep(x))
      && multiset(r) <= multiset(s)
      && (limit != 0 ==> |r| <= Abs(limit))
      && ((limit == 0 || |Select(s, keep)| <= Abs(limit)) ==> multiset(r) == multiset(Select(s, keep)))
  {
    var selected := Select(s, keep);
    var sorted := SortNewestFirst(selected, stamp);
    var r := Page(sorted, limit);
    assert r == Find(s, keep, stamp, limit);
    PrefixOfNewestFirst(sorted, |r|, stamp);
    assert r == sorted[..|r|];
    assert multiset(r) <= multiset(selected);
    forall x | x in r
      ensures keep(x)
    {
      assert x in multiset(selected);
    }
  }

  /** A selected document left off the page is no newer than any document on it. */
  lemma FindKeepsNewest<T>(s: seq<T>, keep: T -> bool, stamp: T -> Option<int>, limit: int, i: nat, j: nat)
    requires |Find(s, keep, stamp, limit)| <= j < |SortNewestFirst(Select(s, keep), stamp)|
    requires i < |Find(s, keep, stamp, limit)|
    ensures NoOlder(stamp(Find(s, keep, stamp, limit)[i]), stamp(SortNewestFirst(Select(s, keep), stamp)[j]))
  {
  }

  /** `s.reverse()` */
  function Reversed<T>(s: seq<T>): (r: seq<T>)
    ensures |r| == |s|
    ensures forall k :: 0 <= k < |s| ==> r[k] == s[|s| - 1 - k]
  {
    if s == [] then [] else Reversed(s[1..]) + [s[0]]
  }

  lemma {:induction false} ReversedMultiset<T>(s: seq<T>)
    ensures multiset(Reversed(s)) == multiset(s)
  {
    if s != [] {
      ReversedMultiset(s[1..]);
      assert s == [s[0]] + s[1..];
    }
  }

  /** Reversing a newest-first list gives it oldest first, with the same elements. */
  lemma ReversedIsOldestFirst<T>(s: seq<T>, stamp: T -> Option<int>)
    requires NewestFirst(s, stamp)
    ensures forall i, j :: 0 <= i < j < |s| ==> NoOlder(stamp(Reversed(s)[j]), stamp(Reversed(s)[i]))
    ensures multiset(Reversed(s)) == multiset(s)
  {
    ReversedMultiset(s);
  }
}

=== FILE: text.dfy ===
/**
  The string operations the source relies on: `String.prototype.trim`, the
  trailing-slash strip `s.replace(/\/+$/, '')`, `split` on one character, `join`,
  lower-casing, and number-to-string conversion.
 */
module Text {

  /** The ECMAScript WhiteSpace and LineTerminator code points: what `trim` removes. */
  predicate IsSpace(c: char) {
    || c == ' ' || c == '\t' || c == '\n' || c == '\r' || c == '\U{000B}' || c == '\U{000C}'
    || c == '\U{00A0}' || c == '\U{1680}' || ('\U{2000}' <= c <= '\U{200A}')
    || c == '\U{2028}' || c == '\U{2029}' || c == '\U{202F}' || c == '\U{205F}'
    || c == '\U{3000}' || c == '\U{FEFF}'
  }

  /** The characters `.` in a regular expression does not match. */
  predicate IsLineTerminator(c: char) {
    c == '\n' || c == '\r' || c == '\U{2028}' || c == '\U{2029}'
  }

  predicate AllSpace(s: string) {
    forall i :: 0 <= i < |s| ==> IsSpace(s[i])
  }

  /** Neither end of `s` is white space. */
  predicate IsTrimmed(s: string) {
    s == [] || (!IsSpace(s[0]) && !IsSpace(s[|s| - 1]))
  }

  /** Drops the leading white space: the result is a suffix of `s` and what went is all space. */
  function TrimStart(s: string): (r: string)
    ensures |r| <= |s| && r == s[|s| - |r|..]
    ensures AllSpace(s[..|s| - |r|])
    ensures r != [] ==> !IsSpace(r[0])
  {
    if s != [] && IsSpace(s[0]) then
      var r := TrimStart(s[1..]);
      assert s[..|s| - |r|] == [s[0]] + s[1..][..|s| - 1 - |r|];
      r
    else s
  }

  /** Drops the trailing white space: the result is a prefix of `s` and what went is all space. */
  function TrimEnd(s: string): (r: string)
    ensures |r| <= |s| && r == s[..|r|]
    ensures AllSpace(s[|r|..])
    ensures r != [] ==> !IsSpace(r[|r| - 1])
  {
    if s != [] && IsSpace(s[|s| - 1]) then
      var r := TrimEnd(s[..|s| - 1]);
      assert s[|r|..] == s[..|s| - 1][|r|..] + [s[|s| - 1]];
      r
    else s
  }

  /** `s.trim()` */
  function Trim(s: string): (r: string)
    ensures IsTrimmed(r)
    ensures |r| <= |s|
    ensures r == [] <==> AllSpace(s)
  {
    var t := TrimStart(s);
    var r := TrimEnd(t);
    assert r != [] ==> r[0] == t[0];
    assert r == [] && t != [] ==> AllSpace(t);
    assert r == [] ==> s == s[..|s| - |t|] + t;
    r
  }

  /** Trimming a trimmed string changes nothing; hence `trim` is idempotent. */
  lemma {:induction false} TrimOfTrimmed(s: string)
    requires IsTrimmed(s)
    ensures Trim(s) == s
  {
    assert TrimStart(s) == s;
    assert TrimEnd(s) == s;
  }

  lemma TrimIdempotent(s: string)
    ensures Trim(Trim(s)) == Trim(s)
  {
    TrimOfTrimmed(Trim(s));
  }

  lemma {:induction false} TrimStartSkipsSpace(a: string, x: string)
    requires AllSpace(a)
    ensures TrimStart(a + x) == TrimStart(x)
  {
    if a != [] {
      var ax := a + x;
      assert ax[0] == a[0] && IsSpace(a[0]);
      assert ax[1..] == a[1..] + x;
      assert TrimStart(ax) == TrimStart(ax[1..]);
      TrimStartSkipsSpace(a[1..], x);
    } else {
      assert a + x == x;
    }
  }

  lemma {:induction false} TrimEndSkipsSpace(x: string, b: string)
    requires AllSpace(b)
    ensures TrimEnd(x + b) == TrimEnd(x)
  {
    if b != [] {
      var xb := x + b;
      assert xb[|xb| - 1] == b[|b| - 1] && IsSpace(b[|b| - 1]);
      assert xb[..|xb| - 1] == x + b[..|b| - 1];
      assert TrimEnd(xb) == TrimEnd(xb[..|xb| - 1]);
      TrimEndSkipsSpace(x, b[..|b| - 1]);
    } else {
      assert x + b == x;
    }
  }

  lemma {:induction false} TrimStartKeepsTail(s: string, b: string)
    requires !AllSpace(s)
    ensures TrimStart(s + b) == TrimStart(s) + b
  {
    assert s != [];
    if IsSpace(s[0]) {
      assert (s + b)[1..] == s[1..] + b;
      TrimStartKeepsTail(s[1..], b);
    }
  }

  lemma AllSpaceConcat(x: string, y: string)
    requires AllSpace(x) && AllSpace(y)
    ensures AllSpace(x + y)
  {
    forall i | 0 <= i < |x + y|
      ensures IsSpace((x + y)[i])
    {
      if i < |x| {
        assert (x + y)[i] == x[i];
      } else {
        assert (x + y)[i] == y[i - |x|];
      }
    }
  }

  /** White space added around a string does not change what `trim` gives. */
  lemma TrimIgnoresOuterSpace(a: string, s: string, b: string)
    requires AllSpace(a) && AllSpace(b)
    ensures Trim(a + s + b) == Trim(s)
  {
    var whole := a + s + b;
    assert whole == a + (s + b);
    if AllSpace(s) {
      AllSpaceConcat(s, b);
      AllSpaceConcat(a, s + b);
      assert Trim(whole) == [] == Trim(s);
    } else {
      TrimStartSkipsSpace(a, s + b);
      TrimStartKeepsTail(s, b);
      assert TrimStart(whole) == TrimStart(s) + b;
      TrimEndSkipsSpace(TrimStart(s), b);
      assert Trim(whole) == TrimEnd(TrimStart(s) + b);
    }
  }

  predicate EndsWithSlash(s: string) {
    s != [] && s[|s| - 1] == '/'
  }

  /** `s.replace(/\/+$/, '')`: removes the whole run of trailing slashes. */
  function StripTrailingSlashes(s: string): (r: string)
    ensures |r| <= |s| && r == s[..|r|]
    ensures !EndsWithSlash(r)
    ensures forall i :: |r| <= i < |s| ==> s[i] == '/'
  {
    if EndsWithSlash(s) then StripTrailingSlashes(s[..|s| - 1]) else s
  }

  /** Stripping twice is stripping once. */
  lemma StripIdempotent(s: string)
    ensures StripTrailingSlashes(StripTrailingSlashes(s)) == StripTrailingSlashes(s)
  {
  }

  /** Two strings that differ only in their trailing slashes strip to the same string. */
  lemma {:induction false} StripIgnoresAddedSlashes(s: string, n: nat)
    ensures StripTrailingSlashes(s + seq(n, _ => '/')) == StripTrailingSlashes(s)
  {
    var t := s + seq(n, _ => '/');
    if n == 0 {
      assert t == s;
    } else {
      assert EndsWithSlash(t);
      assert t[..|t| - 1] == s + seq(n - 1, _ => '/');
      StripIgnoresAddedSlashes(s, n - 1);
    }
  }

  /** `parts.join(sep)` */
  function Join(parts: seq<string>, sep: char): string {
    if |parts| == 0 then ""
    else if |parts| == 1 then parts[0]
    else parts[0] + [sep] + Join(parts[1..], sep)
  }

  /** `s.split(sep)` for a one-character separator: never empty, no piece holds the
      separator, and joining the pieces back gives `s`. */
  function Split(s: string, sep: char): (parts: seq<string>)
    ensures |parts| >= 1
    ensures forall p :: p in parts ==> sep !in p
    ensures Join(parts, sep) == s
  {
    if s == [] then [""]
    else
      var rest := Split(s[1..], sep);
      if s[0] == sep then
        assert Join([""] + rest, sep) == [sep] + Join(rest, sep);
        [""] + rest
      else
        var parts := [[s[0]] + rest[0]] + rest[1..];
        assert Join(parts, sep) == [s[0]] + Join(rest, sep) by {
          if |rest| > 1 {
            assert parts[1..] == rest[1..];
          }
        }
        parts
  }

  /** Splitting a joined list gives the list back when no piece holds the separator. */
  lemma {:induction false} SplitJoin(parts: seq<string>, sep: char)
    requires |parts| >= 1
    requires forall p :: p in parts ==> sep !in p
    ensures Split(Join(parts, sep), sep) == parts
  {
    if |parts| == 1 {
      SplitSingle(parts[0], sep);
    } else {
      SplitJoin(parts[1..], sep);
      SplitPiece(parts[0], Join(parts[1..], sep), sep);
    }
  }

  /** A string without the separator splits into itself. */
  lemma {:induction false} SplitSingle(p: string, sep: char)
    requires sep !in p
    ensures Split(p, sep) == [p]
  {
    if p != [] {
      SplitSingle(p[1..], sep);
      assert Split(p, sep) == [[p[0]] + p[1..]];
    }
  }

  /** Splitting `p + [sep] + rest`, where `p` holds no separator. */
  lemma {:induction false} SplitPiece(p: string, rest: string, sep: char)
    requires sep !in p
    ensures Split(p + [sep] + rest, sep) == [p] + Split(rest, sep)
  {
    var whole := p + [sep] + rest;
    if p == [] {
      assert whole == [sep] + rest;
      assert whole[1..] == rest;
    } else {
      SplitPiece(p[1..], rest, sep);
      assert whole[1..] == p[1..] + [sep] + rest;
      var tail := Split(whole[1..], sep);
      assert tail == [p[1..]] + Split(rest, sep);
      assert Split(whole, sep) == [[whole[0]] + tail[0]] + tail[1..];
      assert [p[0]] + tail[0] == p;
      assert tail[1..] == Split(rest, sep);
    }
  }

  /** Concatenation of a list of strings. */
  function Concat(parts: seq<string>): string {
    if parts == [] then "" else parts[0] + Concat(parts[1..])
  }

  lemma {:induction false} ConcatAppend(parts: seq<string>, last: string)
    ensures Concat(parts + [last]) == Concat(parts) + last
  {
    if parts != [] {
      assert (parts + [last])[1..] == parts[1..] + [last];
      ConcatAppend(parts[1..], last);
    }
  }

  /** ASCII lower-casing of one character. */
  function LowerChar(c: char): char {
    if 'A' <= c <= 'Z' then (c as int + 32) as char else c
  }

  /** `s.toLowerCase()`, restricted to the ASCII letters. */
  function ToLower(s: string): (r: string)
    ensures |r| == |s|
    ensures forall i :: 0 <= i < |s| ==> r[i] == LowerChar(s[i])
  {
    seq(|s|, i requires 0 <= i < |s| => LowerChar(s[i]))
  }

  lemma ToLowerIdempotent(s: string)
    ensures ToLower(ToLower(s)) == ToLower(s)
  {
  }

  predicate IsDigit(c: char) {
    '0' <= c <= '9'
  }

  /** The number a string of decimal digits spells, most significant digit first. */
  function DigitsValue(s: string): nat
    requires forall i :: 0 <= i < |s| ==> IsDigit(s[i])
  {
    if s == [] then 0
    else
      assert IsDigit(s[|s| - 1]);
      DigitsValue(s[..|s| - 1]) * 10 + (s[|s| - 1] as int - '0' as int)
  }

  /** Decimal rendering of a non-negative integer, as a template literal prints it: the
      digits spell `n`, with no leading zero unless `n` is zero. */
  function DecimalString(n: nat): (r: string)
    ensures |r| >= 1
    ensures forall i :: 0 <= i < |r| ==> IsDigit(r[i])
    ensures DigitsValue(r) == n
    ensures r[0] == '0' ==> n == 0
  {
    var d := [(('0' as int) + n % 10) as char];
    if n < 10 then d
    else
      var r := DecimalString(n / 10) + d;
      assert r[..|r| - 1] == DecimalString(n / 10);
      r
  }

  /** Lower-casing changes only the letters `A` to `Z`, none of which is white space. */
  lemma LowerKeepsSpace(c: char)
    ensures IsSpace(LowerChar(c)) <==> IsSpace(c)
  {
    if 'A' <= c <= 'Z' {
      assert 'a' <= LowerChar(c) <= 'z';
    }
  }

  lemma {:induction false} TrimStartToLower(s: string)
    ensures TrimStart(ToLower(s)) == ToLower(TrimStart(s))
  {
    if s != [] {
      LowerKeepsSpace(s[0]);
      assert ToLower(s)[1..] == ToLower(s[1..]);
      TrimStartToLower(s[1..]);
    }
  }

  lemma {:induction false} TrimEndToLower(s: string)
    ensures TrimEnd(ToLower(s)) == ToLower(TrimEnd(s))
  {
    if s != [] {
      LowerKeepsSpace(s[|s| - 1]);
      assert ToLower(s)[..|s| - 1] == ToLower(s[..|s| - 1]);
      TrimEndToLower(s[..|s| - 1]);
    }
  }

  /** Lower-casing never makes or removes white space, so it commutes with `trim`. */
  lemma TrimToLower(s: string)
    ensures Trim(ToLower(s)) == ToLower(Trim(s))
  {
    TrimStartToLower(s);
    TrimEndToLower(TrimStart(s));
  }
}

=== FILE: user_controllers.dfy ===
/**
  The user endpoints (`user.controllers.js`): find-or-create keyed on the normalised name,
  and lookup by id. A name that is truthy but not a string makes `name.trim` throw, which the
  handler's `catch` turns into a 500.
 */
module UserControllers {
  import opened Wrappers
  import opened JsValue
  import opened Text
  import opened Http
  import opened UserModel

  /** `const { name, avatar = '' } = req.body || {}` */
  function NameOf(body: Js): (name: Js)
    ensures !Truthy(body) ==> name.Undefined?
    ensures Truthy(body) ==> name == Get(body, "name")
  {
    Get(if Truthy(body) then body else Obj(map[]), "name")
  }

  /** `avatar = ''`: the default applies when the destructured avatar is undefined. */
  function AvatarOf(body: Js): (avatar: Js)
    ensures !avatar.Undefined?
    ensures Get(if Truthy(body) then body else Obj(map[]), "avatar").Undefined? ==> avatar == Str(DEFAULT_AVATAR)
    ensures !Get(body, "avatar").Undefined? && Truthy(body) ==> avatar == Get(body, "avatar")
  {
    var given := Get(if Truthy(body) then body else Obj(map[]), "avatar");
    if given.Undefined? then Str(DEFAULT_AVATAR) else given
  }

  /** Finding a user by a key that is not taken after inserting it finds the new user. */
  lemma FindByNameAfterInsert(users: seq<User>, u: User)
    requires FindByName(users, u.normalizedName).None?
    ensures FindByName(users + [u], u.normalizedName) == Some(u)
  {
    var all := users + [u];
    assert u in all;
    assert forall x :: x in all ==> x in users || x == u;
  }

  /** `createOrGetUser`: 400 for a missing or blank name, before any lookup; otherwise the
      user holding the name's key, created with the trimmed name when there is none. After a
      success the key finds the returned user, so any later call with a name of the same key
      (differing only in case or outer white space) returns that same user. */
  method CreateOrGetUser(store: UserStore, body: Js, id: string, now: int) returns (r: Response<User>)
    modifies store
    ensures var name := NameOf(body);
      && (!Truthy(name) || (name.Str? && AllSpace(name.s)) ==> r == Fail(400, "Name is required"))
      && (Truthy(name) && !name.Str? ==> r == Fail(500, "Failed to create user"))
    ensures r.Fail? ==> store.users == old(store.users)
    ensures var name := NameOf(body);
      name.Str? && !AllSpace(name.s) && FindByName(old(store.users), NormalizeName(name.s)).Some? ==>
        r == Reply(200, FindByName(old(store.users), NormalizeName(name.s)).value) && store.users == old(store.users)
    ensures var name := NameOf(body);
      name.Str? && !AllSpace(name.s) && FindByName(old(store.users), NormalizeName(name.s)).None? ==>
        var v := ValidateUser(Trim(name.s), AvatarOf(body), id, now);
        && (v.Err? ==> r == Fail(500, "Failed to create user") && store.users == old(store.users))
        && (v.Ok? ==> r == Reply(200, v.value) && store.users == old(store.users) + [v.value])
    ensures r.Reply? ==> NameOf(body).Str? && r.body.normalizedName == NormalizeName(NameOf(body).s)
    ensures r.Reply? ==> FindByName(store.users, r.body.normalizedName) == Some(r.body)
    ensures old(store.Valid()) ==> store.Valid()
  {
    var name := NameOf(body);
    var avatar := AvatarOf(body);
    if !Truthy(name) {
      return Fail(400, "Name is required");
    }
    if !name.Str? {
      return Fail(500, "Failed to create user");
    }
    if Trim(name.s) == "" {
      return Fail(400, "Name is required");
    }
    var normalizedName := NormalizeName(name.s);
    var user := FindByName(store.users, normalizedName);
    if user.None? {
      ghost var v := ValidateUser(Trim(name.s), avatar, id, now);
      TrimIdempotent(name.s);
      assert v.Ok? ==> v.value.normalizedName == normalizedName;
      var saved := store.Save(Trim(name.s), avatar, id, now);
      assert saved == v;
      if saved.Err? {
        return Fail(500, "Failed to create user");
      }
      assert store.users == old(store.users) + [saved.value];
      FindByNameAfterInsert(old(store.users), saved.value);
      return Reply(200, saved.value);
    }
    assert store.users == old(store.users);
    r := Reply(200, user.value);
  }

  /** `getUserById`: 404 when no user has the id; an id that is not an ObjectId makes the
      lookup throw, answered with 500. */
  method GetUserById(store: UserStore, id: string, isObjectId: Js -> bool) returns (r: Response<User>)
    ensures !isObjectId(Str(id)) ==> r == Fail(500, "Failed to fetch user")
    ensures isObjectId(Str(id)) && (forall u :: u in store.users ==> u.id != id) ==> r == Fail(404, "User not found")
    ensures r.Reply? ==> r.status == 200 && r.body in store.users && r.body.id == id
    ensures isObjectId(Str(id)) && (exists u :: u in store.users && u.id == id) ==> r.Reply?
  {
    if !isObjectId(Str(id)) {
      return Fail(500, "Failed to fetch user");
    }
    var user := FindById(store.users, id);
    if user.None? {
      return Fail(404, "User not found");
    }
    r := Reply(200, user.value);
  }
}

=== FILE: user_model.dfy ===
/**
  The `User` schema (`user.model.js`): a required, trimmed name of 2 to 60 characters, the
  unique `normalizedName` that the pre-validate hook derives from it, and an avatar that
  defaults to the empty string. `timestamps` stamps both dates with the time of saving.
 */
module UserModel {
  import opened Wrappers
  import opened JsValue
  import opened Text

  const MIN_NAME_LENGTH: nat := 2
  const MAX_NAME_LENGTH: nat := 60
  const DEFAULT_AVATAR: string := ""

  /** A stored user. */
  datatype User = User(
    id: string,
    name: string,
    normalizedName: string,
    avatar: Js,
    createdAt: int,
    updatedAt: int)

  /** The first failing constraint, by field order. */
  datatype UserSchemaError =
    | Required(path: string)
    | TooShort(path: string)
    | TooLong(path: string)
    | CastFailed(path: string)
    | DuplicateKey(path: string)

  /** The lookup key of a user: `name.trim().toLowerCase()`. */
  function NormalizeName(name: string): (key: string)
    ensures |key| == |Trim(name)|
    ensures IsTrimmed(key)
    ensures key == [] <==> AllSpace(name)
  {
    TrimToLower(name);
    TrimIdempotent(name);
    ToLower(Trim(name))
  }

  /** The key ignores white space around the name and the case of its letters, and a key is
      its own key. */
  lemma NormalizeNameIgnoresCaseAndSpace(a: string, name: string, b: string)
    requires AllSpace(a) && AllSpace(b)
    ensures NormalizeName(a + name + b) == NormalizeName(name)
    ensures NormalizeName(ToLower(name)) == NormalizeName(name)
    ensures NormalizeName(NormalizeName(name)) == NormalizeName(name)
  {
    TrimIgnoresOuterSpace(a, name, b);
    TrimToLower(name);
    ToLowerIdempotent(Trim(name));
    TrimToLower(Trim(name));
    TrimIdempotent(name);
  }

  /** The `avatar` path: the default when absent; a string, or null, is stored as given. */
  function CastAvatar(avatar: Js): (r: Option<Js>)
    ensures avatar.Undefined? ==> r == Some(Str(DEFAULT_AVATAR))
    ensures (avatar.Str? || avatar.Null?) ==> r == Some(avatar)
    ensures r.Some? ==> r.value.Str? || r.value.Null?
  {
    if avatar.Undefined? then Some(Str(DEFAULT_AVATAR))
    else if avatar.Str? || avatar.Null? then Some(avatar)
    else None
  }

  /** `pre('validate')`: sets the key whenever the (already trimmed) name is non-empty. */
  function PreValidate(name: string): (normalizedName: Option<string>)
    ensures normalizedName.Some? <==> name != ""
    ensures normalizedName.Some? ==> normalizedName.value == NormalizeName(name)
  {
    if name != "" then Some(NormalizeName(name)) else None
  }

  /** `new User({ name, avatar }).validate()`: the `trim` setter, then the hook, then the
      constraints, stamped with the generated id and the time of saving. */
  function ValidateUser(name: string, avatar: Js, id: string, now: int): (r: Result<User, UserSchemaError>)
    ensures r.Ok? <==>
      MIN_NAME_LENGTH <= |Trim(name)| <= MAX_NAME_LENGTH && CastAvatar(avatar).Some?
    ensures r.Ok? ==>
      && r.value.name == Trim(name) && IsTrimmed(r.value.name)
      && r.value.normalizedName == NormalizeName(name)
      && r.value.avatar == CastAvatar(avatar).value
      && r.value.id == id && r.value.createdAt == now && r.value.updatedAt == now
    ensures Trim(name) == "" ==> r == Err(Required("name"))
  {
    var trimmed := Trim(name);
    var normalizedName := PreValidate(trimmed);
    assert normalizedName.Some? ==> normalizedName.value == NormalizeName(name) by {
      TrimIdempotent(name);
    }
    if trimmed == "" then Err(Required("name"))
    else if |trimmed| < MIN_NAME_LENGTH then Err(TooShort("name"))
    else if |trimmed| > MAX_NAME_LENGTH then Err(TooLong("name"))
    else if normalizedName.None? then Err(Required("normalizedName"))
    else if CastAvatar(avatar).None? then Err(CastFailed("avatar"))
    else Ok(User(id, trimmed, normalizedName.value, CastAvatar(avatar).value, now, now))
  }

  /** The unique index on `normalizedName`. */
  predicate UniqueNames(users: seq<User>) {
    forall i, j :: 0 <= i < j < |users| ==> users[i].normalizedName != users[j].normalizedName
  }

  /** `User.findOne({ normalizedName })` */
  function FindByName(users: seq<User>, normalizedName: string): (r: Option<User>)
    ensures r.Some? ==> r.value in users && r.value.normalizedName == normalizedName
    ensures r.None? <==> forall u :: u in users ==> u.normalizedName != normalizedName
  {
    if users == [] then None
    else if users[0].normalizedName == normalizedName then Some(users[0])
    else
      assert forall u :: u in users ==> u == users[0] || u in users[1..];
      FindByName(users[1..], normalizedName)
  }

  /** `User.findById(id)` */
  function FindById(users: seq<User>, id: string): (r: Option<User>)
    ensures r.Some? ==> r.value in users && r.value.id == id
    ensures r.None? <==> forall u :: u in users ==> u.id != id
  {
    if users == [] then None
    else if users[0].id == id then Some(users[0])
    else
      assert forall u :: u in users ==> u == users[0] || u in users[1..];
      FindById(users[1..], id)
  }

  /** Under the unique index, the key names at most one user, so every user is what a lookup
      of its own key finds. */
  lemma {:induction false} FindByNameUnique(users: seq<User>, u: User)
    requires UniqueNames(users)
    requires u in users
    ensures FindByName(users, u.normalizedName) == Some(u)
  {
    if users[0] != u {
      assert u in users[1..];
      assert UniqueNames(users[1..]) by {
        forall i, j | 0 <= i < j < |users| - 1
          ensures users[1..][i].normalizedName != users[1..][j].normalizedName
        {
          assert users[1..][i] == users[i + 1] && users[1..][j] == users[j + 1];
        }
      }
      var k :| 0 <= k < |users| && users[k] == u;
      assert users[0].normalizedName != u.normalizedName;
      FindByNameUnique(users[1..], u);
    }
  }

  /** Inserting a user whose key is not yet taken keeps the keys unique. */
  lemma AppendKeepsUnique(users: seq<User>, u: User)
    requires UniqueNames(users)
    requires FindByName(users, u.normalizedName).None?
    ensures UniqueNames(users + [u])
  {
    var all := users + [u];
    forall i, j | 0 <= i < j < |all|
      ensures all[i].normalizedName != all[j].normalizedName
    {
      if j == |users| {
        assert all[i] in users;
      }
    }
  }

  /** The users collection. */
  class UserStore {
    var users: seq<User>

    ghost predicate Valid()
      reads this
    {
      UniqueNames(users)
    }

    constructor ()
      ensures users == [] && Valid()
    {
      users := [];
    }

    /** `newUser.save()`: validates, then inserts unless the unique index already holds the
        key (a duplicate-key error). */
    method Save(name: string, avatar: Js, id: string, now: int) returns (r: Result<User, UserSchemaError>)
      modifies this
      ensures var v := ValidateUser(name, avatar, id, now);
        && (v.Err? ==> r == v && users == old(users))
        && (v.Ok? && FindByName(old(users), v.value.normalizedName).Some? ==>
              r == Err(DuplicateKey("normalizedName")) && users == old(users))
        && (v.Ok? && FindByName(old(users), v.value.normalizedName).None? ==>
              r == v && users == old(users) + [v.value])
      ensures old(Valid()) ==> Valid()
    {
      r := ValidateUser(name, avatar, id, now);
      if r.Ok? {
        if FindByName(users, r.value.normalizedName).Some? {
          r := Err(DuplicateKey("normalizedName"));
        } else {
          if UniqueNames(users) {
            AppendKeepsUnique(users, r.value);
          }
          users := users + [r.value];
        }
      }
    }
  }
}

=== FILE: wrappers.dfy ===
/** Option and Result, used wherever the source returns null/undefined or an error. */
module Wrappers {

  datatype Option<+T> = None | Some(value: T) {
    function GetOr(default: T): T {
      match this
      case Some(v) => v
      case None => default
    }
  }

  datatype Result<+R, +E> = Ok(value: R) | Err(error: E)
}
